=== FILE: README.md ===
# Capstone workflow (student side) in Dafny

This project models the student-facing pages of a capstone-project tracker and proves
properties about them. A group of students moves through these steps:

- It submits a project working title, with at most three active titles per group and at most
  five versions per title.
- The title is approved by the capstone adviser, then the capstone professor, then the dean.
- The group then uploads a title-defense document and a final-defense document. The final defense
  is open to fourth-year students only.
- A grammarian reviews the uploaded manuscript.
- Last, the group submits one capstone entry to the research repository.

Around these steps sit the read-only views. The dashboard shows progress badges and an overall
percentage. "My projects" shows the repository entry's status and any rejection remarks. The
research view page builds an APA-style citation. The bookmark endpoints add and remove bookmarks.
The page that generates the approval letter fills in the letter, and the documentation export lays
out a research paper as PDF or Word.

Every database table the pages change is a class. Each class holds a `map` from row id to row and
a `nextId` AUTO_INCREMENT counter. Each request handler is a method on that class. Its `ensures`
gives the outcome as a function of the request and the old rows, and gives the new rows exactly.
The pure parts are functions with lemmas about them: validation, listings, badges, name and
citation formatting, the letter, and the export layout. The PHP string built-ins the pages rely
on are written out in `php_strings.dfy`: `trim`, `explode`/`implode`, `strtolower`/`strtoupper`,
`pathinfo` extensions, `preg_replace` sanitisers, `preg_split('/\s+/')`, `rtrim` with a character
and the `(int)` cast.

Files, one module each:

| file | module | what it holds |
|---|---|---|
| `php_strings.dfy` | `PhpStrings` | the PHP string built-ins the pages use |
| `records.dfy` | `Records` | rows, the student directory (group codes, year/section), "latest row" and counting helpers |
| `project_store.dfy` | `ProjectStore` | `submit_research.php`: validation, listing, versioning, delete, version history |
| `defense.dfy` | `Defense` | `title-defense.php` and `final-defense.php` |
| `manuscript.dfy` | `Manuscript` | `manuscript_upload.php` |
| `capstone.dfy` | `Capstone` | `submit_manuscript.php` and `process_capstone.php` |
| `dashboard.dfy` | `Dashboard` | `home.php` and `my_projects.php` |
| `citation.dfy` | `Citation` | `view_research.php` |
| `bookmarks.dfy` | `Bookmarks` | `api/bookmark.php` and `remove_bookmark.php` |
| `letter.dfy` | `Letter` | `generate_pdf.php` |
| `export.dfy` | `Export` | `export-documentation.php` |

Some of the documented design and the code disagree. In each case the model follows the code:

- **No single active version.** The design says a title always has exactly one non-archived
  version. The code does not keep this:
  - The update handler marks the old row archived before it inserts the new version, so a failed
    insert leaves no active row (`ProjectStore.ProjectTable.UpdateSubmission`, outcome
    `UpdateInsertFailed`).
  - The update handler's permission query does not exclude archived rows. Editing an archived
    version by its id therefore adds a second active row (`ProjectStore.NewVersionListing`).
  - The archiving UPDATE's result is not checked. If it fails, the edited row stays active beside
    its new version (`ProjectStore.UnarchivedNewVersionListing`).
- **No submission block after full approval.** The design refuses a new submission once the group
  has a fully approved project. The code only hides the "Submit Another Project" button in that
  case. The server-side guard checks only the three-title cap (`ProjectStore.ProjectTable.SubmitNew`).
- **Approval decisions are not part of this model.** The design describes decisions taken in strict
  stage order. Those decisions are made on the faculty and dean pages, which are not part of this
  model. Here the stage columns are data, read as they are stored.
- **Defense records are per project id.** The design keys them by the project's original version.
  The code keys them by the `project_id` in the request.

## Model

| member | source | states |
|---|---|---|
| PhpStrings.Lower | student/my_projects.php:145 | `strtolower`: same length, each character lowered one by one |
| PhpStrings.Upper | student/export-documentation.php:104 | `strtoupper`: same length, each character raised one by one |
| PhpStrings.TrimLeftSpec | student/submit_research.php:463-472 | `trim`'s left half drops exactly the leading run of PHP trim characters and leaves a non-space first character |
| PhpStrings.TrimRightSpec | student/submit_research.php:463-472 | `trim`'s right half drops exactly the trailing run of trim characters and leaves a non-space last character |
| PhpStrings.TrimOfTrimmed | student/submit_research.php:463-472 | trimming text without surrounding spaces changes nothing |
| PhpStrings.TrimIsTrimmed | student/submit_research.php:463-472 | a trimmed text starts and ends with a non-space character (or is empty) |
| PhpStrings.Explode | student/view_research.php:66 | `explode` yields at least one piece and no piece contains the separator |
| PhpStrings.ImplodeExplode | student/export-documentation.php:402-409 | joining the pieces of `explode` with the same separator gives back the text |
| PhpStrings.ExplodeImplode | student/export-documentation.php:402-409 | exploding a join of separator-free pieces gives back the pieces |
| PhpStrings.ExplodeNoSep | student/view_research.php:70 | text without the separator explodes to itself alone |
| PhpStrings.ExplodeAppend | student/view_research.php:66 | a separator-free head followed by the separator is split off as the first piece |
| PhpStrings.ExplodeFirst | student/generate_pdf.php:76-78 | the first piece is the prefix before the first separator, and is shorter than the text exactly when a separator occurs |
| PhpStrings.ExplodeCount | student/view_research.php:66 | there is one piece more than there are separators |
| PhpStrings.AfterLastSpec | student/title-defense.php:81 | the text after the last occurrence of a character is a suffix without that character, preceded by it |
| PhpStrings.ExtensionSpec | student/title-defense.php:81 | the `pathinfo` extension is a suffix of the name without dots or slashes |
| PhpStrings.PdfSuffixAccepted | student/title-defense.php:81-84 | a name ending in a dot and any case of "pdf" passes the extension check |
| PhpStrings.PdfNameNotEmpty | student/title-defense.php:78-84 | a name that passes the extension check has at least four characters and is not `empty()` |
| PhpStrings.SanitizedPdfNameNotEmpty | student/title-defense.php:163-164 | the sanitised name of an accepted PDF is not `empty()` |
| PhpStrings.NoDotRefused | student/title-defense.php:81-84 | a base name without a dot is refused |
| PhpStrings.SanitizeName | student/title-defense.php:163 | the sanitiser keeps the name's length |
| PhpStrings.SanitizeNameSpec | student/title-defense.php:163 | each character outside `A-Za-z0-9._-` becomes `_`, the rest stay, and every result character is safe |
| PhpStrings.SanitizeNameIdempotent | student/title-defense.php:163 | sanitising twice is sanitising once |
| PhpStrings.SanitizeAlnum | student/process_capstone.php:55 | each character outside `A-Za-z0-9` becomes `_`, the rest stay |
| PhpStrings.DropPcreSpace | student/view_research.php:14 | the leading whitespace `(int)` skips is a prefix, and what is left starts with a non-space |
| PhpStrings.CollapseSpacesSingleSpaced | student/process_capstone.php:82-83 | after `preg_replace('/\s+/', ' ')` no two spaces are adjacent and no other whitespace remains |
| PhpStrings.SplitSpaces | student/export-documentation.php:103 | `preg_split('/\s+/')` yields at least one piece |
| PhpStrings.SplitSpacesOnSingleSpaced | student/export-documentation.php:103 | on single-spaced text `preg_split('/\s+/')` equals `explode(' ')` |
| PhpStrings.DropBlanks | student/export-documentation.php:210 | the run of spaces and tabs that is replaced is a prefix, and what is left starts with neither |
| PhpStrings.CollapseBlanks | student/export-documentation.php:210 | after `preg_replace('/[ \t]+/', ' ')` no tab remains |
| PhpStrings.SplitBlanks | student/export-documentation.php:210 | the pieces between runs of spaces and tabs hold no blank, and there is at least one |
| PhpStrings.CollapseBlanksJoinsPieces | student/export-documentation.php:210 | each run of blanks becomes exactly one space: the result is the blank-free pieces joined by single spaces |
| PhpStrings.CollapseBlanksKeeps | student/export-documentation.php:210 | every character that is not a space or tab survives, in order |
| PhpStrings.CollapseBlanksNoDouble | student/export-documentation.php:210 | no two blanks stand side by side afterwards |
| PhpStrings.CollapseBlanksFixed | student/export-documentation.php:210 | text with no tab and no double blank is left unchanged |
| PhpStrings.DropSpacesOnly | student/export-documentation.php:211 | the dropped prefix consists of spaces only, and what is left starts with a non-space |
| PhpStrings.TightenNewlines | student/export-documentation.php:211 | `preg_replace('/ *\n */', "\n")` introduces no new character |
| PhpStrings.TightenNewlinesSound | student/export-documentation.php:211 | afterwards no space stands next to a newline |
| PhpStrings.TightenNewlinesKeeps | student/export-documentation.php:211 | only spaces are removed: every other character survives, in order |
| PhpStrings.TightenNewlinesFixed | student/export-documentation.php:211 | text with no space beside a newline is left unchanged, so no space away from a newline is removed |
| PhpStrings.RTrimCharSpec | student/process_capstone.php:94 | `rtrim($s, "@")` removes exactly the trailing run of `@` and leaves a last character other than `@` |
| PhpStrings.DigitPrefixSpec | student/view_research.php:14 | the digits `(int)` reads are a prefix made of digits only |
| PhpStrings.Decimal | student/view_research.php:14 | a number's decimal text is non-empty and made of digits |
| PhpStrings.DecimalValue | student/view_research.php:14 | the decimal text reads back as the number |
| PhpStrings.IntCastDecimal | student/view_research.php:14 | `(int)` of a non-negative number's decimal text is that number |
| PhpStrings.IntCastNegativeDecimal | student/view_research.php:14 | `(int)` of a minus sign followed by decimal digits is the negated number |
| Records.GroupMatesAreSymmetric | student/submit_research.php:190-200 | being in the caller's group (same non-NULL group code) is symmetric |
| Records.UngroupedSeesOnlyOwn | student/submit_research.php:190-200 | a caller without a group code reaches only rows they submitted themself |
| Records.FourthYearTestsDifferOnMissingRow | student/title-defense.php:396-404 | the Next-button test implies the page test, and the two differ exactly on students without a `students` row |
| Records.HighestWhere | student/submit_manuscript.php:44 | `ORDER BY id DESC LIMIT 1` picks a matching row with no matching row above it, and finds none only when no row matches |
| Records.HighestWhereIsMax | student/manuscript_upload.php:66 | over ids below the counter, the chosen row is the largest matching id, and none is chosen exactly when nothing matches |
| Records.CountWhereConcat | student/home.php:71-77 | the count over two lists one after the other is the sum of their counts |
| Records.CountWhereAppend | student/home.php:71-77 | appending one element adds one to the count exactly when that element satisfies the condition |
| ProjectStore.Cleaned | student/submit_research.php:463-472 | the cleaned form has four proponent slots and keeps the posted gender |
| ProjectStore.CleanedIsTrimmed | student/submit_research.php:463-472 | every text field of the cleaned form is trimmed |
| ProjectStore.AllMetMeansEveryRequirement | student/submit_research.php:475-488 | the form is valid exactly when each required field is non-empty and the gender is `male` or `female` |
| ProjectStore.Validate | student/submit_research.php:475-488 | no error exactly when the form is valid; a reported error names a requirement that fails, and every requirement checked before it holds |
| ProjectStore.ListingUpTo | student/submit_research.php:187-213 | the listing holds exactly the caller's own or group's non-archived rows, in strictly descending id order |
| ProjectStore.ListingEnumeratesActiveSet | student/submit_research.php:187-213 | the listing's ids are exactly the active set of the caller's own and group rows |
| ProjectStore.StatusLines | student/submit_research.php:779-841 | without an assigned adviser only "Awaiting Assignment"; otherwise the faculty stage comes first, the adviser stage is shown iff the faculty approved, the dean stage iff faculty and adviser approved, and the letter and Next iff all three approved |
| ProjectStore.StageLabel | student/submit_research.php:797-814 | a stage shows "Approved" iff approved, the awaiting text iff pending, and "Rejected" otherwise (rejected or unset) |
| ProjectStore.HasFullyApprovedProject | student/submit_research.php:847-856 | the loop finds a fully approved project iff some listed project has all three approvals |
| ProjectStore.InsertByVersion | student/submit_research.php:129 | insertion keeps the id list a permutation plus the new id, and sorted by version |
| ProjectStore.SortByVersion | student/submit_research.php:129 | `ORDER BY pw.version ASC`: the result is a permutation of the input sorted by effective version |
| ProjectStore.HistoryUpTo | student/submit_research.php:119-139 | the history ids are exactly the rows with the same title submitted within the caller's group, ascending |
| ProjectStore.VersionHistory | student/submit_research.php:93-139 | the history is sorted by version; it lists exactly the group's rows with the requested row's title when the caller may see that row, and nothing otherwise; an ungrouped caller gets an empty history |
| ProjectStore.EditRequest | student/submit_research.php:270-297 | the editor opens iff the row is the caller's own or group's and its version is below 5; "not found" iff the row is missing or belongs to someone else |
| ProjectStore.UnarchivedNewVersionListing | student/submit_research.php:396-409 | when the archiving fails, the new version joins the active set and a listed edited row stays listed beside it |
| ProjectStore.NewVersionListing | student/submit_research.php:394-409 | a new version replaces its parent in the active set; when the parent was already archived, the active set grows by one |
| ProjectStore.ProjectTable.SubmitNew | student/submit_research.php:457-507 | refused once the group has 3 active titles; otherwise the first validation error, or nothing on a failed insert, or a version-1 row without adviser, with its initial approval row exactly when that unchecked second INSERT succeeds |
| ProjectStore.ProjectTable.UpdateSubmission | student/submit_research.php:342-447 | refusals leave everything unchanged; a valid edit archives the old row when that unchecked UPDATE succeeds, then inserts version + 1 with the same adviser and copies the approval row when one exists and the unchecked copy succeeds; a failed insert leaves only the archiving behind |
| ProjectStore.ProjectTable.InsertVersion | student/submit_research.php:402-422 | the new version goes in under the next id, and the edited row's approval row is copied to it iff one exists and the copy succeeds |
| ProjectStore.ProjectTable.DeleteSubmission | student/submit_research.php:305-333 | acts iff the caller or their group owns the row and no adviser is assigned; then the approval row is deleted in any case, and the project row too exactly when its DELETE succeeds (otherwise "Error deleting the project"); a refused request changes nothing |
| Defense.UploadErrorOf | student/title-defense.php:134-145 | size errors (INI and form limits) read as "too large"; codes other than the four named ones read as a numbered failure |
| Defense.SubmitCheck | student/title-defense.php:77-86 | a first upload passes iff a file was chosen, the type checks pass (final defense: MIME type and extension) and, for the final defense, the file was moved; a chosen file of the wrong type reads "Only PDF" |
| Defense.EditCheck | student/title-defense.php:132-165 | a replacement passes iff a file was chosen, no upload error occurred, it is a PDF, its size is positive and it was moved; the type check comes before the size check |
| Defense.TitleSubmitIgnoresMove | student/title-defense.php:86-88 | the title defense's first upload does not look at whether the file was moved |
| Defense.ViewOf | student/title-defense.php:48-73 | without a record the page shows the placeholder (no file, pending, no schedule, no remarks); otherwise the record's file and status |
| Defense.OfferedActionsExclusive | student/title-defense.php:307-322 | unsubmit and edit are never both offered; neither is offered once approved; edit is not offered once the schedule has passed |
| Defense.NextLeadsPastFinalGate | student/title-defense.php:388-410 | whenever the Next link is shown, the final-defense page's fourth-year gate lets the student in, and neither edit nor unsubmit is offered |
| Defense.PlaceholderOffersOnlyUpload | student/title-defense.php:66-73 | with no record, no unsubmit, edit, Next or manuscript link is offered |
| Defense.DefenseTable.Submit | student/final-defense.php:25-127 | non-fourth-years are turned away from the final defense; with an existing record nothing happens; otherwise the upload check decides, then a pending record with the upload is stored iff the INSERT succeeds; a failed INSERT changes nothing and is reported only on the final-defense page |
| Defense.DefenseTable.Unsubmit | student/title-defense.php:117-128 | with the gate open and a record present, the record is deleted iff the DELETE succeeds; a failed DELETE changes nothing and is reported only on the final-defense page; nothing else changes |
| Defense.DefenseTable.Edit | student/title-defense.php:130-180 | with a record, a passing check and a successful UPDATE only the file changes, to the sanitised name; a failed UPDATE is reported and changes nothing; otherwise nothing changes |
| Manuscript.UploadCheckAccepts | student/manuscript_upload.php:84-90 | passes iff a file was chosen with PDF MIME type and extension and it was moved; a chosen non-PDF reads "Only PDF" |
| Manuscript.GroupMateMayEdit | student/manuscript_upload.php:139-158 | a group mate with a non-empty shared group code may replace the manuscript |
| Manuscript.EditRequiresSubmitterOrSharedCode | student/manuscript_upload.php:139-158 | a permitted editor needs a recorded submitter; without a group code only the submitter may edit |
| Manuscript.ControlsOrNext | student/manuscript_upload.php:739 | with a review, the edit controls and the Next link are shown in exactly complementary cases; with none, neither is shown |
| Manuscript.Resubmitted | student/manuscript_upload.php:176-179 | a replaced manuscript is pending again with the new file and date, and its notes, review date and reviewer are cleared; project, student and reviewed file are kept |
| Manuscript.ReviewTable.LatestId | student/manuscript_upload.php:66 | the latest review of a project is the largest id among its reviews, and there is none exactly when it has none |
| Manuscript.ReviewTable.Upload | student/manuscript_upload.php:82-122 | refused unless the final defense is approved; refused when a review exists; otherwise the check decides, then a pending review by the caller is inserted iff the INSERT succeeds, and a failed INSERT is reported and changes nothing |
| Manuscript.ReviewTable.Replace | student/manuscript_upload.php:136-199 | only the latest review changes, only for the submitter or a group mate, only when the upload passes and the UPDATE succeeds; it is reset to pending as `Resubmitted` says; a failed UPDATE is reported and changes nothing |
| Manuscript.ReviewTable.Cancel | student/manuscript_upload.php:226-245 | for the latest review's submitter the request acts, and the review is deleted iff the DELETE succeeds (a failure is reported); for anyone else, or without a review, the outcome is no message and nothing changes |
| Capstone.AccessMeansNewestProjectApproved | student/submit_manuscript.php:15-57 | access is granted iff the caller's (or group's) newest project has an approved newest manuscript review |
| Capstone.GroupCountZero | student/submit_manuscript.php:59-81 | the group's capstone count is zero iff no entry is owned by a member of the caller's group |
| Capstone.UngroupedCountsZero | student/submit_manuscript.php:59-81 | a caller without a group code always counts zero |
| Capstone.Branch | student/submit_manuscript.php:130-142 | the form shows iff access is granted and the count is zero; "already submitted" iff access and a positive count; otherwise "complete all steps" |
| Capstone.AddAuthorForm | student/submit_manuscript.php:249-253 | a form is added only while fewer than 10 exist |
| Capstone.AddAuthorFormCapped | student/submit_manuscript.php:249-253 | the number of author forms never exceeds 10 |
| Capstone.Serialize | student/submit_manuscript.php:297-310 | one JSON author per form, with first and last name always set and middle name and suffix null exactly when left blank |
| Capstone.DisplayNames | student/process_capstone.php:74-85 | one display name per author |
| Capstone.NonEmpty | student/process_capstone.php:86 | `array_filter` keeps only non-empty names taken from the list |
| Capstone.CollectNames | student/process_capstone.php:74-85 | the loop refuses iff some author lacks a first or last name; otherwise it yields the display names |
| Capstone.CollectEntries | student/process_capstone.php:90-93 | the loop builds the `STUDENT_DATA:` prefix followed by every author's entry |
| Capstone.EncodeAuthors | student/process_capstone.php:64-95 | the encoding loop computes the author fields of the entry |
| Capstone.AuthorFieldsRefusal | student/process_capstone.php:74-95 | refused iff some author is missing a name; otherwise the stored author is the compact entries, `rtrim`med of `@`, then `|DISPLAY:` and the display string |
| Capstone.DisplayNamesSingleSpaced | student/process_capstone.php:82-83 | every display name is single-spaced |
| Capstone.EntryList | student/process_capstone.php:90-93 | one entry per author |
| Capstone.EntriesJoin | student/process_capstone.php:90-93 | the concatenated entries are the entries joined by `@@` with a trailing `@@` |
| Capstone.CompactLayout | student/process_capstone.php:89-94 | when the last suffix does not end in `@`, the stored author is the prefix, the entries joined by `@@`, the display marker and the display string |
| Capstone.RTrimCharTwice | student/process_capstone.php:94 | `rtrim` removes exactly the trailing `@@` when the text before it does not end in `@` |
| Capstone.TrailingAtLost | student/process_capstone.php:92-94 | an author whose suffix is `@` loses that character in the stored compact form |
| Capstone.EntryFields | student/process_capstone.php:89-92 | an entry splits on `|` back into first, middle, last and suffix when none of them contains `|` |
| Capstone.PreUploadCheckAccepts | student/process_capstone.php:16-62 | the checks before the move pass iff all fields are non-empty, 1900 ≤ `(int)` year ≤ current year, the name ends in `.pdf`, the size is within 50 MB and the move succeeds; the year error is reported iff the fields are present and the year is out of range |
| Capstone.DecimalYearAccepted | student/process_capstone.php:23-25 | a year typed as plain digits is accepted iff its value lies between 1900 and the current year |
| Capstone.PostUploadCheckAccepts | student/process_capstone.php:64-160 | the checks after the move pass iff the author list is non-empty with every name present, the user and student rows exist and the group has no capstone yet |
| Capstone.CapstoneTable.Submit | student/process_capstone.php:16-167 | the file is stored iff the first checks pass and removed again iff a later step refuses; it stays on disk exactly when the submission is recorded, which happens iff both checks pass and the INSERT succeeds, and then a row with status `nonverified` is inserted |
| Capstone.CapstoneTable.RecordUpload | student/process_capstone.php:64-167 | after the file is stored: refused with the first failing post-upload check, otherwise a `nonverified` row with the compact authors is inserted, or nothing on a failed insert |
| Capstone.OnePerGroup | student/process_capstone.php:128-167 | after the first submission of a grouped caller the group's count is exactly one |
| Citation.FormatNames | student/view_research.php:66-85 | one formatted name per comma-separated piece |
| Citation.FormatAuthorApa | student/view_research.php:61-97 | the page's two nested loops compute the APA author string |
| Citation.NameInitials | student/view_research.php:79-83 | the inner loop collects exactly the initials of every part but the last |
| Citation.ApaCount | student/view_research.php:66 | the author list has one entry more than the field has commas |
| Citation.InitialsSpec | student/view_research.php:78-83 | one initial per name part that has a first letter, each two characters ending in a dot |
| Citation.SingleWordName | student/view_research.php:70-84 | a one-word name is printed whole, followed by ", " and no initials |
| Citation.TwoAuthorsFollowGeneralForm | student/view_research.php:87-96 | the two-author form is the general "A, B, & C" form with a one-name head |
| Citation.SingleAuthor | student/view_research.php:66-91 | a field without commas is one author, formatted on its own |
| Citation.HtmlEscapeSafe | student/view_research.php:102-103 | escaped text holds no `<`, `>` or quote characters; `&` is the only special character left |
| Citation.HtmlEscapeRoundTrip | student/view_research.php:102-103 | decoding the five entities gives the original text back, so no character is lost or confused by escaping |
| Citation.HtmlEscapePlain | student/view_research.php:102-103 | text without special characters is not changed by escaping |
| Citation.YearNeedsNoEscape | student/view_research.php:102 | the printed year is not changed by escaping |
| Citation.CitationShape | student/view_research.php:100-105 | the citation starts with the authors and ends with ". CCS Research Repository." |
| Citation.ViewResearchSpec | student/view_research.php:13-58 | an id ≤ 0 is refused; an entry is shown iff its id is positive and it is verified, with its own citation; "bookmarked" only for a logged-in student |
| Citation.MissingIdRefused | student/view_research.php:14-19 | a missing or empty id parameter is refused |
| Dashboard.Deans | student/home.php:71-77 | one dean column per listed project, read from its approval row |
| Dashboard.CountProjects | student/home.php:67-77 | total, approved (dean approved) and pending (all others) counts of the listed projects |
| Dashboard.ApprovedPlusPending | student/home.php:67-77 | approved and pending always add up to the total |
| Dashboard.ListingTotal | student/home.php:41-67 | the total counts the caller's own and group rows, archived versions included, and is positive iff such a row exists |
| Dashboard.DefenseProjectSpec | student/home.php:89-118 | the defense row comes from the newest own or group project that the dean approved, and is absent iff there is none |
| Dashboard.DefenseProjectAtMostCurrent | student/home.php:89-121 | the defense project is never newer than the newest project, and equals it when that one is dean approved |
| Dashboard.DefenseBadgeTexts | student/home.php:486-540 | title bar: 100 iff approved, 70 with the status text iff pending or rejected, 0 "Not Started" without a record; final bar: 100, 80 or 0 |
| Dashboard.FinalBadgeWithoutRecord | student/home.php:521-535 | without a final defense: "Not Started" for fourth-years, "Locked (4th year)" otherwise, width 0 |
| Dashboard.GrammarianBarOrder | student/home.php:549-570 | grammarian widths strictly increase from none to rejected, pending, under review and approved (100), are distinct per status, and show "pending" for pending and under review |
| Dashboard.SubmitBadgeTexts | student/home.php:583-598 | "Submitted" iff the group has a capstone, "Ready" iff not yet but the manuscript is approved, otherwise "Locked" |
| Dashboard.UpcomingShowsStarted | student/home.php:434-436 | an upcoming defense is shown iff it has a schedule and is not approved, and then its bar is at 70 or 80 |
| Dashboard.OverallProgress | student/home.php:611-617 | 20 points per completed milestone, a multiple of 20 up to 100, and 100 iff all five milestones are met |
| Dashboard.MilestonesAreFullBars | student/home.php:611-617 | each milestone counted is exactly a progress bar at 100% |
| Dashboard.LatestGroupSubmissionSpec | student/my_projects.php:18-43 | the shown entry is the newest capstone of the caller's group, and there is none iff the group count is zero (always for an ungrouped caller) |
| Dashboard.StatusCases | student/my_projects.php:145-173 | "Approved" for verified or approved, "Rejected" for reject or rejected, "Pending" otherwise; remarks show only for the exact word "rejected" |
| Dashboard.LowerKeepsTrimmed | student/my_projects.php:145 | lowering a trimmed status keeps it trimmed |
| Dashboard.LowerIdempotent | student/my_projects.php:145 | lowering twice is lowering once |
| Dashboard.NormalizeIdempotent | student/my_projects.php:145 | normalising a status twice is normalising once |
| Dashboard.OtherLengthShowsPending | student/my_projects.php:145-170 | any trimmed status whose length is neither 6 nor 8 shows "Pending" |
| Dashboard.NewSubmissionShowsPending | student/my_projects.php:148-155 | a fresh `nonverified` entry shows "Pending" |
| Dashboard.FindLabelSpec | student/my_projects.php:55 | `stripos` finds the first case-insensitive "Remarks:" at or after the start, or reports none exactly when none occurs |
| Dashboard.ExtractRemarksWithoutLabel | student/my_projects.php:59-61 | without the label the remarks are the whole message |
| Dashboard.ExtractRemarksAfterFirstLabel | student/my_projects.php:55-58 | with a label, the remarks are the trimmed text after its first occurrence |
| Dashboard.RemarksDisplayNeverEmpty | student/my_projects.php:173-179 | the remarks box is never empty, shows the remarks when there are any and "No remarks provided." without a notification |
| Bookmarks.DecideSpec | student/api/bookmark.php:10-158 | 403 iff not a student; add or remove succeed only for a POST with a positive id of a verified entry, add needs the pair absent and remove needs it present; status 200 iff added or removed |
| Bookmarks.MissingActionAdds | student/api/bookmark.php:40-41 | a body without an action adds the bookmark |
| Bookmarks.BookmarkTable.Api | student/api/bookmark.php:86-154 | add inserts exactly the pair, remove deletes every row holding it, every other outcome changes nothing, and other users' bookmarks are never touched |
| Bookmarks.BookmarkTable.RemoveById | student/remove_bookmark.php:14-44 | only the caller's own bookmark with a positive id is deleted; nothing else changes |
| Bookmarks.RemoveDecisionSpec | student/remove_bookmark.php:14-39 | deletion happens iff a student asks for a positive id of their own bookmark and the delete succeeds; ids ≤ 0 are refused; another user's bookmark reads "not found or unauthorized" |
| Letter.FocalLastNameSpec | student/generate_pdf.php:74-79 | "N/A" without a comma; otherwise the trimmed text before the first comma |
| Letter.NumberedCount | student/generate_pdf.php:67-72 | one numbered line per proponent slot that `array_filter` keeps |
| Letter.NumberedEntries | student/generate_pdf.php:161-164 | each line carries a kept slot's name, numbered by that slot's position plus one (the kept array key) |
| Letter.NumberedIncreasing | student/generate_pdf.php:161-164 | the numbers strictly increase |
| Letter.NumberedCovers | student/generate_pdf.php:161-164 | every kept slot appears among the lines |
| Letter.ProponentLines | student/generate_pdf.php:161-167 | the proponents block always has at least one line |
| Letter.ProponentLineNotPlaceholder | student/generate_pdf.php:163-166 | a numbered proponent line never reads "No proponents listed." |
| Letter.NumberedEmpty | student/generate_pdf.php:67-72 | there are no numbered proponents iff no slot is kept |
| Letter.NoProponentsLine | student/generate_pdf.php:161-167 | the block is the single "No proponents listed." line iff no slot is kept |
| Letter.FocalLastNameOf | student/generate_pdf.php:74-79 | for "Last,rest" with a trimmed, comma-free last name, the focal last name is that last name |
| Letter.MissingFocalPerson | student/generate_pdf.php:65 | a missing focal person is greeted by the default's last name "Focal Person" |
| Letter.NoCommaGreetsNa | student/generate_pdf.php:75-79 | a focal person without a comma is greeted as "N/A" after the gender's title |
| Letter.GenerateLetterSpec | student/generate_pdf.php:17-49 | a letter is produced iff the user is logged in and an existing project id is given, and its title line is "Proposed Study: " and the project's title |
| Export.ShortTitleOfSplit | student/export-documentation.php:103-104 | the running title is the first five words upper-cased, plus "..." iff there are more than five |
| Export.ShortTitlePdfSpec | student/export-documentation.php:258-270 | the PDF running title is an upper-cased prefix of the title: all of it below five spaces, otherwise cut at the fifth space with "..." appended |
| Export.ShortTitlesAgree | student/export-documentation.php:259-270 | on single-spaced titles the PDF and Word running titles agree |
| Export.ShortTitlesAgreeOnCollapsed | student/export-documentation.php:103-104 | after collapsing whitespace the two running titles agree |
| Export.HeaderShown | student/export-documentation.php:273-277 | the header and footer are never drawn on page 1 |
| Export.HeaderOnContentPages | student/export-documentation.php:358-415 | with the title-page flag set for the title pages, the header shows iff the page is a content page |
| Export.MemberLinesPdf | student/export-documentation.php:402-409 | one trimmed line per comma-separated piece |
| Export.NonEmptyNamesSpec | student/export-documentation.php:178-183 | the Word title page skips exactly the empty names and keeps the others in order |
| Export.MembersRoundTrip | student/export-documentation.php:402-409 | non-empty, comma-free, trimmed member names joined with ", " come back unchanged on both title pages |
| Export.EmptyMemberList | student/export-documentation.php:178-183 | an empty member list gives one empty PDF line and no Word line |
| Export.NormalizeTextSpec | student/export-documentation.php:460-462 | normalised section text holds no tab and no space next to a newline, keeps every character that is not a blank in order, and is unchanged when already in that form |
| Export.ChapterSubheading | student/export-documentation.php:434-453 | each chapter has at most one subheading |
| Export.SectionBlocks | student/export-documentation.php:455-477 | a section starts with its upper-cased heading, followed only by paragraphs and gaps |
| Export.LineBlockSpec | student/export-documentation.php:466-475 | Word leaves a gap iff the line is empty, PDF iff it is blank after trimming; paragraphs are the line indented by 13 (Word) or 6 (PDF) spaces |
| Export.SpaceLineDiffers | student/export-documentation.php:466-475 | a line of one space is a paragraph in Word but a gap in PDF |
| Export.SectionBlockCount | student/export-documentation.php:455-476 | a section has its heading plus one block per line of its normalised text |
| Export.SectionBlocksCounts | student/export-documentation.php:455-477 | a section has exactly one section title and no page break |
| Export.SectionsBlocksCounts | student/export-documentation.php:455-477 | a chapter's sections give one title each and no page break |
| Export.ChapterHeadCounts | student/export-documentation.php:421-453 | a chapter head has no section title and a page break iff it is not the first chapter |
| Export.ChapterBlocksCounts | student/export-documentation.php:421-453 | a chapter has one section title per section and a page break iff it is not the first |
| Export.ContentBlocksCounts | student/export-documentation.php:421-479 | the content has one page break fewer than chapters and one section title per section |
| Export.DocumentLayout | student/export-documentation.php:28-52 | with the three defined chapters the content has 2 page breaks and 17 section titles |
| Export.ContentOpening | student/export-documentation.php:429-439 | the content opens with the upper-cased first chapter title and the "INTRODUCTION" subheading |
| Export.ExportRequested | student/export-documentation.php:494-500 | PDF is exported iff `export=pdf`, Word iff `export=word` |

## Left out

- SQL, sessions and CSRF tokens: tables are maps, the session is a parameter and the CSRF check is assumed to pass.
- The outcome of each INSERT, UPDATE or DELETE that changes workflow state is a boolean parameter (`insertOk`, `updateOk`, `writeOk`, `deleteOk`). Where a page ignores the result (the title-defense INSERT and DELETE), a failure leaves the table unchanged and the page still redirects as on success. `submit_research.php` ignores the result of three more writes, and each has its own flag: an update's archiving UPDATE (`archiveOk`) and approval copy (`copyOk`), and a new proposal's initial approval INSERT (`approvalOk`). Its fourth unchecked write, the DELETE of `project_approvals` before a project's deletion, is assumed to succeed. A failing prepare or connection is not modelled.
- Every student is assumed to have `$_SESSION['email']` set, and one user id stands for both the e-mail and the numeric id the queries use.
- The file system is not modelled. Stored file references are the uploaded names, with the directory and `time()` prefixes dropped. `unlink` and `move_uploaded_file` are boolean parameters. Capstone's file removal is the `removed` flag.
- Notifications are not modelled. The rejection notice `my_projects.php` reads is a parameter.
- HTML escaping is modelled only in the citation. The other pages' output markup is not.
- The manual file-linking form (`manuscript_upload.php:203-226`) is not modelled. It rewrites a file path and touches no workflow state.
- JSON parsing is not modelled beyond the fields the pages read.
- Capstone: the `parseAuthorData` reader on other pages is not part of this model.
- `process_capstone.php` does not recheck access to the submit form, and neither does the model.
- `home.php`'s capstone status of the caller's own entry (lines 80-87) is not modelled, nor are its bookmark count, recent papers or greeting.
- PDF and Word drawing are not modelled: fonts, geometry, images, cell sizes and the Word export's library checks. The export is modelled as a sequence of layout blocks.
- The PDF export's `iconv` transliteration is not modelled. Section text is laid out as normalised, without it.
- Date formatting is not modelled. Schedules and "now" are integers, and the letter's date line is not part of the letter text.
- PhpStrings.IntCastDecimal: `(int)` is modelled for an optional sign and decimal digits after leading whitespace. Exponent and hexadecimal forms are not modelled.
- Strings are sequences of characters, while PHP's `substr`, `strtoupper` and `preg_replace` without the `/u` flag work on bytes. The two agree on ASCII text. The next three lines name what differs for other text.
- Citation.Initial: the source takes `substr($name, 0, 1)`, the first byte. For a name that starts with a multibyte letter it prints part of that letter. The model takes the whole first character.
- PhpStrings.SanitizeName: the source's byte-wise `preg_replace` turns each byte of a non-ASCII character into its own `_`. The model writes one `_` per character. Its "keeps the length" fact counts characters, not bytes.
- PhpStrings.SanitizeAlnum: the same byte-versus-character difference as `SanitizeName`.
- `preg_replace('/ *\n */')` is modelled for `\n` only. Other line-break characters stay inside lines.
- `download.php`, `view_pdf.php`, `research-documentation.php`, `research-file.php` and `success.php` are not part of this model. They serve files or hold wizard forms.
- Concurrency is not modelled: each request runs alone against the tables.

=== FILE: bookmarks.dfy ===
/**
 * Bookmarks: the JSON endpoint that adds or removes a (student, research)
 * pair (student/api/bookmark.php) and the page that deletes one bookmark by
 * its id (student/remove_bookmark.php).
 */
module Bookmarks {
  import opened PhpStrings
  import opened Records
  import opened Citation

  /** The logged-in user and their role, when there is a session. */
  datatype Session = Session(userId: UserId, role: string)

  predicate IsStudent(s: Option<Session>) {
    s.Some? && s.value.role == "student"
  }

  /** A JSON scalar as `json_decode(..., true)` yields it. */
  datatype JsonScalar = JInt(n: int) | JText(s: string)

  /** The request body: not JSON at all, or the two fields the endpoint reads. */
  datatype Body = InvalidJson | Decoded(researchId: Option<JsonScalar>, action: Option<JsonScalar>)

  /** `(int)` of a decoded scalar. */
  function IntOf(v: JsonScalar): int {
    match v
    case JInt(n) => n
    case JText(s) => IntCast(s)
  }

  /** `isset($data['research_id']) ? (int)$data['research_id'] : 0` */
  function ResearchIdOf(researchId: Option<JsonScalar>): int {
    if researchId.Some? then IntOf(researchId.value) else 0
  }

  /** `isset($data['action']) ? $data['action'] : 'add'` */
  function ActionOf(action: Option<JsonScalar>): JsonScalar {
    if action.Some? then action.value else JText("add")
  }

  /** A repository entry a student may bookmark: it exists and is verified. */
  predicate Bookmarkable(capstones: map<RowId, CapstoneRow>, id: RowId) {
    id in capstones && capstones[id].status == "verified"
  }

  datatype ApiResult =
    | Unauthorized          // 403
    | MethodNotAllowed      // 405
    | BadJson               // 400 "Invalid JSON input"
    | InvalidResearchId     // 400 "Invalid research ID."
    | ResearchNotFound      // 404
    | AlreadyBookmarked     // 400
    | NotBookmarked         // 400
    | InvalidAction         // 400
    | Added                 // 200, "action": "added"
    | Removed               // 200, "action": "removed"
    | WriteFailed           // 500, the INSERT or DELETE failed

  /** The HTTP status code the endpoint answers with. */
  function StatusCode(r: ApiResult): int {
    match r
    case Unauthorized => 403
    case MethodNotAllowed => 405
    case ResearchNotFound => 404
    case Added => 200
    case Removed => 200
    case WriteFailed => 500
    case _ => 400
  }

  /**
   * The endpoint's decision, given the bookmarked pairs before the request;
   * `writeOk` is whether the INSERT or DELETE statement succeeds.
   */
  function Decide(session: Option<Session>, isPost: bool, body: Body, capstones: map<RowId, CapstoneRow>,
                  pairs: set<Bookmark>, writeOk: bool): ApiResult {
    if !IsStudent(session) then Unauthorized
    else if !isPost then MethodNotAllowed
    else if body.InvalidJson? then BadJson
    else
      var research := ResearchIdOf(body.researchId);
      var pair := Bookmark(session.value.userId, research);
      var action := ActionOf(body.action);
      if research <= 0 then InvalidResearchId
      else if !Bookmarkable(capstones, research) then ResearchNotFound
      else if action == JText("add") then
        (if pair in pairs then AlreadyBookmarked else if writeOk then Added else WriteFailed)
      else if action == JText("remove") then
        (if pair !in pairs then NotBookmarked else if writeOk then Removed else WriteFailed)
      else InvalidAction
  }

  /** The pair a request names: the session's user and the decoded research id. */
  function RequestPair(session: Option<Session>, body: Body): Bookmark
    requires session.Some? && body.Decoded?
  {
    Bookmark(session.value.userId, ResearchIdOf(body.researchId))
  }

  /**
   * The endpoint's guarantees: only a student's POST with a positive id of
   * a verified entry reaches the bookmarks; a missing action means `add`;
   * `add` needs the pair absent and `remove` needs it present; success is
   * exactly status 200.
   */
  lemma DecideSpec(session: Option<Session>, isPost: bool, body: Body, capstones: map<RowId, CapstoneRow>,
                   pairs: set<Bookmark>, writeOk: bool)
    ensures var r := Decide(session, isPost, body, capstones, pairs, writeOk);
      && (!IsStudent(session) <==> r == Unauthorized)
      && (r == Added || r == Removed ==>
            isPost && body.Decoded? && RequestPair(session, body).researchId > 0
            && Bookmarkable(capstones, RequestPair(session, body).researchId))
      && (r == Added ==> RequestPair(session, body) !in pairs && ActionOf(body.action) == JText("add"))
      && (r == Removed ==> RequestPair(session, body) in pairs && ActionOf(body.action) == JText("remove"))
      && (StatusCode(r) == 200 <==> r == Added || r == Removed)
  {
  }

  /** A request without an action field adds the bookmark. */
  lemma MissingActionAdds(session: Option<Session>, research: JsonScalar, capstones: map<RowId, CapstoneRow>,
                          pairs: set<Bookmark>)
    requires IsStudent(session)
    requires IntOf(research) > 0 && Bookmarkable(capstones, IntOf(research))
    requires Bookmark(session.value.userId, IntOf(research)) !in pairs
    ensures Decide(session, true, Decoded(Some(research), None), capstones, pairs, true) == Added
  {
  }

  /** `bookmarks` */
  class BookmarkTable {
    var rows: map<RowId, Bookmark>
    var nextId: RowId

    ghost predicate Valid()
      reads this
    {
      nextId >= 1 && IdsBelow(rows, nextId)
    }

    constructor ()
      ensures Valid() && rows == map[] && nextId == 1
    {
      rows := map[];
      nextId := 1;
    }

    /** The (user, research) pairs held. */
    function Pairs(): set<Bookmark>
      reads this
    {
      set id | id in rows :: rows[id]
    }

    /**
     * `student/api/bookmark.php`: `add` inserts exactly the requested pair;
     * `remove` deletes every row holding it; any other outcome changes nothing.
     */
    method Api(session: Option<Session>, isPost: bool, body: Body, capstones: map<RowId, CapstoneRow>,
               writeOk: bool) returns (r: ApiResult)
      requires Valid()
      modifies this
      ensures Valid()
      ensures r == Decide(session, isPost, body, capstones, old(Pairs()), writeOk)
      ensures r == Added ==>
        rows == old(rows)[old(nextId) := RequestPair(session, body)] && nextId == old(nextId) + 1
        && Pairs() == old(Pairs()) + {RequestPair(session, body)}
      ensures r == Removed ==>
        rows == (map id | id in old(rows) && old(rows)[id] != RequestPair(session, body) :: old(rows)[id])
        && nextId == old(nextId)
        && Pairs() == old(Pairs()) - {RequestPair(session, body)}
      ensures r != Added && r != Removed ==> rows == old(rows) && nextId == old(nextId)
      ensures session.Some? ==> forall k :: k in old(rows) && old(rows)[k].userId != session.value.userId ==>
        k in rows && rows[k] == old(rows)[k]
    {
      if !IsStudent(session) {
        return Unauthorized;
      }
      if !isPost {
        return MethodNotAllowed;
      }
      if body.InvalidJson? {
        return BadJson;
      }
      var research := ResearchIdOf(body.researchId);
      var action := ActionOf(body.action);
      if research <= 0 {
        return InvalidResearchId;
      }
      if !Bookmarkable(capstones, research) {
        return ResearchNotFound;
      }
      var pair := Bookmark(session.value.userId, research);
      var isBookmarked := pair in Pairs();
      if action == JText("add") {
        if isBookmarked {
          return AlreadyBookmarked;
        }
        if !writeOk {
          return WriteFailed;
        }
        rows := rows[nextId := pair];
        nextId := nextId + 1;
        assert Pairs() == old(Pairs()) + {pair} by {
          forall b ensures b in Pairs() <==> b in old(Pairs()) + {pair} {
            if b in old(Pairs()) {
              var id :| id in old(rows) && old(rows)[id] == b;
              assert id in rows && rows[id] == b;
            }
            if b == pair {
              assert rows[old(nextId)] == b;
            }
          }
        }
        r := Added;
      } else if action == JText("remove") {
        if !isBookmarked {
          return NotBookmarked;
        }
        if !writeOk {
          return WriteFailed;
        }
        rows := map id | id in rows && rows[id] != pair :: rows[id];
        assert Pairs() == old(Pairs()) - {pair} by {
          forall b ensures b in Pairs() <==> b in old(Pairs()) - {pair} {
            if b in old(Pairs()) && b != pair {
              var id :| id in old(rows) && old(rows)[id] == b;
              assert id in rows;
            }
          }
        }
        r := Removed;
      } else {
        r := InvalidAction;
      }
    }

    /**
     * `student/remove_bookmark.php`: with a positive id of one of the
     * caller's own bookmarks, that row is deleted; nothing else changes.
     */
    method RemoveById(session: Option<Session>, param: Option<string>, deleteOk: bool) returns (r: RemoveResult)
      requires Valid()
      modifies this
      ensures Valid() && nextId == old(nextId)
      ensures r == RemoveDecision(session, IdParam(param), old(rows), deleteOk)
      ensures r == Deleted ==> rows == old(rows) - {IdParam(param)}
      ensures r != Deleted ==> rows == old(rows)
      ensures session.Some? ==> forall k :: k in old(rows) && old(rows)[k].userId != session.value.userId ==>
        k in rows && rows[k] == old(rows)[k]
    {
      if !IsStudent(session) {
        return NotLoggedIn;
      }
      var id := IdParam(param);
      if id <= 0 {
        return InvalidBookmarkId;
      }
      if id !in rows || rows[id].userId != session.value.userId {
        return NotFoundOrUnauthorized;
      }
      if !deleteOk {
        return DeleteFailed;
      }
      // DELETE ... WHERE id = ? AND user_id = ?: the row just checked
      rows := rows - {id};
      r := Deleted;
    }
  }

  datatype RemoveResult =
    | NotLoggedIn           // redirect to the login page
    | InvalidBookmarkId     // "Invalid bookmark ID"
    | NotFoundOrUnauthorized
    | Deleted               // "Bookmark removed successfully"
    | DeleteFailed          // "Failed to remove bookmark"

  /** The page's decision: the bookmark must exist and belong to the caller. */
  function RemoveDecision(session: Option<Session>, id: int, rows: map<RowId, Bookmark>, deleteOk: bool): RemoveResult {
    if !IsStudent(session) then NotLoggedIn
    else if id <= 0 then InvalidBookmarkId
    else if id !in rows || rows[id].userId != session.value.userId then NotFoundOrUnauthorized
    else if deleteOk then Deleted
    else DeleteFailed
  }

  /**
   * Only a logged-in student's own bookmark with a positive id is deleted;
   * another user's bookmark is never touched.
   */
  lemma RemoveDecisionSpec(session: Option<Session>, id: int, rows: map<RowId, Bookmark>, deleteOk: bool)
    ensures RemoveDecision(session, id, rows, deleteOk) == Deleted <==>
      IsStudent(session) && id > 0 && id in rows && rows[id].userId == session.value.userId && deleteOk
    ensures id <= 0 && IsStudent(session) ==> RemoveDecision(session, id, rows, deleteOk) == InvalidBookmarkId
    ensures forall k :: k in rows && k > 0 && IsStudent(session) && rows[k].userId != session.value.userId ==>
      RemoveDecision(session, k, rows, deleteOk) == NotFoundOrUnauthorized
  {
  }
}

=== FILE: capstone.dfy ===
/**
 * The final capstone submission (student/submit_manuscript.php and
 * student/process_capstone.php): who may open the form, the author list the
 * form posts, and the handler that validates the post, encodes the authors
 * and inserts one `capstone` row per group.
 */
module Capstone {
  import opened PhpStrings
  import opened Records

  // ---------------------------------------------------------------------
  // The page: access, group count and branch

  predicate OwnOrGroupProject(dir: Directory, caller: UserId, r: ProjectRow) {
    OwnOrGroup(dir, r.submittedBy, caller)
  }

  /** The caller's current project: the highest-id own or group row, archived or not. */
  function CurrentProject(projects: map<RowId, ProjectRow>, next: int, dir: Directory, caller: UserId): Option<RowId> {
    HighestWhere(projects, (r: ProjectRow) => OwnOrGroupProject(dir, caller, r), next - 1)
  }

  predicate ReviewOf(project: RowId, rv: Review) {
    rv.projectId == project
  }

  /** The latest manuscript review of a project. */
  function LatestReview(reviews: map<RowId, Review>, nextReview: int, project: RowId): Option<RowId> {
    HighestWhere(reviews, (rv: Review) => ReviewOf(project, rv), nextReview - 1)
  }

  /** `$can_access_submit_manuscript` */
  predicate CanAccessSubmit(projects: map<RowId, ProjectRow>, nextProject: int,
                            reviews: map<RowId, Review>, nextReview: int, dir: Directory, caller: UserId) {
    var p := CurrentProject(projects, nextProject, dir, caller);
    p.Some? &&
    var m := LatestReview(reviews, nextReview, p.value);
    m.Some? && reviews[m.value].status == ReviewApproved
  }

  /** p is an own or group project and no other one has a higher id. */
  predicate NewestOwnProject(projects: map<RowId, ProjectRow>, dir: Directory, caller: UserId, p: RowId) {
    p in projects && OwnOrGroupProject(dir, caller, projects[p])
    && forall q :: q in projects && OwnOrGroupProject(dir, caller, projects[q]) ==> q <= p
  }

  /** m is the newest review of project p and it is approved. */
  predicate NewestReviewApproved(reviews: map<RowId, Review>, p: RowId, m: RowId) {
    m in reviews && reviews[m].projectId == p && reviews[m].status == ReviewApproved
    && forall k :: k in reviews && reviews[k].projectId == p ==> k <= m
  }

  /**
   * Access holds exactly when the caller's newest own or group project has
   * an approved newest review; an approved review of an older project, or
   * an older approved review of the newest project, does not count.
   */
  lemma AccessMeansNewestProjectApproved(projects: map<RowId, ProjectRow>, nextProject: int,
                                         reviews: map<RowId, Review>, nextReview: int,
                                         dir: Directory, caller: UserId)
    requires IdsBelow(projects, nextProject) && IdsBelow(reviews, nextReview)
    ensures CanAccessSubmit(projects, nextProject, reviews, nextReview, dir, caller) <==>
      exists p, m :: NewestOwnProject(projects, dir, caller, p) && NewestReviewApproved(reviews, p, m)
  {
    if CanAccessSubmit(projects, nextProject, reviews, nextReview, dir, caller) {
      AccessGivesNewest(projects, nextProject, reviews, nextReview, dir, caller);
    }
    if exists p, m :: NewestOwnProject(projects, dir, caller, p) && NewestReviewApproved(reviews, p, m) {
      var p, m :| NewestOwnProject(projects, dir, caller, p) && NewestReviewApproved(reviews, p, m);
      NewestGivesAccess(projects, nextProject, reviews, nextReview, dir, caller, p, m);
    }
  }

  lemma AccessGivesNewest(projects: map<RowId, ProjectRow>, nextProject: int,
                          reviews: map<RowId, Review>, nextReview: int, dir: Directory, caller: UserId)
    requires IdsBelow(projects, nextProject) && IdsBelow(reviews, nextReview)
    requires CanAccessSubmit(projects, nextProject, reviews, nextReview, dir, caller)
    ensures exists p, m :: NewestOwnProject(projects, dir, caller, p) && NewestReviewApproved(reviews, p, m)
  {
    HighestWhereIsMax(projects, (r: ProjectRow) => OwnOrGroupProject(dir, caller, r), nextProject);
    var p := CurrentProject(projects, nextProject, dir, caller).value;
    HighestWhereIsMax(reviews, (rv: Review) => ReviewOf(p, rv), nextReview);
    var m := LatestReview(reviews, nextReview, p).value;
    assert NewestOwnProject(projects, dir, caller, p);
    assert NewestReviewApproved(reviews, p, m);
  }

  lemma NewestGivesAccess(projects: map<RowId, ProjectRow>, nextProject: int,
                          reviews: map<RowId, Review>, nextReview: int, dir: Directory, caller: UserId,
                          p: RowId, m: RowId)
    requires IdsBelow(projects, nextProject) && IdsBelow(reviews, nextReview)
    requires NewestOwnProject(projects, dir, caller, p) && NewestReviewApproved(reviews, p, m)
    ensures CanAccessSubmit(projects, nextProject, reviews, nextReview, dir, caller)
  {
    HighestWhereIsMax(projects, (r: ProjectRow) => OwnOrGroupProject(dir, caller, r), nextProject);
    assert CurrentProject(projects, nextProject, dir, caller) == Some(p);
    HighestWhereIsMax(reviews, (rv: Review) => ReviewOf(p, rv), nextReview);
    assert LatestReview(reviews, nextReview, p) == Some(m);
  }

  predicate GroupRow(dir: Directory, caller: UserId, c: CapstoneRow) {
    InGroupOf(dir, c.userId, caller)
  }

  /** `$groupSubmissionCount`: capstone rows whose author is in the caller's group. */
  function GroupSubmissionCount(capstones: map<RowId, CapstoneRow>, dir: Directory, caller: UserId): nat {
    |set id | id in capstones && GroupRow(dir, caller, capstones[id])|
  }

  /** The count is zero exactly when no row belongs to the group. */
  lemma GroupCountZero(capstones: map<RowId, CapstoneRow>, dir: Directory, caller: UserId)
    ensures GroupSubmissionCount(capstones, dir, caller) == 0 <==>
      forall id :: id in capstones ==> !InGroupOf(dir, capstones[id].userId, caller)
  {
    var s := set id | id in capstones && GroupRow(dir, caller, capstones[id]);
    if exists id :: id in capstones && InGroupOf(dir, capstones[id].userId, caller) {
      var id :| id in capstones && InGroupOf(dir, capstones[id].userId, caller);
      assert id in s;
    }
  }

  /** A caller without a group code always counts zero, even after submitting. */
  lemma UngroupedCountsZero(capstones: map<RowId, CapstoneRow>, dir: Directory, caller: UserId)
    requires GroupOf(dir, caller).None?
    ensures GroupSubmissionCount(capstones, dir, caller) == 0
  {
    GroupCountZero(capstones, dir, caller);
  }

  datatype PageBranch = StepsIncomplete | AlreadySubmitted | ShowForm

  /** Which of the three cards the page shows. */
  function Branch(access: bool, count: nat): (b: PageBranch)
    ensures b == ShowForm <==> access && count == 0
    ensures b == AlreadySubmitted <==> access && count > 0
    ensures b == StepsIncomplete <==> !access
  {
    if !access then StepsIncomplete
    else if count > 0 then AlreadySubmitted
    else ShowForm
  }

  // ---------------------------------------------------------------------
  // The author form (client side) and what it posts

  /** One author row of the form, as typed. */
  datatype AuthorForm = AuthorForm(first: string, middle: string, last: string, suffix: string)

  /** One decoded author of the posted JSON; `None` is a JSON null or a missing key. */
  datatype AuthorEntry = AuthorEntry(firstName: Option<string>, middleName: Option<string>,
                                     lastName: Option<string>, suffix: Option<string>)

  const MaxAuthors := 10

  /** `addAuthorForm`: refused once ten rows exist. */
  function AddAuthorForm(forms: seq<AuthorForm>, f: AuthorForm): (r: seq<AuthorForm>)
    ensures |forms| >= MaxAuthors ==> r == forms
    ensures |forms| < MaxAuthors ==> r == forms + [f]
  {
    if |forms| >= MaxAuthors then forms else forms + [f]
  }

  /** Adding rows one by one never gets past ten. */
  lemma AddAuthorFormCapped(forms: seq<AuthorForm>, f: AuthorForm)
    requires |forms| <= MaxAuthors
    ensures |AddAuthorForm(forms, f)| <= MaxAuthors
  {
  }

  /** JavaScript's `value || null` on a text box: only the empty string is falsy. */
  function OrNull(s: string): Option<string> {
    if s == "" then None else Some(s)
  }

  /** `updateAuthorsInput`: each row becomes one JSON object. */
  function Serialize(forms: seq<AuthorForm>): (r: seq<AuthorEntry>)
    ensures |r| == |forms|
    ensures forall i :: 0 <= i < |forms| ==>
      r[i].firstName == Some(forms[i].first) && r[i].lastName == Some(forms[i].last)
      && (r[i].middleName.None? <==> forms[i].middle == "")
      && (r[i].suffix.None? <==> forms[i].suffix == "")
  {
    seq(|forms|, i requires 0 <= i < |forms| =>
      AuthorEntry(Some(forms[i].first), OrNull(forms[i].middle), Some(forms[i].last), OrNull(forms[i].suffix)))
  }

  // ---------------------------------------------------------------------
  // Author strings

  /** PHP's `empty()` on a decoded JSON value that is a string or null. */
  predicate Falsy(o: Option<string>) {
    o.None? || IsEmpty(o.value)
  }

  /** A value interpolated into a PHP string: null becomes "". */
  function Interp(o: Option<string>): string {
    if o.Some? then o.value else ""
  }

  /** `$x ?: ''` */
  function OrEmpty(o: Option<string>): string {
    if Falsy(o) then "" else o.value
  }

  predicate MissingName(a: AuthorEntry) {
    Falsy(a.firstName) || Falsy(a.lastName)
  }

  /** The four parts joined by spaces, trimmed, then every whitespace run made one space. */
  function DisplayName(a: AuthorEntry): string {
    CollapseSpaces(Trim(Implode(" ", [Interp(a.firstName), Interp(a.middleName),
                                      Interp(a.lastName), Interp(a.suffix)])))
  }

  /** `$author_names`, in order. */
  function DisplayNames(authors: seq<AuthorEntry>): (r: seq<string>)
    ensures |r| == |authors|
    decreases |authors|
  {
    if authors == [] then []
    else DisplayNames(authors[..|authors| - 1]) + [DisplayName(authors[|authors| - 1])]
  }

  /** `array_filter` on strings: drops "" and "0". */
  function NonEmpty(names: seq<string>): (r: seq<string>)
    ensures |r| <= |names|
    ensures forall i :: 0 <= i < |r| ==> !IsEmpty(r[i]) && r[i] in names
    decreases |names|
  {
    if names == [] then []
    else (if IsEmpty(names[0]) then [] else [names[0]]) + NonEmpty(names[1..])
  }

  /** `$author_string` before encoding: the non-empty display names joined by ", ". */
  function DisplayString(authors: seq<AuthorEntry>): string {
    Implode(", ", NonEmpty(DisplayNames(authors)))
  }

  /** `first|middle|last|suffix` of one author. */
  function Entry(a: AuthorEntry): string {
    Implode("|", [Interp(a.firstName), OrEmpty(a.middleName), Interp(a.lastName), OrEmpty(a.suffix)])
  }

  /** Every entry followed by "@@". */
  function Entries(authors: seq<AuthorEntry>): string
    decreases |authors|
  {
    if authors == [] then ""
    else Entries(authors[..|authors| - 1]) + Entry(authors[|authors| - 1]) + "@@"
  }

  const DataPrefix := "STUDENT_DATA:"
  const DisplayMarker := "|DISPLAY:"

  /** The stored `author` column: the compact encoding with the display string after it. */
  function CompactAuthors(authors: seq<AuthorEntry>): string {
    RTrimChar('@', DataPrefix + Entries(authors)) + DisplayMarker + DisplayString(authors)
  }

  /** The encoded author text, present only when every author has both names. */
  datatype AuthorText = AuthorText(display: string, compact: string)

  /** Every author has a first and a last name in PHP's `empty()` sense. */
  predicate AllNamed(authors: seq<AuthorEntry>) {
    forall i :: 0 <= i < |authors| ==> !MissingName(authors[i])
  }

  function AuthorFields(authors: seq<AuthorEntry>): Option<AuthorText> {
    if !AllNamed(authors) then None
    else Some(AuthorText(DisplayString(authors), CompactAuthors(authors)))
  }

  /** The first loop: stops at the first author missing a name, else collects the display names. */
  method CollectNames(authors: seq<AuthorEntry>) returns (names: Option<seq<string>>)
    ensures names.None? <==> !AllNamed(authors)
    ensures names.Some? ==> names.value == DisplayNames(authors)
  {
    var acc: seq<string> := [];
    var i := 0;
    while i < |authors|
      invariant 0 <= i <= |authors|
      invariant acc == DisplayNames(authors[..i])
      invariant AllNamed(authors[..i])
    {
      if MissingName(authors[i]) {
        return None;
      }
      assert authors[..i + 1][..i] == authors[..i];
      assert DisplayNames(authors[..i + 1]) == DisplayNames(authors[..i]) + [DisplayName(authors[i])];
      acc := acc + [DisplayName(authors[i])];
      i := i + 1;
    }
    assert authors[..i] == authors;
    return Some(acc);
  }

  /** The second loop: every entry followed by "@@", after the prefix. */
  method CollectEntries(authors: seq<AuthorEntry>) returns (text: string)
    ensures text == DataPrefix + Entries(authors)
  {
    text := DataPrefix;
    var i := 0;
    while i < |authors|
      invariant 0 <= i <= |authors|
      invariant text == DataPrefix + Entries(authors[..i])
    {
      assert authors[..i + 1][..i] == authors[..i];
      assert Entries(authors[..i + 1]) == Entries(authors[..i]) + Entry(authors[i]) + "@@";
      text := text + Entry(authors[i]) + "@@";
      i := i + 1;
    }
    assert authors[..i] == authors;
  }

  /**
   * The handler's author encoding: the display string of the named
   * authors and the compact text, or nothing when an author lacks a name.
   */
  method EncodeAuthors(authors: seq<AuthorEntry>) returns (r: Option<AuthorText>)
    ensures r == AuthorFields(authors)
  {
    var names := CollectNames(authors);
    if names.None? {
      return None;
    }
    var display := Implode(", ", NonEmpty(names.value));
    var compact := CollectEntries(authors);
    compact := RTrimChar('@', compact) + DisplayMarker + display;
    r := Some(AuthorText(display, compact));
  }

  /** Missing either name in any author refuses the whole list. */
  lemma AuthorFieldsRefusal(authors: seq<AuthorEntry>)
    ensures AuthorFields(authors).None? <==> exists i :: 0 <= i < |authors| && MissingName(authors[i])
    ensures AuthorFields(authors).Some? ==>
      AuthorFields(authors).value.compact ==
        RTrimChar('@', DataPrefix + Entries(authors)) + DisplayMarker + AuthorFields(authors).value.display
  {
  }

  /** Each display name has whitespace only as single plain spaces. */
  lemma {:induction false} DisplayNamesSingleSpaced(authors: seq<AuthorEntry>)
    ensures forall i :: 0 <= i < |authors| ==> SingleSpaced(DisplayNames(authors)[i])
    decreases |authors|
  {
    if authors != [] {
      DisplayNamesSingleSpaced(authors[..|authors| - 1]);
      var a := authors[|authors| - 1];
      CollapseSpacesSingleSpaced(Trim(Implode(" ", [Interp(a.firstName), Interp(a.middleName),
                                                    Interp(a.lastName), Interp(a.suffix)])));
    }
  }

  /** The entries as a list, joined by "@@" in the compact text. */
  function EntryList(authors: seq<AuthorEntry>): (r: seq<string>)
    ensures |r| == |authors|
    decreases |authors|
  {
    if authors == [] then [] else EntryList(authors[..|authors| - 1]) + [Entry(authors[|authors| - 1])]
  }

  lemma {:induction false} EntriesJoin(authors: seq<AuthorEntry>)
    requires authors != []
    ensures Entries(authors) == Implode("@@", EntryList(authors)) + "@@"
    decreases |authors|
  {
    var init := authors[..|authors| - 1];
    if init != [] {
      EntriesJoin(init);
      ImplodeSnoc("@@", EntryList(init), Entry(authors[|authors| - 1]));
    }
  }

  lemma {:induction false} ImplodeSnoc(glue: string, parts: seq<string>, x: string)
    requires parts != []
    ensures Implode(glue, parts + [x]) == Implode(glue, parts) + glue + x
    decreases |parts|
  {
    if |parts| == 1 {
      assert (parts + [x])[1..] == [x];
    } else {
      ImplodeSnoc(glue, parts[1..], x);
      assert (parts + [x])[1..] == parts[1..] + [x];
    }
  }

  /**
   * Unless the last author's suffix ends in '@', the rtrim removes exactly
   * the final "@@": the compact text lists the entries separated by "@@".
   */
  lemma CompactLayout(authors: seq<AuthorEntry>)
    requires authors != []
    requires var s := OrEmpty(authors[|authors| - 1].suffix); s == [] || s[|s| - 1] != '@'
    ensures CompactAuthors(authors) ==
      DataPrefix + Implode("@@", EntryList(authors)) + DisplayMarker + DisplayString(authors)
  {
    EntriesJoin(authors);
    var body := Implode("@@", EntryList(authors));
    var a := authors[|authors| - 1];
    var e := Entry(a);
    var front := [Interp(a.firstName), OrEmpty(a.middleName), Interp(a.lastName)];
    ImplodeSnoc("|", front, OrEmpty(a.suffix));
    assert front + [OrEmpty(a.suffix)] == [Interp(a.firstName), OrEmpty(a.middleName), Interp(a.lastName), OrEmpty(a.suffix)];
    assert e == Implode("|", front) + "|" + OrEmpty(a.suffix);
    assert e[|e| - 1] != '@';
    if |authors| == 1 {
      assert body == e;
    } else {
      ImplodeSnoc("@@", EntryList(authors[..|authors| - 1]), e);
    }
    assert body != [] && body[|body| - 1] != '@';
    assert DataPrefix + Entries(authors) == (DataPrefix + body) + "@@";
    RTrimCharTwice(DataPrefix + body);
  }

  lemma RTrimCharTwice(x: string)
    requires x != [] && x[|x| - 1] != '@'
    ensures RTrimChar('@', x + "@@") == x
  {
    assert (x + "@@")[..|x + "@@"| - 1] == x + "@";
    assert (x + "@")[..|x + "@"| - 1] == x;
    assert RTrimChar('@', x) == x;
    assert RTrimChar('@', x + "@") == RTrimChar('@', x);
    assert RTrimChar('@', x + "@@") == RTrimChar('@', x + "@");
  }

  /** A trailing '@' in the last suffix is trimmed away with the separator. */
  lemma TrailingAtLost()
    ensures var a := AuthorEntry(Some("Ana"), None, Some("Cruz"), Some("@"));
      CompactAuthors([a]) == "STUDENT_DATA:Ana||Cruz|" + DisplayMarker + DisplayString([a])
  {
    var a := AuthorEntry(Some("Ana"), None, Some("Cruz"), Some("@"));
    var x := "STUDENT_DATA:Ana||Cruz|";
    assert Entries([a]) == Entries([]) + Entry(a) + "@@";
    assert DataPrefix + Entries([a]) == x + "@@@";
    assert (x + "@@@")[..|x + "@@@"| - 1] == x + "@@";
    RTrimCharTwice(x);
    assert RTrimChar('@', x + "@@@") == RTrimChar('@', x + "@@");
  }

  /** With no '|' in the fields, one entry splits back into its four fields. */
  lemma EntryFields(a: AuthorEntry)
    requires '|' !in Interp(a.firstName) && '|' !in OrEmpty(a.middleName)
    requires '|' !in Interp(a.lastName) && '|' !in OrEmpty(a.suffix)
    ensures Explode('|', Entry(a)) ==
      [Interp(a.firstName), OrEmpty(a.middleName), Interp(a.lastName), OrEmpty(a.suffix)]
  {
    ExplodeImplode('|', [Interp(a.firstName), OrEmpty(a.middleName), Interp(a.lastName), OrEmpty(a.suffix)]);
  }

  // ---------------------------------------------------------------------
  // The submission handler

  /** The posted form and the uploaded file. */
  datatype CapstonePost = CapstonePost(
    title: string, year: string, abstractText: string, keywords: string,
    fileName: string, fileSize: int, moved: bool,
    authors: Option<seq<AuthorEntry>>)    // None: not valid JSON or not an array

  const MaxFileSize := 50 * 1024 * 1024
  const MinYear := 1900

  datatype CapstoneError =
    | FieldsRequired          // "All fields are required."
    | YearOutOfRange          // "Year must be between 1900 and ..."
    | NotPdf                  // "Only PDF files are allowed."
    | TooLarge                // "File size exceeds 50MB limit."
    | UploadFailed            // "Failed to upload file."
    | InvalidAuthors          // "Invalid author data."
    | AuthorNameMissing       // "Each author must have a first name and last name."
    | AccountNotFound
    | NoStudentProfile
    | GroupAlreadySubmitted
    | InsertFailed

  /** The checks made before the file is stored. */
  function PreUploadCheck(post: CapstonePost, currentYear: int): Option<CapstoneError> {
    if IsEmpty(post.title) || IsEmpty(post.year) || IsEmpty(post.abstractText)
       || IsEmpty(post.keywords) || IsEmpty(post.fileName) then Some(FieldsRequired)
    else if IntCast(post.year) < MinYear || IntCast(post.year) > currentYear then Some(YearOutOfRange)
    else if !HasPdfExtension(post.fileName) then Some(NotPdf)
    else if post.fileSize > MaxFileSize then Some(TooLarge)
    else if !post.moved then Some(UploadFailed)
    else None
  }

  /** The checks made after the file is stored; each failure removes the file. */
  function PostUploadCheck(post: CapstonePost, users: set<UserId>, dir: Directory, caller: UserId,
                           groupCount: nat): Option<CapstoneError> {
    if post.authors.None? || post.authors.value == [] then Some(InvalidAuthors)
    else if AuthorFields(post.authors.value).None? then Some(AuthorNameMissing)
    else if caller !in users then Some(AccountNotFound)
    else if caller !in dir then Some(NoStudentProfile)
    else if groupCount > 0 then Some(GroupAlreadySubmitted)
    else None
  }

  /**
   * A post passes every check before the upload exactly when the five fields
   * are filled in, the year reads as 1900..currentYear, the name ends in
   * `.pdf`, the file is at most 50 MiB and it was moved into place; a file
   * with a proper name and size but a year outside the range is refused
   * for the year.
   */
  lemma PreUploadCheckAccepts(post: CapstonePost, currentYear: int)
    ensures PreUploadCheck(post, currentYear).None? <==>
      !IsEmpty(post.title) && !IsEmpty(post.year) && !IsEmpty(post.abstractText)
      && !IsEmpty(post.keywords) && !IsEmpty(post.fileName)
      && MinYear <= IntCast(post.year) <= currentYear
      && HasPdfExtension(post.fileName) && post.fileSize <= MaxFileSize && post.moved
    ensures PreUploadCheck(post, currentYear) == Some(YearOutOfRange) <==>
      !IsEmpty(post.title) && !IsEmpty(post.year) && !IsEmpty(post.abstractText)
      && !IsEmpty(post.keywords) && !IsEmpty(post.fileName)
      && !(MinYear <= IntCast(post.year) <= currentYear)
  {
  }

  /** A year typed as its decimal digits is accepted exactly inside the range. */
  lemma DecimalYearAccepted(y: nat, currentYear: int)
    ensures MinYear <= IntCast(Decimal(y)) <= currentYear <==> MinYear <= y <= currentYear
  {
    IntCastDecimal(y);
  }

  /**
   * After the upload, a post passes exactly when the author list is a
   * non-empty array whose every author has both names, the account and its
   * student profile exist, and the group has no capstone yet.
   */
  lemma PostUploadCheckAccepts(post: CapstonePost, users: set<UserId>, dir: Directory, caller: UserId,
                               groupCount: nat)
    ensures PostUploadCheck(post, users, dir, caller, groupCount).None? <==>
      post.authors.Some? && post.authors.value != []
      && (forall i :: 0 <= i < |post.authors.value| ==> !MissingName(post.authors.value[i]))
      && caller in users && caller in dir && groupCount == 0
  {
    if post.authors.Some? {
      AuthorFieldsRefusal(post.authors.value);
    }
  }

  /** The stored document reference: the base name with every non-alphanumeric made '_'. */
  function DocumentPath(fileName: string): string {
    SanitizeAlnum(AfterLast('/', fileName))
  }

  datatype CapstoneOutcome = Submitted(id: RowId) | Refused(error: CapstoneError)

  /** The inserted row. */
  function NewRow(post: CapstonePost, caller: UserId): CapstoneRow
    requires post.authors.Some?
  {
    CapstoneRow(post.title, CompactAuthors(post.authors.value), IntCast(post.year), post.abstractText,
                post.keywords, DocumentPath(post.fileName), caller, "nonverified")
  }

  /** `capstone` */
  class CapstoneTable {
    var rows: map<RowId, CapstoneRow>
    var nextId: RowId

    ghost predicate Valid()
      reads this
    {
      nextId >= 1 && IdsBelow(rows, nextId)
    }

    constructor ()
      ensures Valid() && rows == map[] && nextId == 1
    {
      rows := map[];
      nextId := 1;
    }

    function GroupCount(dir: Directory, caller: UserId): nat
      reads this
    {
      GroupSubmissionCount(rows, dir, caller)
    }

    /**
     * process_capstone.php.  `users` is the set of existing accounts,
     * `currentYear` the server's year and `insertOk` whether the INSERT
     * succeeds.  `stored` says whether the upload was moved into place and
     * `removed` whether the handler deleted it again.  The page's access
     * gate is not checked here.
     */
    method Submit(dir: Directory, users: set<UserId>, caller: UserId, post: CapstonePost,
                  currentYear: int, insertOk: bool) returns (out: CapstoneOutcome, stored: bool, removed: bool)
      requires Valid()
      modifies this
      ensures Valid()
      ensures PreUploadCheck(post, currentYear).Some? ==>
        out == Refused(PreUploadCheck(post, currentYear).value) && !stored
      ensures PreUploadCheck(post, currentYear).None? ==> stored
      ensures PreUploadCheck(post, currentYear).None? &&
              PostUploadCheck(post, users, dir, caller, old(GroupCount(dir, caller))).Some? ==>
        out == Refused(PostUploadCheck(post, users, dir, caller, old(GroupCount(dir, caller))).value)
      ensures PreUploadCheck(post, currentYear).None? &&
              PostUploadCheck(post, users, dir, caller, old(GroupCount(dir, caller))).None? ==>
        out == (if insertOk then Submitted(old(nextId)) else Refused(InsertFailed))
      ensures removed <==> stored && out.Refused?
      // the file stays on disk exactly when the row is recorded, which is
      // exactly when both checks pass and the INSERT succeeds
      ensures (stored && !removed) <==> out.Submitted?
      ensures out.Submitted? <==>
        PreUploadCheck(post, currentYear).None?
        && PostUploadCheck(post, users, dir, caller, old(GroupCount(dir, caller))).None? && insertOk
      ensures out.Submitted? ==>
        post.authors.Some? && rows == old(rows)[out.id := NewRow(post, caller)] && nextId == old(nextId) + 1
      ensures out.Refused? ==> rows == old(rows) && nextId == old(nextId)
    {
      stored, removed := false, false;
      var pre := PreUploadCheck(post, currentYear);
      if pre.Some? {
        return Refused(pre.value), stored, removed;
      }
      stored := true;
      out := RecordUpload(dir, users, caller, post, insertOk);
      removed := out.Refused?;
    }

    /**
     * The steps after the file is stored: the author encoding, the account,
     * profile and group checks, and the INSERT.
     */
    method RecordUpload(dir: Directory, users: set<UserId>, caller: UserId, post: CapstonePost, insertOk: bool)
      returns (out: CapstoneOutcome)
      requires Valid()
      modifies this
      ensures Valid()
      ensures PostUploadCheck(post, users, dir, caller, old(GroupCount(dir, caller))).Some? ==>
        out == Refused(PostUploadCheck(post, users, dir, caller, old(GroupCount(dir, caller))).value)
      ensures PostUploadCheck(post, users, dir, caller, old(GroupCount(dir, caller))).None? ==>
        out == (if insertOk then Submitted(old(nextId)) else Refused(InsertFailed))
      ensures out.Submitted? ==>
        post.authors.Some? && rows == old(rows)[out.id := NewRow(post, caller)] && nextId == old(nextId) + 1
      ensures out.Refused? ==> rows == old(rows) && nextId == old(nextId)
    {
      var count := GroupCount(dir, caller);
      var fields: Option<AuthorText> := None;
      if post.authors.Some? && post.authors.value != [] {
        fields := EncodeAuthors(post.authors.value);
      }
      var postCheck := PostUploadCheck(post, users, dir, caller, count);
      if postCheck.Some? {
        return Refused(postCheck.value);
      }
      if !insertOk {
        return Refused(InsertFailed);
      }
      assert post.authors.Some? && post.authors.value != [];
      assert fields == AuthorFields(post.authors.value);
      // the row stores the compact author text just encoded
      var row := NewRow(post, caller);
      assert row.author == fields.value.compact;
      var id := nextId;
      rows := rows[id := row];
      nextId := nextId + 1;
      out := Submitted(id);
    }
  }

  /**
   * After a successful submission by a caller with a group code the group
   * counts exactly one more row than before, which was none: one capstone
   * per group.
   */
  lemma OnePerGroup(rows: map<RowId, CapstoneRow>, id: RowId, row: CapstoneRow, dir: Directory, caller: UserId)
    requires id !in rows && row.userId == caller && GroupOf(dir, caller).Some?
    requires GroupSubmissionCount(rows, dir, caller) == 0
    ensures GroupSubmissionCount(rows[id := row], dir, caller) == 1
  {
    GroupCountZero(rows, dir, caller);
    var m := rows[id := row];
    var after := set k | k in m && GroupRow(dir, caller, m[k]);
    assert after == {id};
  }
}

=== FILE: citation.dfy ===
/**
 * The research view page (student/view_research.php): the id check, the
 * lookup of a verified repository entry, and the APA-style citation built
 * from the entry's comma-separated author field.
 */
module Citation {
  import opened PhpStrings
  import opened Records

  // ---------------------------------------------------------------------
  // One author: "Given Middle Last" becomes "Last, G. M."

  /** A name part's initial: its first character upper-cased, then a dot. */
  function Initial(part: string): (r: string)
    requires part != []
  {
    [UpperChar(part[0]), '.']
  }

  predicate HasInitial(part: string) {
    !IsEmpty(part)
  }

  /** The initials of the parts that are not `empty()`, in order. */
  function Initials(parts: seq<string>): seq<string>
    decreases |parts|
  {
    if parts == [] then []
    else
      var last := parts[|parts| - 1];
      Initials(parts[..|parts| - 1]) + (if HasInitial(last) then [Initial(last)] else [])
  }

  /**
   * One trimmed author: the last space-separated part, a comma and a space,
   * then the initials of the other parts joined by spaces.
   */
  function FormatName(name: string): string {
    var parts := Explode(' ', Trim(name));
    Implode(", ", [parts[|parts| - 1], Implode(" ", Initials(parts[..|parts| - 1]))])
  }

  /** `array_map('trim', explode(',', $author))`, each piece formatted. */
  function FormatNames(pieces: seq<string>): (r: seq<string>)
    ensures |r| == |pieces|
    decreases |pieces|
  {
    if pieces == [] then []
    else FormatNames(pieces[..|pieces| - 1]) + [FormatName(Trim(pieces[|pieces| - 1]))]
  }

  /** The list join: one name alone; two as "A, & B"; more as "A, B, & C". */
  function JoinApa(formatted: seq<string>): string
    requires |formatted| >= 1
  {
    var n := |formatted|;
    if n == 1 then formatted[0]
    else if n == 2 then Implode(", & ", [formatted[0], formatted[1]])
    else Implode(", & ", [Implode(", ", formatted[..n - 1]), formatted[n - 1]])
  }

  /** `formatAuthorAPA`: "Unknown Author" for an `empty()` field. */
  function ApaAuthors(author: string): string {
    if IsEmpty(author) then "Unknown Author"
    else JoinApa(FormatNames(Explode(',', author)))
  }

  /**
   * `formatAuthorAPA` as the page runs it: one pass over the comma-separated
   * pieces, with an inner pass over each name's parts collecting initials.
   * `explode` always yields at least one piece and one part, so the page's
   * branches for an empty piece list or an empty part list are never taken.
   */
  method FormatAuthorApa(author: string) returns (r: string)
    ensures r == ApaAuthors(author)
  {
    if IsEmpty(author) {
      return "Unknown Author";
    }
    var pieces := Explode(',', author);
    var formatted: seq<string> := [];
    var i := 0;
    while i < |pieces|
      invariant 0 <= i <= |pieces|
      invariant formatted == FormatNames(pieces[..i])
    {
      var parts := Explode(' ', Trim(Trim(pieces[i])));
      var lastName := parts[|parts| - 1];
      var initials := NameInitials(parts);
      formatted := formatted + [Implode(", ", [lastName, Implode(" ", initials)])];
      assert pieces[..i + 1][..i] == pieces[..i];
      i := i + 1;
    }
    assert pieces[..i] == pieces;
    var n := |formatted|;
    if n == 1 {
      r := formatted[0];
    } else if n == 2 {
      r := Implode(", & ", [formatted[0], formatted[1]]);
    } else {
      r := Implode(", & ", [Implode(", ", formatted[..n - 1]), formatted[n - 1]]);
    }
  }

  /** The inner pass of `formatAuthorAPA`: the initials of every part but the last. */
  method NameInitials(parts: seq<string>) returns (initials: seq<string>)
    requires |parts| >= 1
    ensures initials == Initials(parts[..|parts| - 1])
  {
    initials := [];
    var k := 0;
    while k < |parts| - 1
      invariant 0 <= k <= |parts| - 1
      invariant initials == Initials(parts[..k])
    {
      assert parts[..k + 1][..k] == parts[..k];
      if !IsEmpty(parts[k]) {
        initials := initials + [Initial(parts[k])];
      }
      k := k + 1;
    }
  }

  // ---------------------------------------------------------------------
  // Properties of the author formatting

  /** One formatted author per comma-separated piece. */
  lemma ApaCount(author: string)
    ensures |FormatNames(Explode(',', author))| == Occurrences(',', author) + 1
  {
    ExplodeCount(',', author);
  }

  /** Every initial is an upper-cased first character and a dot, one per part that is not `empty()`. */
  lemma {:induction false} InitialsSpec(parts: seq<string>)
    ensures |Initials(parts)| == CountWhere(parts, HasInitial)
    ensures forall k :: 0 <= k < |Initials(parts)| ==>
      |Initials(parts)[k]| == 2 && Initials(parts)[k][1] == '.'
    decreases |parts|
  {
    if parts != [] {
      var init := parts[..|parts| - 1];
      var last := parts[|parts| - 1];
      InitialsSpec(init);
      assert init + [last] == parts;
      CountWhereAppend(init, last, HasInitial);
    }
  }

  lemma ImplodeTwo(glue: string, a: string, b: string)
    ensures Implode(glue, [a, b]) == a + glue + b
  {
    assert [a, b][1..] == [b];
  }

  /** A name without spaces is kept whole and followed by ", " with no initials. */
  lemma SingleWordName(name: string)
    requires ' ' !in Trim(name)
    ensures FormatName(name) == Trim(name) + ", "
  {
    ExplodeNoSep(' ', Trim(name));
    ImplodeTwo(", ", Trim(name), "");
  }

  /** The two-author form is the general form with a one-name head. */
  lemma TwoAuthorsFollowGeneralForm(formatted: seq<string>)
    requires |formatted| >= 2
    ensures JoinApa(formatted) ==
      Implode(", ", formatted[..|formatted| - 1]) + ", & " + formatted[|formatted| - 1]
  {
    var n := |formatted|;
    if n == 2 {
      assert formatted[..1] == [formatted[0]];
      ImplodeTwo(", & ", formatted[0], formatted[1]);
    } else {
      ImplodeTwo(", & ", Implode(", ", formatted[..n - 1]), formatted[n - 1]);
    }
  }

  /** A field without commas is a single author, formatted on its own. */
  lemma SingleAuthor(author: string)
    requires !IsEmpty(author) && ',' !in author
    ensures ApaAuthors(author) == FormatName(Trim(author))
  {
    ExplodeNoSep(',', author);
    assert FormatNames([author]) == FormatNames([]) + [FormatName(Trim(author))];
  }

  // ---------------------------------------------------------------------
  // htmlspecialchars and the citation

  /** `htmlspecialchars` with PHP 8.1's default flags (quotes of both kinds converted). */
  function EscapeChar(c: char): string {
    if c == '&' then "&amp;"
    else if c == '<' then "&lt;"
    else if c == '>' then "&gt;"
    else if c == '"' then "&quot;"
    else if c == '\'' then "&#039;"
    else [c]
  }

  predicate Special(c: char) {
    c == '&' || c == '<' || c == '>' || c == '"' || c == '\''
  }

  function HtmlEscape(s: string): string
    decreases |s|
  {
    if s == [] then [] else EscapeChar(s[0]) + HtmlEscape(s[1..])
  }

  /** The escaped text holds no angle bracket and no quote. */
  lemma {:induction false} HtmlEscapeSafe(s: string)
    ensures forall i :: 0 <= i < |HtmlEscape(s)| ==> !Special(HtmlEscape(s)[i]) || HtmlEscape(s)[i] == '&'
    decreases |s|
  {
    if s != [] {
      HtmlEscapeSafe(s[1..]);
    }
  }

  /**
   * Decoding of the five entities `htmlspecialchars` writes, tried at each
   * `&`; any other character is copied.
   */
  function HtmlUnescape(t: string): string
    decreases |t|
  {
    if t == [] then []
    else if |t| >= 5 && t[..5] == "&amp;" then "&" + HtmlUnescape(t[5..])
    else if |t| >= 4 && t[..4] == "&lt;" then "<" + HtmlUnescape(t[4..])
    else if |t| >= 4 && t[..4] == "&gt;" then ">" + HtmlUnescape(t[4..])
    else if |t| >= 6 && t[..6] == "&quot;" then "\"" + HtmlUnescape(t[6..])
    else if |t| >= 6 && t[..6] == "&#039;" then "'" + HtmlUnescape(t[6..])
    else [t[0]] + HtmlUnescape(t[1..])
  }

  /** One escaped character decodes back to itself, whatever follows it. */
  lemma UnescapeEscapedChar(c: char, rest: string)
    ensures HtmlUnescape(EscapeChar(c) + rest) == [c] + HtmlUnescape(rest)
  {
    if Special(c) {
      UnescapeEntity(c, rest);
    } else {
      UnescapePlain(c, rest);
    }
  }

  /** A character that is not special is copied: no entity starts with it. */
  lemma UnescapePlain(c: char, rest: string)
    requires !Special(c)
    ensures HtmlUnescape([c] + rest) == [c] + HtmlUnescape(rest)
  {
    var t := [c] + rest;
    assert t[0] == c && t[1..] == rest;
    assert |t| >= 4 ==> t[..4][0] == c;
    assert |t| >= 5 ==> t[..5][0] == c;
    assert |t| >= 6 ==> t[..6][0] == c;
  }

  /**
   * Each of the five entities decodes to its character: the entities
   * differ in their second character, so no earlier one matches.
   */
  lemma UnescapeEntity(c: char, rest: string)
    requires Special(c)
    ensures HtmlUnescape(EscapeChar(c) + rest) == [c] + HtmlUnescape(rest)
  {
    if c == '&' {
      var t := "&amp;" + rest;
      assert t[..5] == "&amp;" && t[5..] == rest;
    } else if c == '<' || c == '>' {
      UnescapeAngle(c, rest);
    } else {
      UnescapeQuote(c, rest);
    }
  }

  /** `&lt;` and `&gt;`, the four-character entities. */
  lemma UnescapeAngle(c: char, rest: string)
    requires c == '<' || c == '>'
    ensures HtmlUnescape(EscapeChar(c) + rest) == [c] + HtmlUnescape(rest)
  {
    var e := EscapeChar(c);
    var t := e + rest;
    assert |e| == 4 && t[1] == e[1] != 'a';
    assert t[..4] == e && t[4..] == rest;
  }

  /** `&quot;` and `&#039;`, the six-character entities. */
  lemma UnescapeQuote(c: char, rest: string)
    requires c == '"' || c == '\''
    ensures HtmlUnescape(EscapeChar(c) + rest) == [c] + HtmlUnescape(rest)
  {
    var e := EscapeChar(c);
    var t := e + rest;
    assert |e| == 6 && t[1] == e[1] && t[1] != 'a' && t[1] != 'l' && t[1] != 'g';
    assert t[..6] == e && t[6..] == rest;
  }

  /**
   * Escaping loses nothing: decoding the escaped text gives the original
   * back, so every `&` the escaped text holds starts one of the five entities.
   */
  lemma {:induction false} HtmlEscapeRoundTrip(s: string)
    ensures HtmlUnescape(HtmlEscape(s)) == s
    decreases |s|
  {
    if s != [] {
      UnescapeEscapedChar(s[0], HtmlEscape(s[1..]));
      HtmlEscapeRoundTrip(s[1..]);
      assert [s[0]] + s[1..] == s;
    }
  }

  /** Text without special characters is left as it is. */
  lemma {:induction false} HtmlEscapePlain(s: string)
    requires forall i :: 0 <= i < |s| ==> !Special(s[i])
    ensures HtmlEscape(s) == s
    decreases |s|
  {
    if s != [] {
      HtmlEscapePlain(s[1..]);
      assert [s[0]] + s[1..] == s;
    }
  }

  /** The `year` column as PHP prints an integer. */
  function YearText(year: int): string {
    if year < 0 then "-" + Decimal(-year) else Decimal(year)
  }

  const RepositorySuffix := ". CCS Research Repository."

  /** `generateCitation`: authors, the year in parentheses, the escaped title, the repository. */
  function GenerateCitation(row: CapstoneRow): string {
    ApaAuthors(row.author) + YearAndTitle(row) + RepositorySuffix
  }

  /** " (year). title" */
  function YearAndTitle(row: CapstoneRow): string {
    " (" + HtmlEscape(YearText(row.year)) + "). " + HtmlEscape(row.title)
  }

  /** The year is printed as digits (and a sign), which escaping leaves alone. */
  lemma YearNeedsNoEscape(year: int)
    ensures HtmlEscape(YearText(year)) == YearText(year)
  {
    var y := YearText(year);
    var d := Decimal(if year < 0 then -year else year);
    assert forall i :: 0 <= i < |d| ==> IsDigit(d[i]);
    assert forall i :: 0 <= i < |y| ==> !Special(y[i]);
    HtmlEscapePlain(y);
  }

  /** The citation opens with the authors and closes with the repository name. */
  lemma CitationShape(row: CapstoneRow)
    ensures var c := GenerateCitation(row);
      var a := ApaAuthors(row.author);
      && |c| >= |a| + |RepositorySuffix|
      && c[..|a|] == a
      && c[|c| - |RepositorySuffix|..] == RepositorySuffix
  {
    var a := ApaAuthors(row.author);
    var c := GenerateCitation(row);
    assert c == a + YearAndTitle(row) + RepositorySuffix;
  }

  // ---------------------------------------------------------------------
  // The page

  datatype ViewOutcome =
    | InvalidId                     // "Invalid research ID."
    | NotFound                      // "Research not found or not verified."
    | Shown(row: CapstoneRow, citation: string, bookmarked: bool)

  /** `(int)$_GET['id']`, 0 when the parameter is missing. */
  function IdParam(param: Option<string>): int {
    if param.Some? then IntCast(param.value) else 0
  }

  /**
   * The page: a positive id of a verified entry shows the entry and its
   * citation, with the bookmark flag for a logged-in student.
   */
  function ViewResearch(param: Option<string>, capstones: map<RowId, CapstoneRow>,
                        bookmarks: map<RowId, Bookmark>, student: Option<UserId>): ViewOutcome {
    var id := IdParam(param);
    if id <= 0 then InvalidId
    else if id !in capstones || capstones[id].status != "verified" then NotFound
    else
      var marked := student.Some? && exists b :: b in bookmarks && bookmarks[b] == Bookmark(student.value, id);
      Shown(capstones[id], GenerateCitation(capstones[id]), marked)
  }

  /**
   * Ids at or below zero are refused before any lookup; otherwise only a
   * verified entry is shown, with its own citation.
   */
  lemma ViewResearchSpec(param: Option<string>, capstones: map<RowId, CapstoneRow>,
                         bookmarks: map<RowId, Bookmark>, student: Option<UserId>)
    ensures var v := ViewResearch(param, capstones, bookmarks, student);
      var id := IdParam(param);
      && (v == InvalidId <==> id <= 0)
      && (v.Shown? <==> id > 0 && id in capstones && capstones[id].status == "verified")
      && (v.Shown? ==> v.row == capstones[id] && v.citation == GenerateCitation(capstones[id]))
      && (v.Shown? && v.bookmarked ==> student.Some?)
  {
  }

  /** A missing or non-numeric parameter reads as 0 and is refused. */
  lemma MissingIdRefused(capstones: map<RowId, CapstoneRow>, bookmarks: map<RowId, Bookmark>,
                         student: Option<UserId>)
    ensures ViewResearch(None, capstones, bookmarks, student) == InvalidId
    ensures ViewResearch(Some(""), capstones, bookmarks, student) == InvalidId
  {
  }
}

=== FILE: dashboard.dfy ===
/**
 * The student dashboard (student/home.php) and the "my submission" page
 * (student/my_projects.php): read-only views over the tables.  The
 * dashboard counts the group's working titles, picks the project whose
 * defenses it shows, and turns each phase into a badge and a progress bar;
 * the submission page shows the group's latest capstone row with its
 * status and the rejection remarks.
 */
module Dashboard {
  import opened PhpStrings
  import opened Records
  import opened Capstone

  // ---------------------------------------------------------------------
  // Project counts

  /** The `dean_approval` column of the LEFT JOIN: NULL without an approvals row. */
  function DeanColumn(approvals: map<RowId, Approval>, id: RowId): Option<Stage> {
    if id in approvals then Some(approvals[id].dean) else None
  }

  predicate DeanApproved(dean: Option<Stage>) {
    dean == Some(StageApproved)
  }

  predicate NotDeanApproved(dean: Option<Stage>) {
    !DeanApproved(dean)
  }

  /** The dean column of each listed project, in listing order. */
  function Deans(approvals: map<RowId, Approval>, listed: seq<RowId>): (r: seq<Option<Stage>>)
    ensures |r| == |listed|
    ensures forall i :: 0 <= i < |listed| ==> r[i] == DeanColumn(approvals, listed[i])
  {
    if listed == [] then []
    else Deans(approvals, listed[..|listed| - 1]) + [DeanColumn(approvals, listed[|listed| - 1])]
  }

  /** The projects the dashboard lists: own or group rows, archived ones included. */
  function ListedProjects(projects: map<RowId, ProjectRow>, dir: Directory, caller: UserId): set<RowId> {
    set id | id in projects && OwnOrGroupProject(dir, caller, projects[id])
  }

  predicate Distinct(s: seq<RowId>) {
    forall i, j :: 0 <= i < j < |s| ==> s[i] != s[j]
  }

  /** `listed` is what the listing query returns: every listed project once. */
  predicate IsListing(projects: map<RowId, ProjectRow>, dir: Directory, caller: UserId, listed: seq<RowId>) {
    Distinct(listed) && (set x | x in listed) == ListedProjects(projects, dir, caller)
  }

  datatype ProjectCounts = ProjectCounts(total: nat, approved: nat, pending: nat)

  /**
   * `$totalProjects`, `$approvedProjects`, `$pendingProjects`: a listed
   * project counts as approved when its dean stage is approved, and as
   * pending otherwise, a project without an approvals row included.
   */
  method CountProjects(approvals: map<RowId, Approval>, listed: seq<RowId>) returns (c: ProjectCounts)
    ensures c.total == |listed|
    ensures c.approved == CountWhere(Deans(approvals, listed), DeanApproved)
    ensures c.pending == CountWhere(Deans(approvals, listed), NotDeanApproved)
  {
    var approved, pending := 0, 0;
    var i := 0;
    while i < |listed|
      invariant 0 <= i <= |listed|
      invariant approved == CountWhere(Deans(approvals, listed[..i]), DeanApproved)
      invariant pending == CountWhere(Deans(approvals, listed[..i]), NotDeanApproved)
    {
      var dean := DeanColumn(approvals, listed[i]);
      assert listed[..i + 1][..i] == listed[..i];
      assert Deans(approvals, listed[..i + 1]) == Deans(approvals, listed[..i]) + [dean];
      CountWhereAppend(Deans(approvals, listed[..i]), dean, DeanApproved);
      CountWhereAppend(Deans(approvals, listed[..i]), dean, NotDeanApproved);
      if dean == Some(StageApproved) {
        approved := approved + 1;
      } else {
        pending := pending + 1;
      }
      i := i + 1;
    }
    assert listed[..i] == listed;
    c := ProjectCounts(|listed|, approved, pending);
  }

  /** Every listed project is counted exactly once, as approved or as pending. */
  lemma {:induction false} ApprovedPlusPending(deans: seq<Option<Stage>>)
    ensures CountWhere(deans, DeanApproved) + CountWhere(deans, NotDeanApproved) == |deans|
    decreases |deans|
  {
    if deans != [] {
      ApprovedPlusPending(deans[1..]);
    }
  }

  lemma {:induction false} DistinctCard(s: seq<RowId>)
    requires Distinct(s)
    ensures |set x | x in s| == |s|
    decreases |s|
  {
    if s != [] {
      assert Distinct(s[1..]);
      DistinctCard(s[1..]);
      assert (set x | x in s) == (set x | x in s[1..]) + {s[0]};
      assert s[0] !in (set x | x in s[1..]);
    }
  }

  /** The total is the number of own or group projects; it is positive iff one exists. */
  lemma ListingTotal(projects: map<RowId, ProjectRow>, dir: Directory, caller: UserId, listed: seq<RowId>)
    requires IsListing(projects, dir, caller, listed)
    ensures |listed| == |ListedProjects(projects, dir, caller)|
    ensures |listed| > 0 <==> exists id :: id in projects && OwnOrGroupProject(dir, caller, projects[id])
  {
    DistinctCard(listed);
    if exists id :: id in projects && OwnOrGroupProject(dir, caller, projects[id]) {
      var id :| id in projects && OwnOrGroupProject(dir, caller, projects[id]);
      assert id in ListedProjects(projects, dir, caller);
    }
  }

  // ---------------------------------------------------------------------
  // The project whose defenses the dashboard shows

  /** A project row with its dean column, as the defense query joins them. */
  datatype Joined = Joined(row: ProjectRow, dean: Option<Stage>)

  function JoinApprovals(projects: map<RowId, ProjectRow>, approvals: map<RowId, Approval>): map<RowId, Joined> {
    map id | id in projects :: Joined(projects[id], DeanColumn(approvals, id))
  }

  predicate DefenseCandidate(dir: Directory, caller: UserId, j: Joined) {
    OwnOrGroupProject(dir, caller, j.row) && DeanApproved(j.dean)
  }

  /** `$defense['project_id']`: the highest-id own or group project the dean approved. */
  function DefenseProject(projects: map<RowId, ProjectRow>, approvals: map<RowId, Approval>,
                          next: int, dir: Directory, caller: UserId): Option<RowId> {
    HighestWhere(JoinApprovals(projects, approvals), (j: Joined) => DefenseCandidate(dir, caller, j), next - 1)
  }

  /**
   * The shown project is an own or group project with the dean's approval
   * and no newer one has both; there is none exactly when no project has both.
   */
  lemma DefenseProjectSpec(projects: map<RowId, ProjectRow>, approvals: map<RowId, Approval>,
                           next: int, dir: Directory, caller: UserId)
    requires IdsBelow(projects, next)
    ensures var d := DefenseProject(projects, approvals, next, dir, caller);
      && (d.Some? ==> d.value in projects && OwnOrGroupProject(dir, caller, projects[d.value])
                      && DeanApproved(DeanColumn(approvals, d.value)))
      && (d.Some? ==> forall id :: (id in projects && OwnOrGroupProject(dir, caller, projects[id])
                                    && DeanApproved(DeanColumn(approvals, id))) ==> id <= d.value)
      && (d.None? <==> forall id :: id in projects && OwnOrGroupProject(dir, caller, projects[id])
                                    ==> !DeanApproved(DeanColumn(approvals, id)))
  {
    var m := JoinApprovals(projects, approvals);
    var p := (j: Joined) => DefenseCandidate(dir, caller, j);
    assert IdsBelow(m, next);
    HighestWhereIsMax(m, p, next);
    forall id | id in projects
      ensures p(m[id]) == (OwnOrGroupProject(dir, caller, projects[id]) && DeanApproved(DeanColumn(approvals, id)))
    {
    }
  }

  /**
   * The dashboard's project is never newer than the project the capstone
   * page treats as current, and is that project whenever the dean approved it.
   */
  lemma DefenseProjectAtMostCurrent(projects: map<RowId, ProjectRow>, approvals: map<RowId, Approval>,
                                    next: int, dir: Directory, caller: UserId)
    requires IdsBelow(projects, next)
    ensures var d := DefenseProject(projects, approvals, next, dir, caller);
      var c := CurrentProject(projects, next, dir, caller);
      && (d.Some? ==> c.Some? && d.value <= c.value)
      && (c.Some? && DeanApproved(DeanColumn(approvals, c.value)) ==> d == c)
  {
    var d := DefenseProject(projects, approvals, next, dir, caller);
    var c := CurrentProject(projects, next, dir, caller);
    DefenseProjectSpec(projects, approvals, next, dir, caller);
    HighestWhereIsMax(projects, (r: ProjectRow) => OwnOrGroupProject(dir, caller, r), next);
  }

  /** `$defense`: the chosen project with its title and final defense records (LEFT JOINs). */
  datatype DefenseRow = DefenseRow(projectId: RowId, title: Option<DefenseRecord>, finalDefense: Option<DefenseRecord>)

  function DefenseOf(project: Option<RowId>, titles: map<RowId, DefenseRecord>,
                     finals: map<RowId, DefenseRecord>): Option<DefenseRow> {
    if project.None? then None
    else
      var id := project.value;
      Some(DefenseRow(id,
                      if id in titles then Some(titles[id]) else None,
                      if id in finals then Some(finals[id]) else None))
  }

  function TitleRecord(d: Option<DefenseRow>): Option<DefenseRecord> {
    if d.Some? then d.value.title else None
  }

  function FinalRecord(d: Option<DefenseRow>): Option<DefenseRecord> {
    if d.Some? then d.value.finalDefense else None
  }

  function StatusOf(rec: Option<DefenseRecord>): Option<GateStatus> {
    if rec.Some? then Some(rec.value.status) else None
  }

  /** `$manuscriptStatus`: the status of the latest review of the shown project. */
  function ManuscriptStatus(d: Option<DefenseRow>, reviews: map<RowId, Review>, nextReview: int): Option<ReviewStatus> {
    if d.None? then None
    else
      var m := LatestReview(reviews, nextReview, d.value.projectId);
      if m.Some? then Some(reviews[m.value].status) else None
  }

  // ---------------------------------------------------------------------
  // Badges and progress bars

  /** A step card: the badge's CSS key and text, the bar's class and its width in percent. */
  datatype Badge = Badge(key: string, text: string, bar: string, width: nat)

  /** The working-title card. */
  function ProjectBadge(total: nat): Badge {
    if total > 0 then Badge("approved", "Submitted", "bg-success", 100)
    else Badge("not-submitted", "Not Submitted", "bg-secondary", 0)
  }

  /** The status column's word. */
  function GateWord(s: GateStatus): string {
    match s
    case Pending => "pending"
    case Approved => "approved"
    case Rejected => "rejected"
  }

  /** `ucfirst` */
  function Ucfirst(w: string): string {
    if w == [] then [] else [UpperChar(w[0])] + w[1..]
  }

  /**
   * A defense card: approved fills the bar; any other recorded status shows
   * that status, capitalised, with a partly filled bar; no record shows
   * the card's own "not started" text with an empty bar.
   */
  function DefenseBadge(status: Option<GateStatus>, startedWidth: nat, notStarted: string): Badge {
    if status == Some(Approved) then Badge("approved", "Approved", "bg-success", 100)
    else if status.Some? then Badge("pending", Ucfirst(GateWord(status.value)), "bg-warning", startedWidth)
    else Badge("not-submitted", notStarted, "bg-secondary", 0)
  }

  function TitleBadge(d: Option<DefenseRow>): Badge {
    DefenseBadge(StatusOf(TitleRecord(d)), 70, "Not Started")
  }

  function FinalBadge(d: Option<DefenseRow>, fourthYear: bool): Badge {
    DefenseBadge(StatusOf(FinalRecord(d)), 80, if fourthYear then "Not Started" else "Locked (4th year)")
  }

  /** The defense cards' texts and widths for each status. */
  lemma DefenseBadgeTexts(d: Option<DefenseRow>, fourthYear: bool)
    ensures var t := TitleBadge(d);
      && (StatusOf(TitleRecord(d)) == Some(Approved) <==> t.width == 100)
      && (StatusOf(TitleRecord(d)) == Some(Pending) <==> t.text == "Pending" && t.width == 70)
      && (StatusOf(TitleRecord(d)) == Some(Rejected) <==> t.text == "Rejected" && t.width == 70)
      && (StatusOf(TitleRecord(d)).None? <==> t.text == "Not Started" && t.width == 0)
    ensures var f := FinalBadge(d, fourthYear);
      && (StatusOf(FinalRecord(d)) == Some(Approved) <==> f.width == 100)
      && (StatusOf(FinalRecord(d)).Some? && StatusOf(FinalRecord(d)) != Some(Approved) <==> f.width == 80)
      && (StatusOf(FinalRecord(d)).None? <==> f.width == 0)
  {
    assert Ucfirst("pending") == "Pending";
    assert Ucfirst("rejected") == "Rejected";
  }

  /** Without a final defense record the card reads "Not Started" for fourth years and is locked otherwise. */
  lemma FinalBadgeWithoutRecord(d: Option<DefenseRow>, fourthYear: bool)
    requires FinalRecord(d).None?
    ensures FinalBadge(d, fourthYear).text == (if fourthYear then "Not Started" else "Locked (4th year)")
    ensures FinalBadge(d, fourthYear).width == 0
  {
  }

  /** The grammarian card, from the latest review's status. */
  function GrammarianBadge(m: Option<ReviewStatus>): Badge {
    match m
    case None => Badge("not-submitted", "Not Started", "bg-secondary", 0)
    case Some(ReviewApproved) => Badge("approved", "Approved", "bg-success", 100)
    case Some(UnderReview) => Badge("pending", "Under Review", "bg-warning", 70)
    case Some(ReviewPending) => Badge("pending", "Pending", "bg-warning", 40)
    case Some(ReviewRejected) => Badge("rejected", "Rejected", "bg-danger", 10)
  }

  /**
   * The grammarian bar grows as the review advances (pending, under review,
   * approved), a rejection shows the shortest non-empty bar, and the width
   * alone tells the status apart.
   */
  lemma GrammarianBarOrder(a: Option<ReviewStatus>, b: Option<ReviewStatus>)
    ensures GrammarianBadge(None).width < GrammarianBadge(Some(ReviewRejected)).width
            < GrammarianBadge(Some(ReviewPending)).width < GrammarianBadge(Some(UnderReview)).width
            < GrammarianBadge(Some(ReviewApproved)).width == 100
    ensures GrammarianBadge(a).width == GrammarianBadge(b).width ==> a == b
    ensures GrammarianBadge(a).key == "pending" <==> a == Some(ReviewPending) || a == Some(UnderReview)
  {
  }

  /** The "submit to repository" card. */
  function SubmitBadge(groupCount: nat, m: Option<ReviewStatus>): Badge {
    if groupCount > 0 then Badge("approved", "Submitted", "bg-success", 100)
    else if m == Some(ReviewApproved) then Badge("pending", "Ready", "bg-warning", 50)
    else Badge("not-submitted", "Locked", "bg-secondary", 0)
  }

  /** "Submitted" once the group has a capstone row, else "Ready" once the manuscript is approved, else "Locked". */
  lemma SubmitBadgeTexts(groupCount: nat, m: Option<ReviewStatus>)
    ensures SubmitBadge(groupCount, m).text == "Submitted" <==> groupCount > 0
    ensures SubmitBadge(groupCount, m).text == "Ready" <==> groupCount == 0 && m == Some(ReviewApproved)
    ensures SubmitBadge(groupCount, m).text == "Locked" <==> groupCount == 0 && m != Some(ReviewApproved)
    ensures SubmitBadge(groupCount, m).text == "Ready" ==> GrammarianBadge(m).width == 100
  {
  }

  /** The upcoming-schedule block lists a defense with a date that is not approved yet. */
  predicate Upcoming(rec: Option<DefenseRecord>) {
    rec.Some? && rec.value.scheduled.Some? && rec.value.status != Approved
  }

  /** A listed upcoming defense shows a started, not yet approved card. */
  lemma UpcomingShowsStarted(d: Option<DefenseRow>, fourthYear: bool)
    ensures Upcoming(TitleRecord(d)) ==> TitleBadge(d).key == "pending" && TitleBadge(d).width == 70
    ensures Upcoming(FinalRecord(d)) ==> FinalBadge(d, fourthYear).key == "pending" && FinalBadge(d, fourthYear).width == 80
    ensures Upcoming(TitleRecord(d)) <==>
      TitleRecord(d).Some? && TitleRecord(d).value.scheduled.Some? && TitleBadge(d).width < 100
  {
  }

  // ---------------------------------------------------------------------
  // Overall progress

  /** The five milestones the overall bar adds up. */
  datatype Milestones = Milestones(hasProject: bool, titleApproved: bool, finalApproved: bool,
                                   manuscriptApproved: bool, capstoneSubmitted: bool)

  function MilestonesOf(total: nat, d: Option<DefenseRow>, m: Option<ReviewStatus>, groupCount: nat): Milestones {
    Milestones(total > 0, StatusOf(TitleRecord(d)) == Some(Approved), StatusOf(FinalRecord(d)) == Some(Approved),
               m == Some(ReviewApproved), groupCount > 0)
  }

  function Conditions(ms: Milestones): seq<bool> {
    [ms.hasProject, ms.titleApproved, ms.finalApproved, ms.manuscriptApproved, ms.capstoneSubmitted]
  }

  predicate Holds(b: bool) {
    b
  }

  function Point(b: bool): nat {
    if b then 1 else 0
  }

  /** `$overallProgress`: 20 points for each milestone reached. */
  method OverallProgress(ms: Milestones) returns (pct: nat)
    ensures pct == 20 * CountWhere(Conditions(ms), Holds)
    ensures pct % 20 == 0 && pct <= 100
    ensures pct == 100 <==> ms.hasProject && ms.titleApproved && ms.finalApproved
                            && ms.manuscriptApproved && ms.capstoneSubmitted
  {
    var c := Conditions(ms);
    assert CountWhere(c[4..], Holds) == Point(ms.capstoneSubmitted) by { assert c[4..][1..] == []; }
    assert CountWhere(c[3..], Holds) == Point(ms.manuscriptApproved) + CountWhere(c[4..], Holds) by { assert c[3..][1..] == c[4..]; }
    assert CountWhere(c[2..], Holds) == Point(ms.finalApproved) + CountWhere(c[3..], Holds) by { assert c[2..][1..] == c[3..]; }
    assert CountWhere(c[1..], Holds) == Point(ms.titleApproved) + CountWhere(c[2..], Holds) by { assert c[1..][1..] == c[2..]; }
    pct := 0;
    if ms.hasProject { pct := pct + 20; }
    if ms.titleApproved { pct := pct + 20; }
    if ms.finalApproved { pct := pct + 20; }
    if ms.manuscriptApproved { pct := pct + 20; }
    if ms.capstoneSubmitted { pct := pct + 20; }
  }

  /** Each milestone is exactly "that card's bar is full". */
  lemma MilestonesAreFullBars(total: nat, d: Option<DefenseRow>, m: Option<ReviewStatus>,
                              groupCount: nat, fourthYear: bool)
    ensures MilestonesOf(total, d, m, groupCount) ==
      Milestones(ProjectBadge(total).width == 100, TitleBadge(d).width == 100,
                 FinalBadge(d, fourthYear).width == 100, GrammarianBadge(m).width == 100,
                 SubmitBadge(groupCount, m).width == 100)
  {
  }

  // ---------------------------------------------------------------------
  // The "my submission" page

  /** `$submission`: the group's highest-id capstone row; own rows of an ungrouped student are not found. */
  function LatestGroupSubmission(capstones: map<RowId, CapstoneRow>, next: int, dir: Directory,
                                 caller: UserId): Option<RowId> {
    HighestWhere(capstones, (c: CapstoneRow) => GroupRow(dir, caller, c), next - 1)
  }

  /**
   * The shown row belongs to a group mate and no group row is newer; a
   * student without a group code sees no submission, not even their own.
   */
  lemma LatestGroupSubmissionSpec(capstones: map<RowId, CapstoneRow>, next: int, dir: Directory, caller: UserId)
    requires IdsBelow(capstones, next)
    ensures var s := LatestGroupSubmission(capstones, next, dir, caller);
      && (s.Some? ==> s.value in capstones && InGroupOf(dir, capstones[s.value].userId, caller))
      && (s.Some? ==> forall id :: id in capstones && InGroupOf(dir, capstones[id].userId, caller) ==> id <= s.value)
      && (s.None? <==> GroupSubmissionCount(capstones, dir, caller) == 0)
      && (GroupOf(dir, caller).None? ==> s.None?)
  {
    HighestWhereIsMax(capstones, (c: CapstoneRow) => GroupRow(dir, caller, c), next);
    GroupCountZero(capstones, dir, caller);
  }

  /** `strtolower(trim($status))` */
  function NormalizeStatus(s: string): string {
    Lower(Trim(s))
  }

  datatype ShownStatus = ShownPending | ShownApproved | ShownRejected

  /** The status switch: known approval and rejection words, everything else pending. */
  function StatusShown(norm: string): ShownStatus {
    if norm == "verified" || norm == "approved" then ShownApproved
    else if norm == "reject" || norm == "rejected" then ShownRejected
    else ShownPending
  }

  function StatusClass(s: ShownStatus): string {
    match s
    case ShownPending => "status-pending"
    case ShownApproved => "status-approved"
    case ShownRejected => "status-rejected"
  }

  function StatusText(s: ShownStatus): string {
    match s
    case ShownPending => "Pending"
    case ShownApproved => "Approved"
    case ShownRejected => "Rejected"
  }

  /** The remarks block: only for the exact word `rejected`. */
  predicate RemarksShown(norm: string) {
    norm == "rejected"
  }

  /** Approval and rejection have two spellings each; the remarks follow only one of the rejection spellings. */
  lemma StatusCases(norm: string)
    ensures StatusShown(norm) == ShownApproved <==> norm in {"verified", "approved"}
    ensures StatusShown(norm) == ShownRejected <==> norm in {"reject", "rejected"}
    ensures StatusShown(norm) == ShownPending <==> norm !in {"verified", "approved", "reject", "rejected"}
    ensures RemarksShown(norm) ==> StatusShown(norm) == ShownRejected
    ensures StatusShown("reject") == ShownRejected && !RemarksShown("reject")
  {
  }

  lemma LowerKeepsTrimmed(s: string)
    requires IsTrimmed(s)
    ensures IsTrimmed(Lower(s))
  {
  }

  lemma LowerIdempotent(s: string)
    ensures Lower(Lower(s)) == Lower(s)
  {
    assert forall i :: 0 <= i < |s| ==> LowerChar(LowerChar(s[i])) == LowerChar(s[i]);
  }

  /** Normalising a normalised status changes nothing. */
  lemma NormalizeIdempotent(s: string)
    ensures NormalizeStatus(NormalizeStatus(s)) == NormalizeStatus(s)
  {
    var t := Trim(s);
    TrimIsTrimmed(s);
    LowerKeepsTrimmed(t);
    TrimOfTrimmed(Lower(t));
    LowerIdempotent(t);
  }

  /** A trimmed word of another length than the four known ones reads as pending. */
  lemma OtherLengthShowsPending(s: string)
    requires IsTrimmed(s) && |s| != 6 && |s| != 8
    ensures StatusShown(NormalizeStatus(s)) == ShownPending
  {
    TrimOfTrimmed(s);
  }

  /** The status a new submission is stored with reads as pending. */
  lemma NewSubmissionShowsPending()
    ensures StatusShown(NormalizeStatus("nonverified")) == ShownPending
  {
    OtherLengthShowsPending("nonverified");
  }

  /** The case-insensitive `Remarks:` label, lowered. */
  const RemarksLabel := "remarks:"

  predicate LabelAt(msg: string, i: nat) {
    i + |RemarksLabel| <= |msg| && Lower(msg[i..i + |RemarksLabel|]) == RemarksLabel
  }

  /** `stripos($msg, 'Remarks:')`, searching from position i on. */
  function FindLabel(msg: string, i: nat): Option<nat>
    decreases |msg| - i
  {
    if i + |RemarksLabel| > |msg| then None
    else if LabelAt(msg, i) then Some(i)
    else FindLabel(msg, i + 1)
  }

  /** No label fits in the last characters of the message. */
  lemma NoLabelNearEnd(msg: string, i: nat)
    requires i + |RemarksLabel| > |msg|
    ensures forall j :: i <= j ==> !LabelAt(msg, j)
  {
  }

  /** The search finds the first label at or after i, and reports none only when there is none. */
  lemma {:induction false} FindLabelSpec(msg: string, i: nat)
    ensures var r := FindLabel(msg, i);
      && (r.Some? ==> i <= r.value && LabelAt(msg, r.value))
      && (r.Some? ==> forall j :: i <= j < r.value ==> !LabelAt(msg, j))
      && (r.None? ==> forall j :: i <= j ==> !LabelAt(msg, j))
    decreases |msg| - i
  {
    if i + |RemarksLabel| > |msg| {
      NoLabelNearEnd(msg, i);
    } else if !LabelAt(msg, i) {
      FindLabelSpec(msg, i + 1);
      var r := FindLabel(msg, i + 1);
      assert FindLabel(msg, i) == r;
      if r.Some? {
        forall j | i <= j < r.value
          ensures !LabelAt(msg, j)
        {
          if j == i {
          }
        }
      } else {
        forall j | i <= j
          ensures !LabelAt(msg, j)
        {
          if j == i {
          }
        }
      }
    }
  }

  /** The remarks in a rejection message: the trimmed text after the first label, else the whole message. */
  function ExtractRemarks(msg: string): string {
    var p := FindLabel(msg, 0);
    if p.Some? && p.value + |RemarksLabel| <= |msg| then Trim(msg[p.value + |RemarksLabel|..]) else msg
  }

  /** Without a label the remarks are the whole message. */
  lemma ExtractRemarksWithoutLabel(msg: string)
    requires forall j :: !LabelAt(msg, j)
    ensures ExtractRemarks(msg) == msg
  {
    FindLabelSpec(msg, 0);
  }

  /** With a label, the remarks are the trimmed text after its first occurrence. */
  lemma ExtractRemarksAfterFirstLabel(msg: string, p: nat)
    requires LabelAt(msg, p)
    requires forall j :: 0 <= j < p ==> !LabelAt(msg, j)
    ensures p + |RemarksLabel| <= |msg|
    ensures ExtractRemarks(msg) == Trim(msg[p + |RemarksLabel|..])
    ensures IsTrimmed(ExtractRemarks(msg))
  {
    FindLabelSpec(msg, 0);
    var r := FindLabel(msg, 0);
    assert r == Some(p);
    TrimIsTrimmed(msg[p + |RemarksLabel|..]);
  }

  /** `$latestRejectionRemarks`: empty without a rejection notification. */
  function RemarksText(notice: Option<string>): string {
    if notice.Some? then ExtractRemarks(notice.value) else ""
  }

  /** What the remarks box shows. */
  function RemarksDisplay(remarks: string): string {
    if remarks != "" then remarks else "No remarks provided."
  }

  /** The remarks box is never blank: it shows the remarks, or the fallback text when there are none. */
  lemma RemarksDisplayNeverEmpty(notice: Option<string>)
    ensures RemarksDisplay(RemarksText(notice)) != ""
    ensures RemarksText(notice) != "" ==> RemarksDisplay(RemarksText(notice)) == RemarksText(notice)
    ensures notice.None? ==> RemarksDisplay(RemarksText(notice)) == "No remarks provided."
  {
  }
}

=== FILE: defense.dfy ===
/**
 * The title-defense and final-defense pages (student/title-defense.php,
 * student/final-defense.php).  Each keeps at most one record per project:
 * a student submits one PDF, may withdraw it, and may replace it once a
 * defense date is set; the adviser side sets the status and the date.
 * The two pages run the same handlers; the final-defense page additionally
 * checks the upload's MIME type and the move of the uploaded file on
 * submission, and turns away students who are not in fourth year.
 */
module Defense {
  import opened PhpStrings
  import opened Records

  datatype Phase = TitlePhase | FinalPhase

  /** The part of `$_FILES[...]` the handlers look at. */
  datatype Upload = Upload(name: string, mimeType: string, size: int, errorCode: int, moved: bool)

  /** UPLOAD_ERR_OK, UPLOAD_ERR_INI_SIZE, UPLOAD_ERR_FORM_SIZE, UPLOAD_ERR_PARTIAL, UPLOAD_ERR_NO_FILE */
  const UploadErrOk := 0
  const UploadErrIniSize := 1
  const UploadErrFormSize := 2
  const UploadErrPartial := 3
  const UploadErrNoFile := 4

  datatype DefenseError =
    | NoFileChosen          // "Please select a PDF file." / "Please select a new PDF file."
    | NotPdf                // "Only PDF files are allowed."
    | TooLarge              // "File is too large. ..."
    | Incomplete            // "File upload was incomplete. ..."
    | NoFileUploaded        // "No file uploaded."
    | UploadErrorCode(code: int)
    | EmptyUpload           // "Uploaded file is empty or failed to transfer."
    | MoveFailed            // "Failed to upload file." / "Failed to upload new file. ..."

  /** The message chosen for a PHP upload error code other than UPLOAD_ERR_OK. */
  function UploadErrorOf(code: int): (e: DefenseError)
    ensures e == TooLarge <==> code == UploadErrIniSize || code == UploadErrFormSize
    ensures e.UploadErrorCode? <==> code !in {UploadErrIniSize, UploadErrFormSize, UploadErrPartial, UploadErrNoFile}
  {
    if code == UploadErrIniSize || code == UploadErrFormSize then TooLarge
    else if code == UploadErrPartial then Incomplete
    else if code == UploadErrNoFile then NoFileUploaded
    else UploadErrorCode(code)
  }

  /** The type test: a `.pdf` extension, and on the final-defense page also the PDF MIME type. */
  predicate AcceptedType(phase: Phase, u: Upload) {
    (phase == FinalPhase ==> u.mimeType == "application/pdf") && HasPdfExtension(u.name)
  }

  /**
   * The first-submission checks.  The title-defense page does not look at
   * whether the uploaded file could be moved; the final-defense page does.
   */
  function SubmitCheck(phase: Phase, u: Upload): (r: Option<DefenseError>)
    ensures r.None? <==> !IsEmpty(u.name) && AcceptedType(phase, u) && (phase == FinalPhase ==> u.moved)
    ensures r == Some(NotPdf) <==> !IsEmpty(u.name) && !AcceptedType(phase, u)
  {
    if IsEmpty(u.name) then Some(NoFileChosen)
    else if !AcceptedType(phase, u) then Some(NotPdf)
    else if phase == FinalPhase && !u.moved then Some(MoveFailed)
    else None
  }

  /** The replace-file checks, in the handlers' order. */
  function EditCheck(phase: Phase, u: Upload): (r: Option<DefenseError>)
    ensures r.None? <==>
      !IsEmpty(u.name) && u.errorCode == UploadErrOk && AcceptedType(phase, u) && u.size > 0 && u.moved
    ensures r == Some(NotPdf) ==> u.errorCode == UploadErrOk && !AcceptedType(phase, u)
    ensures r == Some(EmptyUpload) ==> AcceptedType(phase, u) && u.size <= 0
  {
    if IsEmpty(u.name) then Some(NoFileChosen)
    else if u.errorCode != UploadErrOk then Some(UploadErrorOf(u.errorCode))
    else if !AcceptedType(phase, u) then Some(NotPdf)
    else if u.size <= 0 then Some(EmptyUpload)
    else if !u.moved then Some(MoveFailed)
    else None
  }

  /** The title page ignores a failed move on first submission. */
  lemma TitleSubmitIgnoresMove(u: Upload)
    ensures SubmitCheck(TitlePhase, u) == SubmitCheck(TitlePhase, u.(moved := false))
  {
  }

  // ---------------------------------------------------------------------
  // What the page shows

  /** The record as the page sees it, or the placeholder when there is none. */
  datatype View = View(file: Option<string>, status: GateStatus, scheduled: Option<int>, remarks: Option<string>)

  function ViewOf(records: map<RowId, DefenseRecord>, project: RowId): (v: View)
    ensures project !in records ==> v.file.None? && v.status == Pending && v.scheduled.None? && v.remarks.None?
    ensures project in records ==> v.file == Some(records[project].file) && v.status == records[project].status
  {
    if project in records then
      var r := records[project];
      View(Some(r.file), r.status, r.scheduled, r.remarks)
    else View(None, Pending, None, None)
  }

  /** The Unsubmit button: a document, not approved, no date set. */
  predicate UnsubmitOffered(v: View) {
    v.file.Some? && v.status != Approved && v.scheduled.None?
  }

  /** The Edit button: a document, a date set, not approved, and the date still ahead. */
  predicate EditOffered(v: View, now: int) {
    v.file.Some? && v.scheduled.Some? && v.status != Approved && now < v.scheduled.value
  }

  /** "Next: Final Defense" on the title page: approved, the date passed, a fourth-year row. */
  predicate NextToFinalOffered(v: View, now: int, dir: Directory, u: UserId) {
    v.file.Some? && v.status == Approved && v.scheduled.Some? && now >= v.scheduled.value
    && RowSaysFourthYear(dir, u)
  }

  /** The manuscript link on the final page: the final defense is approved. */
  predicate ManuscriptLinkOffered(v: View) {
    v.file.Some? && v.status == Approved
  }

  /**
   * The page never offers both Unsubmit and Edit, offers neither once the
   * defense is approved, and closes Edit once the defense date has come.
   */
  lemma OfferedActionsExclusive(v: View, now: int)
    ensures !(UnsubmitOffered(v) && EditOffered(v, now))
    ensures v.status == Approved ==> !UnsubmitOffered(v) && !EditOffered(v, now)
    ensures v.scheduled.Some? && now >= v.scheduled.value ==> !EditOffered(v, now)
  {
  }

  /** A student offered the way to the final defense is let into the final-defense page. */
  lemma NextLeadsPastFinalGate(v: View, now: int, dir: Directory, u: UserId)
    requires NextToFinalOffered(v, now, dir, u)
    ensures IsFourthYear(dir, u) && !EditOffered(v, now) && !UnsubmitOffered(v)
  {
  }

  /** Without a record the page offers only the upload form. */
  lemma PlaceholderOffersOnlyUpload(records: map<RowId, DefenseRecord>, project: RowId, now: int,
                                    dir: Directory, u: UserId)
    requires project !in records
    ensures var v := ViewOf(records, project);
      !UnsubmitOffered(v) && !EditOffered(v, now) && !NextToFinalOffered(v, now, dir, u)
      && !ManuscriptLinkOffered(v)
  {
  }

  // ---------------------------------------------------------------------
  // The table and its handlers

  datatype Outcome =
    | Stored              // the first submission was inserted
    | Withdrawn           // the record was deleted
    | Replaced            // the document was replaced
    | Refused(error: DefenseError)
    | NotApplicable       // the handler's guard did not hold; nothing happens
    | NotFourthYear       // the final-defense page redirected the student away
    | WriteFailed(reported: bool)
      // the INSERT, DELETE or UPDATE failed and nothing changed; `reported` is
      // false where the page ignores the statement's result and redirects as
      // if it had succeeded

  /**
   * Whether the page checks the result of the INSERT (submission) or DELETE
   * (withdrawal): only the final-defense page does.
   */
  predicate ChecksInsertAndDelete(phase: Phase) {
    phase == FinalPhase
  }

  /** The page lets the student in: always for the title defense, fourth years for the final one. */
  predicate PageOpen(phase: Phase, dir: Directory, u: UserId) {
    phase == TitlePhase || IsFourthYear(dir, u)
  }

  /** `title_defense` or `final_defense`, one record per project. */
  class DefenseTable {
    const phase: Phase
    var records: map<RowId, DefenseRecord>

    /** Every stored document name is non-empty in PHP's sense. */
    ghost predicate Valid()
      reads this
    {
      forall p :: p in records ==> !IsEmpty(records[p].file)
    }

    constructor (phase: Phase)
      ensures this.phase == phase && records == map[] && Valid()
    {
      this.phase := phase;
      records := map[];
    }

    /**
     * First submission: only when the project has no record yet; stores the
     * document as pending, unscheduled and without remarks.  The handlers
     * do not check that the project belongs to the student.  `insertOk` is
     * whether the INSERT succeeds.
     */
    method Submit(dir: Directory, caller: UserId, project: RowId, u: Upload, insertOk: bool) returns (out: Outcome)
      requires Valid()
      modifies this
      ensures Valid()
      ensures !PageOpen(phase, dir, caller) ==> out == NotFourthYear
      ensures PageOpen(phase, dir, caller) && project in old(records) ==> out == NotApplicable
      ensures PageOpen(phase, dir, caller) && project !in old(records) ==>
        out == (if SubmitCheck(phase, u).Some? then Refused(SubmitCheck(phase, u).value)
                else if insertOk then Stored
                else WriteFailed(ChecksInsertAndDelete(phase)))
      ensures out == Stored ==> records == old(records)[project := DefenseRecord(caller, u.name, Pending, None, None)]
      ensures out != Stored ==> records == old(records)
    {
      if !PageOpen(phase, dir, caller) {
        return NotFourthYear;
      }
      if project in records {
        return NotApplicable;
      }
      var err := SubmitCheck(phase, u);
      if err.Some? {
        return Refused(err.value);
      }
      if !insertOk {
        return WriteFailed(ChecksInsertAndDelete(phase));
      }
      PdfNameNotEmpty(u.name);
      records := records[project := DefenseRecord(caller, u.name, Pending, None, None)];
      out := Stored;
    }

    /**
     * Unsubmit: deletes the record whenever one exists; unlike the page's
     * button it does not look at the status or the date.  `deleteOk` is
     * whether the DELETE succeeds.
     */
    method Unsubmit(dir: Directory, caller: UserId, project: RowId, deleteOk: bool) returns (out: Outcome)
      requires Valid()
      modifies this
      ensures Valid()
      ensures !PageOpen(phase, dir, caller) ==> out == NotFourthYear && records == old(records)
      ensures PageOpen(phase, dir, caller) ==>
        (project in old(records) ==> out == (if deleteOk then Withdrawn else WriteFailed(ChecksInsertAndDelete(phase))))
        && (project !in old(records) ==> out == NotApplicable)
      ensures out == Withdrawn ==> records == old(records) - {project}
      ensures out != Withdrawn ==> records == old(records)
    {
      if !PageOpen(phase, dir, caller) {
        return NotFourthYear;
      }
      if project !in records {
        return NotApplicable;
      }
      if !deleteOk {
        return WriteFailed(ChecksInsertAndDelete(phase));
      }
      records := records - {project};
      out := Withdrawn;
    }

    /**
     * Edit: replaces the stored document by the sanitised upload name; the
     * status, date and remarks stay as they were.  Unlike the page's button
     * it does not look at the status or the date.  `updateOk` is whether the
     * UPDATE succeeds; both pages report its failure.
     */
    method Edit(dir: Directory, caller: UserId, project: RowId, u: Upload, updateOk: bool) returns (out: Outcome)
      requires Valid()
      modifies this
      ensures Valid()
      ensures !PageOpen(phase, dir, caller) ==> out == NotFourthYear
      ensures PageOpen(phase, dir, caller) && project !in old(records) ==> out == NotApplicable
      ensures PageOpen(phase, dir, caller) && project in old(records) ==>
        out == (if EditCheck(phase, u).Some? then Refused(EditCheck(phase, u).value)
                else if updateOk then Replaced
                else WriteFailed(true))
      ensures out == Replaced ==>
        project in old(records)
        && records == old(records)[project := old(records)[project].(file := SanitizeName(u.name))]
      ensures out != Replaced ==> records == old(records)
    {
      if !PageOpen(phase, dir, caller) {
        return NotFourthYear;
      }
      if project !in records {
        return NotApplicable;
      }
      var err := EditCheck(phase, u);
      if err.Some? {
        return Refused(err.value);
      }
      if !updateOk {
        return WriteFailed(true);
      }
      SanitizedPdfNameNotEmpty(u.name);
      records := records[project := records[project].(file := SanitizeName(u.name))];
      out := Replaced;
    }
  }
}

=== FILE: export.dfy ===
/**
 * The research-document export (student/export-documentation.php): the
 * values the PDF and Word documents are built from, taken from the session,
 * and the order of the blocks they lay out.  Page geometry, fonts and the
 * FPDF/PHPWord calls themselves are not modelled.
 */
module Export {
  import opened PhpStrings
  import opened Records

  // ---------------------------------------------------------------------
  // Session values

  /** What the export reads from the session; every field may be unset. */
  datatype ExportSession = ExportSession(
    researchTitle: Option<string>,
    date: Option<string>,
    members: Option<seq<string>>,
    sections: map<string, string>)   // section key -> the text typed for it

  const NotAvailable := "N/A"

  function ResearchTitle(s: ExportSession): string {
    if s.researchTitle.Some? then s.researchTitle.value else NotAvailable
  }

  function DateText(s: ExportSession): string {
    if s.date.Some? then s.date.value else NotAvailable
  }

  /** `implode(", ", $_SESSION['members'])`, or "N/A" when unset. */
  function MembersText(s: ExportSession): string {
    if s.members.Some? then Implode(", ", s.members.value) else NotAvailable
  }

  /** A section's text, or "N/A" when the session has none. */
  function SectionText(s: ExportSession, key: string): string {
    if key in s.sections then s.sections[key] else NotAvailable
  }

  // ---------------------------------------------------------------------
  // The running title

  const Ellipsis := "..."

  /** The first five words joined by a space, "..." when there were more, upper-cased. */
  function ShortTitleOf(words: seq<string>): string {
    var n := if |words| < 5 then |words| else 5;
    Upper(Implode(" ", words[..n]) + (if |words| > 5 then Ellipsis else ""))
  }

  /** Upper-casing leaves the dots alone, so the running title is the upper-cased words and then the dots. */
  lemma ShortTitleOfSplit(words: seq<string>)
    ensures var n := if |words| < 5 then |words| else 5;
      ShortTitleOf(words) == Upper(Implode(" ", words[..n])) + (if |words| > 5 then Ellipsis else "")
  {
    var n := if |words| < 5 then |words| else 5;
    var dots := if |words| > 5 then Ellipsis else "";
    UpperConcat(Implode(" ", words[..n]), dots);
    assert Upper(dots) == dots;
  }

  /** The PDF header: words are the pieces between single spaces. */
  function ShortTitlePdf(title: string): string {
    ShortTitleOf(Explode(' ', title))
  }

  /** The Word header: words are the pieces between runs of whitespace. */
  function ShortTitleWord(title: string): string {
    ShortTitleOf(SplitSpaces(title))
  }

  /**
   * The first n pieces of `explode` joined back are a prefix of the text;
   * unless every piece was taken, the separator follows that prefix.
   */
  lemma {:induction false} ImplodeExplodePrefix(sep: char, s: string, n: nat)
    requires 1 <= n <= |Explode(sep, s)|
    ensures var h := Implode([sep], Explode(sep, s)[..n]);
      |h| <= |s| && s[..|h|] == h && (n < |Explode(sep, s)| ==> |h| < |s| && s[|h|] == sep)
    decreases |s|
  {
    var parts := Explode(sep, s);
    ExplodeFirst(sep, s);
    if n == 1 {
      assert parts[..1] == [parts[0]];
      if n < |parts| {
        ExplodeCount(sep, s);
        if sep !in s {
          ExplodeNoSep(sep, s);
        }
      }
    } else {
      if sep !in s {
        ExplodeNoSep(sep, s);
      }
      var p := parts[0];
      var rest := ExplodeSplitFirst(sep, s);
      ImplodeExplodePrefix(sep, rest, n - 1);
      PrefixStep(sep, p, rest, Explode(sep, rest), n);
    }
  }

  /** Cutting at the first separator: the first piece, then the pieces of the rest. */
  lemma ExplodeSplitFirst(sep: char, s: string) returns (rest: string)
    requires sep in s
    ensures var p := Explode(sep, s)[0];
      s == p + [sep] + rest && Explode(sep, s) == [p] + Explode(sep, rest)
  {
    ExplodeFirst(sep, s);
    var p := Explode(sep, s)[0];
    rest := s[|p| + 1..];
    assert s == p + [sep] + rest;
    ExplodeAppend(sep, p, rest);
  }

  /** One inductive step of the prefix lemma, with the pieces of the rest given. */
  lemma PrefixStep(sep: char, p: string, rest: string, pieces: seq<string>, n: nat)
    requires 2 <= n <= |pieces| + 1
    requires var t := Implode([sep], pieces[..n - 1]);
      |t| <= |rest| && rest[..|t|] == t && (n - 1 < |pieces| ==> |t| < |rest| && rest[|t|] == sep)
    ensures var s := p + [sep] + rest;
      var h := Implode([sep], ([p] + pieces)[..n]);
      |h| <= |s| && s[..|h|] == h && (n < |pieces| + 1 ==> |h| < |s| && s[|h|] == sep)
  {
    var s := p + [sep] + rest;
    var t := Implode([sep], pieces[..n - 1]);
    var all := ([p] + pieces)[..n];
    assert all == [p] + pieces[..n - 1];
    assert all[1..] == pieces[..n - 1];
    assert Implode([sep], all) == p + [sep] + t;
    assert s[..|p| + 1 + |t|] == p + [sep] + rest[..|t|];
  }

  /**
   * The PDF running title is an upper-cased prefix of the title: the whole
   * title when it has at most five words (at most four spaces), otherwise
   * the text before its fifth space followed by "...".
   */
  lemma ShortTitlePdfSpec(title: string)
    ensures exists k :: (0 <= k <= |title|
      && ShortTitlePdf(title) == Upper(title[..k]) + (if Occurrences(' ', title) >= 5 then Ellipsis else "")
      && (Occurrences(' ', title) < 5 ==> k == |title|)
      && (Occurrences(' ', title) >= 5 ==> k < |title| && title[k] == ' '))
  {
    var words := Explode(' ', title);
    var more := Occurrences(' ', title) >= 5;
    ExplodeCount(' ', title);
    assert more <==> |words| > 5;
    var n := if |words| < 5 then |words| else 5;
    ShortTitleOfSplit(words);
    var h := Implode(" ", words[..n]);
    assert ShortTitlePdf(title) == Upper(h) + (if more then Ellipsis else "");
    ShortTitleCut(title, n);
    var k := |h|;
    assert title[..k] == h;
  }

  /** The joined words are the title up to the cut: all of it, or up to a space. */
  lemma ShortTitleCut(title: string, n: nat)
    requires 1 <= n <= 5 && n <= |Explode(' ', title)|
    requires n < 5 ==> n == |Explode(' ', title)|
    ensures var h := Implode(" ", Explode(' ', title)[..n]);
      |h| <= |title| && title[..|h|] == h
      && (|Explode(' ', title)| <= 5 ==> |h| == |title|)
      && (|Explode(' ', title)| > 5 ==> |h| < |title| && title[|h|] == ' ')
  {
    var words := Explode(' ', title);
    assert " " == [' '];
    ImplodeExplodePrefix(' ', title, n);
    if |words| <= 5 {
      assert words[..n] == words;
      ImplodeExplode(' ', title);
    }
  }

  /** On single-spaced titles the PDF and the Word running titles agree. */
  lemma ShortTitlesAgree(title: string)
    requires SingleSpaced(title)
    ensures ShortTitlePdf(title) == ShortTitleWord(title)
  {
    SplitSpacesOnSingleSpaced(title);
  }

  /** The collapsed title is single-spaced, so it has the same running title in both documents. */
  lemma ShortTitlesAgreeOnCollapsed(title: string)
    ensures ShortTitlePdf(CollapseSpaces(title)) == ShortTitleWord(CollapseSpaces(title))
  {
    CollapseSpacesSingleSpaced(title);
    ShortTitlesAgree(CollapseSpaces(title));
  }

  // ---------------------------------------------------------------------
  // Header and footer

  /** The PDF header and footer are skipped on page 1 and while the title-page flag is set. */
  function HeaderShown(titlePageFlag: bool, pageNo: nat): (r: bool)
    ensures r ==> pageNo != 1
  {
    !titlePageFlag && pageNo != 1
  }

  /**
   * The title-page flag of each page of the PDF: it is set while the title
   * page is printed (including any page the title page runs over onto) and
   * cleared before the content starts on a new page.
   */
  function TitlePageFlags(titlePages: nat, contentPages: nat): (r: seq<bool>)
    ensures |r| == titlePages + contentPages
  {
    seq(titlePages + contentPages, i requires 0 <= i < titlePages + contentPages => i < titlePages)
  }

  /** The header shows on exactly the content pages. */
  lemma HeaderOnContentPages(titlePages: nat, contentPages: nat, pageNo: nat)
    requires titlePages >= 1
    requires 1 <= pageNo <= titlePages + contentPages
    ensures HeaderShown(TitlePageFlags(titlePages, contentPages)[pageNo - 1], pageNo) <==> pageNo > titlePages
  {
  }

  // ---------------------------------------------------------------------
  // Members on the title page

  /** The PDF prints every comma-separated piece of the members text, trimmed. */
  function MemberLinesPdf(members: string): (r: seq<string>)
    ensures |r| == |Explode(',', members)|
    ensures forall i :: 0 <= i < |r| ==> r[i] == Trim(Explode(',', members)[i])
  {
    var pieces := Explode(',', members);
    seq(|pieces|, i requires 0 <= i < |pieces| => Trim(pieces[i]))
  }

  /** The names that are not the empty string, in order. */
  function NonEmptyNames(names: seq<string>): seq<string>
    decreases |names|
  {
    if names == [] then []
    else (if names[0] == "" then [] else [names[0]]) + NonEmptyNames(names[1..])
  }

  /** The Word title page skips the pieces that trim to nothing. */
  function MemberLinesWord(members: string): seq<string> {
    NonEmptyNames(MemberLinesPdf(members))
  }

  lemma {:induction false} NonEmptyNamesSpec(names: seq<string>)
    ensures forall i :: 0 <= i < |NonEmptyNames(names)| ==> NonEmptyNames(names)[i] != ""
    ensures (forall i :: 0 <= i < |names| ==> names[i] != "") ==> NonEmptyNames(names) == names
    ensures |NonEmptyNames(names)| == |names| - CountWhere(names, IsEmptyName)
    decreases |names|
  {
    if names != [] {
      NonEmptyNamesSpec(names[1..]);
      assert [names[0]] + names[1..] == names;
    }
  }

  predicate IsEmptyName(name: string) {
    name == ""
  }

  /** Each name with a space in front. */
  function SpaceBefore(names: seq<string>): (r: seq<string>)
    ensures |r| == |names|
  {
    seq(|names|, i requires 0 <= i < |names| => " " + names[i])
  }

  /** Joining with ", " is joining with "," after putting a space before each name. */
  lemma {:induction false} ImplodeCommaSpace(names: seq<string>)
    requires |names| >= 1
    ensures " " + Implode(", ", names) == Implode(",", SpaceBefore(names))
    decreases |names|
  {
    if |names| > 1 {
      ImplodeCommaSpace(names[1..]);
      assert SpaceBefore(names)[1..] == SpaceBefore(names[1..]);
    }
  }

  lemma TrimSpaceBefore(name: string)
    requires IsTrimmed(name)
    ensures Trim(" " + name) == name
  {
    assert (" " + name)[1..] == name;
    assert TrimLeft(" " + name) == TrimLeft(name);
    TrimOfTrimmed(name);
  }

  /** The names as the comma-split pieces of their ", "-join: the first as is, the others after a space. */
  function JoinedPieces(names: seq<string>): (r: seq<string>)
    requires |names| >= 1
    ensures |r| == |names| && r[0] == names[0]
    ensures forall i :: 1 <= i < |names| ==> r[i] == " " + names[i]
  {
    [names[0]] + SpaceBefore(names[1..])
  }

  lemma JoinedPiecesImplode(names: seq<string>)
    requires |names| >= 1
    ensures Implode(", ", names) == Implode([','], JoinedPieces(names))
  {
    var pieces := JoinedPieces(names);
    if |names| > 1 {
      var x := Implode(", ", names[1..]);
      assert Implode(", ", names) == names[0] + ", " + x;
      ImplodeCommaSpace(names[1..]);
      assert pieces[1..] == SpaceBefore(names[1..]);
      assert Implode([','], pieces) == names[0] + [','] + Implode([','], pieces[1..]);
      assert Implode([','], pieces[1..]) == " " + x;
      Regroup(names[0], ", ", ',', " ", x);
    }
  }

  lemma Regroup(a: string, glue: string, c: char, tail: string, x: string)
    requires glue == [c] + tail
    ensures a + glue + x == a + [c] + (tail + x)
  {
  }

  /** Splitting the ", "-join of comma-free names on "," gives back the pieces. */
  lemma ExplodeJoined(names: seq<string>)
    requires |names| >= 1
    requires forall i :: 0 <= i < |names| ==> ',' !in names[i]
    ensures Explode(',', Implode(", ", names)) == JoinedPieces(names)
  {
    var pieces := JoinedPieces(names);
    JoinedPiecesImplode(names);
    forall i | 0 <= i < |pieces| ensures ',' !in pieces[i] {
      if i > 0 {
        assert pieces[i] == " " + names[i];
      }
    }
    ExplodeImplode(',', pieces);
  }

  /**
   * Members whose names are non-empty, trimmed and free of commas survive
   * the join and the split unchanged, in the PDF and the Word title page.
   */
  lemma MembersRoundTrip(names: seq<string>)
    requires |names| >= 1
    requires forall i :: 0 <= i < |names| ==> names[i] != "" && ',' !in names[i] && IsTrimmed(names[i])
    ensures MemberLinesPdf(Implode(", ", names)) == names
    ensures MemberLinesWord(Implode(", ", names)) == names
  {
    var pieces := JoinedPieces(names);
    ExplodeJoined(names);
    var lines := MemberLinesPdf(Implode(", ", names));
    assert |lines| == |names|;
    forall i | 0 <= i < |names| ensures lines[i] == names[i] {
      assert lines[i] == Trim(pieces[i]);
      if i == 0 {
        TrimOfTrimmed(names[0]);
      } else {
        TrimSpaceBefore(names[i]);
      }
    }
    assert lines == names;
    NonEmptyNamesSpec(lines);
  }

  /** An empty member list prints one blank line in the PDF and none in Word. */
  lemma EmptyMemberList()
    ensures MemberLinesPdf(Implode(", ", [])) == [""]
    ensures MemberLinesWord(Implode(", ", [])) == []
  {
    assert Trim("") == "";
  }

  // ---------------------------------------------------------------------
  // Field text

  /** `[ \t]+` becomes one space, then spaces around a line break are removed. */
  function NormalizeText(text: string): string {
    TightenNewlines(CollapseBlanks(text))
  }

  /**
   * Normalised text holds no tab and no space next to a line break, keeps
   * every character of the field that is not a blank, in order, and leaves
   * text that is already in that form as it is.
   */
  lemma NormalizeTextSpec(text: string)
    ensures '\t' !in NormalizeText(text)
    ensures NoSpaceAtNewline(NormalizeText(text))
    ensures NonBlanks(NormalizeText(text)) == NonBlanks(text)
    ensures '\t' !in text && NoDoubleBlank(text) && NoSpaceAtNewline(text) ==> NormalizeText(text) == text
  {
    var collapsed := CollapseBlanks(text);
    TightenNewlinesSound(collapsed);
    CollapseBlanksKeeps(text);
    TightenNewlinesKeeps(collapsed);
    NonBlanksNoTab(collapsed);
    NonBlanksNoTab(TightenNewlines(collapsed));
    if '\t' !in text && NoDoubleBlank(text) && NoSpaceAtNewline(text) {
      CollapseBlanksFixed(text);
      TightenNewlinesFixed(text);
    }
  }

  // ---------------------------------------------------------------------
  // Chapter layout

  datatype Section = Section(key: string, heading: string)
  datatype Chapter = Chapter(title: string, sections: seq<Section>)

  /** The fixed outline: Chapter I with six sections, II with two, III with nine. */
  const Chapters: seq<Chapter> := [
    Chapter("CHAPTER I", [
      Section("background", "Background of the Study"),
      Section("problem_statement", "Statement of the Problem"),
      Section("objectives", "Objectives of the Study"),
      Section("significance", "Significance of the Study"),
      Section("scope", "Scope and Delimitations"),
      Section("definition", "Definition of Terms")]),
    Chapter("CHAPTER II", [
      Section("introduction", "Introduction"),
      Section("relevance", "Relevance of the Study")]),
    Chapter("CHAPTER III", [
      Section("introduction_ch3", "Introduction"),
      Section("research_design", "Research Design"),
      Section("research_participants", "Research Participants"),
      Section("research_locale", "Research Locale"),
      Section("software_dev_methodology", "Software Development Methodology"),
      Section("respondents", "Respondents of the Study"),
      Section("research_instrument", "The Research Instrument"),
      Section("data_gathering_procedures", "Data Gathering Procedures"),
      Section("system_development_tools", "System Development Tools")])]

  /** The two documents differ in how they print a line of section text. */
  datatype Format = Pdf | Word

  /** What the content pages are made of, in order. */
  datatype Block =
    | PageBreak
    | ChapterTitle(text: string)
    | Subheading(text: string)
    | SectionTitle(text: string)
    | Paragraph(text: string)   // indented line of text
    | Gap                       // an empty line

  predicate IsPageBreak(b: Block) { b.PageBreak? }
  predicate IsSectionTitle(b: Block) { b.SectionTitle? }

  /** The fixed heading under chapters one to three. */
  function ChapterSubheading(index: nat): (r: seq<Block>)
    ensures |r| <= 1 && forall i :: 0 <= i < |r| ==> r[i].Subheading?
  {
    if index == 1 then [Subheading("INTRODUCTION")]
    else if index == 2 then [Subheading("REVIEW OF RELATED LITERATURE AND STUDIES")]
    else if index == 3 then [Subheading("RESEARCH DESIGN AND METHODOLOGY")]
    else []
  }

  /**
   * One line of section text: the PDF treats a line that trims to nothing
   * as a gap and indents the others by six spaces; Word treats only the
   * empty line as a gap and indents the others by thirteen spaces.
   */
  function LineBlock(f: Format, line: string): (b: Block)
    ensures b.Paragraph? || b.Gap?
  {
    match f
    case Pdf => if Trim(line) == "" then Gap else Paragraph("      " + line)
    case Word => if line == "" then Gap else Paragraph("             " + line)
  }

  /** One block per line, each a paragraph or a gap. */
  function LineBlocks(f: Format, lines: seq<string>): (r: seq<Block>)
    ensures |r| == |lines|
    ensures forall i :: 0 <= i < |r| ==> r[i].Paragraph? || r[i].Gap?
  {
    seq(|lines|, i requires 0 <= i < |lines| => LineBlock(f, lines[i]))
  }

  /** A section: its upper-cased label, then one block per line of its normalised text. */
  function SectionBlocks(f: Format, s: ExportSession, sec: Section): (r: seq<Block>)
    ensures |r| >= 1 && r[0] == SectionTitle(Upper(sec.heading))
    ensures forall i :: 1 <= i < |r| ==> r[i].Paragraph? || r[i].Gap?
  {
    var body := LineBlocks(f, Explode('\n', NormalizeText(SectionText(s, sec.key))));
    assert forall i :: 1 <= i < 1 + |body| ==> ([SectionTitle(Upper(sec.heading))] + body)[i] == body[i - 1];
    [SectionTitle(Upper(sec.heading))] + body
  }

  /**
   * A line is a gap in Word only when it is empty, in the PDF whenever it
   * trims to nothing; otherwise it is printed whole after the indent.
   */
  lemma LineBlockSpec(line: string)
    ensures LineBlock(Word, line).Gap? <==> line == ""
    ensures LineBlock(Pdf, line).Gap? <==> Trim(line) == ""
    ensures LineBlock(Word, line).Gap? ==> LineBlock(Pdf, line).Gap?
    ensures LineBlock(Word, line).Paragraph? ==>
      (|LineBlock(Word, line).text| == 13 + |line| && LineBlock(Word, line).text[13..] == line)
    ensures LineBlock(Pdf, line).Paragraph? ==>
      (|LineBlock(Pdf, line).text| == 6 + |line| && LineBlock(Pdf, line).text[6..] == line)
  {
    if line == "" {
      assert Trim(line) == "";
    }
  }

  /** A line of one space is a paragraph in Word and a gap in the PDF. */
  lemma SpaceLineDiffers()
    ensures LineBlock(Word, " ").Paragraph? && LineBlock(Pdf, " ").Gap?
  {
    assert TrimLeft(" ") == TrimLeft("");
  }

  /** A section prints its title and one block per line of its normalised text. */
  lemma SectionBlockCount(f: Format, s: ExportSession, sec: Section)
    ensures |SectionBlocks(f, s, sec)| == Occurrences('\n', NormalizeText(SectionText(s, sec.key))) + 2
  {
    ExplodeCount('\n', NormalizeText(SectionText(s, sec.key)));
  }

  function SectionsBlocks(f: Format, s: ExportSession, secs: seq<Section>): seq<Block>
    decreases |secs|
  {
    if secs == [] then []
    else SectionsBlocks(f, s, secs[..|secs| - 1]) + SectionBlocks(f, s, secs[|secs| - 1])
  }

  /** A chapter: a page break unless it is the first, its title, its subheading, its sections. */
  function ChapterBlocks(f: Format, s: ExportSession, index: nat, c: Chapter): seq<Block> {
    ChapterHead(index, c) + SectionsBlocks(f, s, c.sections)
  }

  function ChapterHead(index: nat, c: Chapter): seq<Block> {
    (if index > 1 then [PageBreak] else []) + [ChapterTitle(Upper(c.title))] + ChapterSubheading(index)
  }

  /** The content pages for the chapters, numbered from one. */
  function ContentBlocks(f: Format, s: ExportSession, chapters: seq<Chapter>): seq<Block>
    decreases |chapters|
  {
    if chapters == [] then []
    else
      ContentBlocks(f, s, chapters[..|chapters| - 1]) + ChapterBlocks(f, s, |chapters|, chapters[|chapters| - 1])
  }

  /** The number of sections over all chapters. */
  function SectionCount(chapters: seq<Chapter>): nat
    decreases |chapters|
  {
    if chapters == [] then 0 else SectionCount(chapters[..|chapters| - 1]) + |chapters[|chapters| - 1].sections|
  }


  /** A section contributes one section title and no page break. */
  lemma SectionBlocksCounts(f: Format, s: ExportSession, sec: Section)
    ensures CountWhere(SectionBlocks(f, s, sec), IsSectionTitle) == 1
    ensures CountWhere(SectionBlocks(f, s, sec), IsPageBreak) == 0
  {
    var r := SectionBlocks(f, s, sec);
    NoneCounted(r[1..], IsSectionTitle);
    NoneCounted(r[1..], IsPageBreak);
  }

  lemma {:induction false} NoneCounted<T>(a: seq<T>, p: T -> bool)
    requires forall i :: 0 <= i < |a| ==> !p(a[i])
    ensures CountWhere(a, p) == 0
    decreases |a|
  {
    if a != [] {
      NoneCounted(a[1..], p);
    }
  }

  lemma {:induction false} SectionsBlocksCounts(f: Format, s: ExportSession, secs: seq<Section>)
    ensures CountWhere(SectionsBlocks(f, s, secs), IsSectionTitle) == |secs|
    ensures CountWhere(SectionsBlocks(f, s, secs), IsPageBreak) == 0
    decreases |secs|
  {
    if secs != [] {
      var init := secs[..|secs| - 1];
      var last := secs[|secs| - 1];
      SectionsBlocksCounts(f, s, init);
      SectionBlocksCounts(f, s, last);
      CountWhereConcat(SectionsBlocks(f, s, init), SectionBlocks(f, s, last), IsSectionTitle);
      CountWhereConcat(SectionsBlocks(f, s, init), SectionBlocks(f, s, last), IsPageBreak);
    }
  }

  lemma ChapterBlocksCounts(f: Format, s: ExportSession, index: nat, c: Chapter)
    ensures CountWhere(ChapterBlocks(f, s, index, c), IsSectionTitle) == |c.sections|
    ensures CountWhere(ChapterBlocks(f, s, index, c), IsPageBreak) == (if index > 1 then 1 else 0)
  {
    var head := ChapterHead(index, c);
    var body := SectionsBlocks(f, s, c.sections);
    ChapterHeadCounts(index, c);
    SectionsBlocksCounts(f, s, c.sections);
    CountWhereConcat(head, body, IsSectionTitle);
    CountWhereConcat(head, body, IsPageBreak);
  }

  lemma ChapterHeadCounts(index: nat, c: Chapter)
    ensures CountWhere(ChapterHead(index, c), IsSectionTitle) == 0
    ensures CountWhere(ChapterHead(index, c), IsPageBreak) == (if index > 1 then 1 else 0)
  {
    var pb: seq<Block> := if index > 1 then [PageBreak] else [];
    var titles := [ChapterTitle(Upper(c.title))] + ChapterSubheading(index);
    assert ChapterHead(index, c) == pb + titles;
    NoneCounted(titles, IsSectionTitle);
    NoneCounted(titles, IsPageBreak);
    CountWhereConcat(pb, titles, IsSectionTitle);
    CountWhereConcat(pb, titles, IsPageBreak);
  }

  /**
   * Every chapter after the first starts on a new page and nothing else
   * breaks the page; each section of each chapter is printed once.
   */
  lemma {:induction false} ContentBlocksCounts(f: Format, s: ExportSession, chapters: seq<Chapter>)
    ensures CountWhere(ContentBlocks(f, s, chapters), IsPageBreak) == (if chapters == [] then 0 else |chapters| - 1)
    ensures CountWhere(ContentBlocks(f, s, chapters), IsSectionTitle) == SectionCount(chapters)
    decreases |chapters|
  {
    if chapters != [] {
      var n := |chapters|;
      var init := chapters[..n - 1];
      ContentBlocksCounts(f, s, init);
      ChapterBlocksCounts(f, s, n, chapters[n - 1]);
      CountWhereConcat(ContentBlocks(f, s, init), ChapterBlocks(f, s, n, chapters[n - 1]), IsPageBreak);
      CountWhereConcat(ContentBlocks(f, s, init), ChapterBlocks(f, s, n, chapters[n - 1]), IsSectionTitle);
    }
  }

  lemma SectionCountOfThree(chapters: seq<Chapter>)
    requires |chapters| == 3
    ensures SectionCount(chapters) ==
      |chapters[0].sections| + |chapters[1].sections| + |chapters[2].sections|
  {
    var two := chapters[..2];
    var one := chapters[..1];
    assert two[..1] == one && two[1] == chapters[1];
    assert one[..0] == [] && one[0] == chapters[0];
    assert SectionCount(one) == |chapters[0].sections|;
    assert SectionCount(two) == SectionCount(one) + |chapters[1].sections|;
    assert SectionCount(chapters) == SectionCount(two) + |chapters[2].sections|;
  }

  /** Both documents have two page breaks between the three chapters and seventeen sections. */
  lemma DocumentLayout(f: Format, s: ExportSession)
    ensures CountWhere(ContentBlocks(f, s, Chapters), IsPageBreak) == 2
    ensures CountWhere(ContentBlocks(f, s, Chapters), IsSectionTitle) == 17
  {
    ContentBlocksCounts(f, s, Chapters);
    SectionCountOfThree(Chapters);
  }

  /** The content opens with the first chapter's title and the "INTRODUCTION" heading, with no page break. */
  lemma {:induction false} ContentOpening(f: Format, s: ExportSession, chapters: seq<Chapter>)
    requires |chapters| >= 1
    ensures var r := ContentBlocks(f, s, chapters);
      |r| >= 2 && r[0] == ChapterTitle(Upper(chapters[0].title)) && r[1] == Subheading("INTRODUCTION")
    decreases |chapters|
  {
    var n := |chapters|;
    if n == 1 {
      assert chapters[..0] == [];
    } else {
      ContentOpening(f, s, chapters[..n - 1]);
    }
  }

  // ---------------------------------------------------------------------
  // The request

  datatype ExportKind = NoExport | PdfExport | WordExport

  /** `export=pdf` or `export=word`; anything else produces nothing. */
  function ExportRequested(param: Option<string>): (r: ExportKind)
    ensures r == PdfExport <==> param == Some("pdf")
    ensures r == WordExport <==> param == Some("word")
  {
    if param == Some("pdf") then PdfExport
    else if param == Some("word") then WordExport
    else NoExport
  }
}

=== FILE: letter.dfy ===
/**
 * The request letter to the focal person of a project's beneficiary
 * (student/generate_pdf.php): the courtesy title, the salutation, the
 * proposed title and the numbered list of proponents.  Only the values the
 * letter prints are modelled, not the PDF drawing.
 */
module Letter {
  import opened PhpStrings
  import opened Records

  /** The columns the letter reads; each may be NULL. */
  datatype LetterFields = LetterFields(
    gender: Option<string>,
    focalPerson: Option<string>,
    title: Option<string>,
    proponents: seq<Option<string>>)   // proponent_1 .. proponent_4

  /** A stored working-title row, every column set. */
  function FieldsOf(r: ProjectRow): LetterFields {
    LetterFields(Some(r.gender), Some(r.focalPerson), Some(r.title),
                 seq(|r.proponents|, i requires 0 <= i < |r.proponents| => Some(r.proponents[i])))
  }

  /** "Mr." for `male`, "Ms." for `female`, "Mr./Ms." for anything else or NULL. */
  function TitlePrefix(gender: Option<string>): string {
    if gender == Some("male") then "Mr."
    else if gender == Some("female") then "Ms."
    else "Mr./Ms."
  }

  const DefaultFocalPerson := "Focal Person, Not Set"
  const DefaultTitle := "No Title Provided"

  function FocalPerson(f: LetterFields): string {
    if f.focalPerson.Some? then f.focalPerson.value else DefaultFocalPerson
  }

  function ProjectTitle(f: LetterFields): string {
    if f.title.Some? then f.title.value else DefaultTitle
  }

  /** The trimmed text before the first comma, or "N/A" when there is no comma. */
  function FocalLastName(focal: string): string {
    if ',' in focal then Trim(Explode(',', focal)[0]) else "N/A"
  }

  /**
   * With a comma, the last name is the trimmed text in front of the first
   * comma and holds no comma itself; without one it is "N/A".
   */
  lemma FocalLastNameSpec(focal: string)
    ensures ',' !in focal ==> FocalLastName(focal) == "N/A"
    ensures ',' in focal ==> exists k :: 0 <= k < |focal| && focal[k] == ',' && ',' !in focal[..k]
                                      && FocalLastName(focal) == Trim(focal[..k])
    ensures ',' in focal ==> IsTrimmed(FocalLastName(focal))
  {
    if ',' in focal {
      ExplodeFirst(',', focal);
      var k := |Explode(',', focal)[0]|;
      assert focal[k] == ',' && focal[..k] == Explode(',', focal)[0];
      TrimIsTrimmed(focal[..k]);
    }
  }

  /** `"Dear " . $titlePrefix . " " . $focalLastName . ","` */
  function Salutation(f: LetterFields): string {
    "Dear " + TitlePrefix(f.gender) + " " + FocalLastName(FocalPerson(f)) + ","
  }

  /** A proponent slot `array_filter` keeps: not NULL, "" or "0". */
  predicate Kept(slot: Option<string>) {
    slot.Some? && !IsEmpty(slot.value)
  }

  /** A printed proponent: its number (the slot index plus one) and its name. */
  datatype Numbered = Numbered(number: nat, name: string)

  /** `array_filter` keeps the keys, so each kept slot is printed with its own position. */
  function NumberedProponents(slots: seq<Option<string>>): seq<Numbered>
    decreases |slots|
  {
    if slots == [] then []
    else
      var i := |slots| - 1;
      NumberedProponents(slots[..i]) + (if Kept(slots[i]) then [Numbered(i + 1, slots[i].value)] else [])
  }

  /** One entry per kept slot. */
  lemma {:induction false} NumberedCount(slots: seq<Option<string>>)
    ensures |NumberedProponents(slots)| == CountWhere(slots, Kept)
    decreases |slots|
  {
    if slots != [] {
      var i := |slots| - 1;
      NumberedCount(slots[..i]);
      assert slots[..i] + [slots[i]] == slots;
      CountWhereAppend(slots[..i], slots[i], Kept);
    }
  }

  /** Every entry names a kept slot by its position plus one and carries that slot's name. */
  predicate EntriesFromSlots(slots: seq<Option<string>>, r: seq<Numbered>) {
    forall k :: 0 <= k < |r| ==>
      1 <= r[k].number <= |slots| && Kept(slots[r[k].number - 1]) && r[k].name == slots[r[k].number - 1].value
  }

  /** Each entry is numbered by its slot position plus one and carries that slot's name. */
  lemma {:induction false} NumberedEntries(slots: seq<Option<string>>)
    ensures EntriesFromSlots(slots, NumberedProponents(slots))
    decreases |slots|
  {
    if slots != [] {
      var i := |slots| - 1;
      NumberedEntries(slots[..i]);
      var r := NumberedProponents(slots);
      var ri := NumberedProponents(slots[..i]);
      var tail := if Kept(slots[i]) then [Numbered(i + 1, slots[i].value)] else [];
      assert r == ri + tail;
      forall k | 0 <= k < |r|
        ensures 1 <= r[k].number <= |slots| && Kept(slots[r[k].number - 1])
                && r[k].name == slots[r[k].number - 1].value
      {
        if k < |ri| {
          assert r[k] == ri[k];
          var n := ri[k].number;
          assert 1 <= n <= i;
          assert slots[..i][n - 1] == slots[n - 1];
        } else {
          assert r[k] == tail[0];
        }
      }
    }
  }

  predicate Increasing(r: seq<Numbered>) {
    forall k, l :: 0 <= k < l < |r| ==> r[k].number < r[l].number
  }

  /** The entries keep the slot order, so the numbers rise strictly. */
  lemma {:induction false} NumberedIncreasing(slots: seq<Option<string>>)
    ensures Increasing(NumberedProponents(slots))
    decreases |slots|
  {
    if slots != [] {
      var i := |slots| - 1;
      NumberedIncreasing(slots[..i]);
      NumberedEntries(slots[..i]);
      var r := NumberedProponents(slots);
      var ri := NumberedProponents(slots[..i]);
      var tail := if Kept(slots[i]) then [Numbered(i + 1, slots[i].value)] else [];
      assert r == ri + tail;
      forall k, l | 0 <= k < l < |r| ensures r[k].number < r[l].number {
        assert r[k] == ri[k];
        if l >= |ri| {
          assert r[l] == tail[0];
          assert ri[k].number <= i;
        } else {
          assert r[l] == ri[l];
        }
      }
    }
  }

  predicate CoversKept(slots: seq<Option<string>>, r: seq<Numbered>) {
    forall j :: 0 <= j < |slots| && Kept(slots[j]) ==> exists k :: 0 <= k < |r| && r[k].number == j + 1
  }

  /** Every kept slot is printed. */
  lemma {:induction false} NumberedCovers(slots: seq<Option<string>>)
    ensures CoversKept(slots, NumberedProponents(slots))
    decreases |slots|
  {
    if slots != [] {
      var i := |slots| - 1;
      NumberedCovers(slots[..i]);
      var r := NumberedProponents(slots);
      var ri := NumberedProponents(slots[..i]);
      var tail := if Kept(slots[i]) then [Numbered(i + 1, slots[i].value)] else [];
      assert r == ri + tail;
      forall j | 0 <= j < |slots| && Kept(slots[j])
        ensures exists k :: 0 <= k < |r| && r[k].number == j + 1
      {
        if j < i {
          assert slots[..i][j] == slots[j];
          var k :| 0 <= k < |ri| && ri[k].number == j + 1;
          assert r[k] == ri[k];
        } else {
          assert r[|ri|] == tail[0];
        }
      }
    }
  }

  /** One printed line: "n. name". */
  function ProponentLine(p: Numbered): string {
    Decimal(p.number) + ". " + p.name
  }

  const NoProponents := "No proponents listed."

  /** The proponent section's lines. */
  function ProponentLines(slots: seq<Option<string>>): (r: seq<string>)
    ensures |r| >= 1
  {
    var ps := NumberedProponents(slots);
    if |ps| > 0 then seq(|ps|, k requires 0 <= k < |ps| => ProponentLine(ps[k])) else [NoProponents]
  }

  /** A numbered line opens with a digit, so it never reads as the placeholder. */
  lemma ProponentLineNotPlaceholder(p: Numbered)
    ensures ProponentLine(p) != NoProponents
  {
    var d := Decimal(p.number);
    assert ProponentLine(p)[0] == d[0];
    assert IsDigit(d[0]);
    assert NoProponents[0] == 'N';
  }

  /** No slot survives `array_filter`. */
  predicate NoneKept(slots: seq<Option<string>>) {
    forall i :: 0 <= i < |slots| ==> !Kept(slots[i])
  }

  /** Nothing is numbered exactly when no slot is kept. */
  lemma NumberedEmpty(slots: seq<Option<string>>)
    ensures NumberedProponents(slots) == [] <==> NoneKept(slots)
  {
    var ps := NumberedProponents(slots);
    if |ps| > 0 {
      NumberedEntries(slots);
      assert Kept(slots[ps[0].number - 1]);
    } else {
      NumberedCovers(slots);
      assert CoversKept(slots, ps);
    }
  }

  /** The section reads "No proponents listed." exactly when every slot is NULL, "" or "0". */
  lemma NoProponentsLine(slots: seq<Option<string>>)
    ensures ProponentLines(slots) == [NoProponents] <==> NoneKept(slots)
  {
    var ps := NumberedProponents(slots);
    NumberedEmpty(slots);
    if |ps| > 0 {
      assert ProponentLines(slots)[0] == ProponentLine(ps[0]);
      ProponentLineNotPlaceholder(ps[0]);
    }
  }

  /** The printed letter's variable parts. */
  datatype LetterText = LetterText(salutation: string, titleLine: string, proponentLines: seq<string>)

  function LetterOf(f: LetterFields): LetterText {
    LetterText(Salutation(f), "Proposed Study: " + ProjectTitle(f), ProponentLines(f.proponents))
  }

  /** A name "a,b" with `a` comma-free and already trimmed is greeted by `a`. */
  lemma FocalLastNameOf(a: string, b: string)
    requires ',' !in a && IsTrimmed(a)
    ensures FocalLastName(a + "," + b) == a
  {
    var f := a + "," + b;
    assert f[|a|] == ',';
    ExplodeFirst(',', f);
    var p := Explode(',', f)[0];
    assert |p| == |a|;
    assert p == f[..|a|] == a;
    TrimOfTrimmed(a);
  }

  /** Without a focal person the letter greets the placeholder "Focal Person". */
  lemma MissingFocalPerson(f: LetterFields)
    requires f.focalPerson.None?
    ensures FocalLastName(FocalPerson(f)) == "Focal Person"
  {
    assert DefaultFocalPerson == "Focal Person" + "," + " Not Set";
    assert IsTrimmed("Focal Person");
    FocalLastNameOf("Focal Person", " Not Set");
  }

  /** A focal person with no comma in the name is greeted as "N/A". */
  lemma NoCommaGreetsNa(f: LetterFields)
    requires f.focalPerson.Some? && ',' !in f.focalPerson.value
    ensures Salutation(f) == "Dear " + TitlePrefix(f.gender) + " N/A,"
  {
  }

  datatype LetterOutcome =
    | NotLoggedIn              // redirect to the login page
    | ProjectIdRequired        // "Project ID is required."
    | ProjectNotFound          // "No project found for ID: ..."
    | Printed(text: LetterText)

  /** The page: a logged-in user, a `project_id` parameter, and an existing project. */
  function GenerateLetter(loggedIn: bool, param: Option<string>, projects: map<RowId, ProjectRow>): LetterOutcome {
    if !loggedIn then NotLoggedIn
    else if param.None? then ProjectIdRequired
    else if IntCast(param.value) !in projects then ProjectNotFound
    else Printed(LetterOf(FieldsOf(projects[IntCast(param.value)])))
  }

  /**
   * The letter is printed for exactly the logged-in requests naming an
   * existing project; nothing checks that the project is the caller's.
   */
  lemma GenerateLetterSpec(loggedIn: bool, param: Option<string>, projects: map<RowId, ProjectRow>)
    ensures GenerateLetter(loggedIn, param, projects).Printed? <==>
      loggedIn && param.Some? && IntCast(param.value) in projects
    ensures GenerateLetter(loggedIn, param, projects).Printed? ==>
      GenerateLetter(loggedIn, param, projects).text.titleLine
        == "Proposed Study: " + projects[IntCast(param.value)].title
  {
  }
}

=== FILE: manuscript.dfy ===
/**
 * The manuscript upload page (student/manuscript_upload.php).  It opens
 * only once the project's final defense is approved.  The group uploads
 * one manuscript for grammar review; the submitter or a group mate may
 * replace it, which restarts the review; only the submitter may withdraw it.
 * The page works on the project's latest `manuscript_reviews` row.
 */
module Manuscript {
  import opened PhpStrings
  import opened Records

  datatype ManuscriptUpload = ManuscriptUpload(name: string, mimeType: string, moved: bool)

  datatype ManuscriptError =
    | NoFileChosen        // "Please upload a manuscript file."
    | NotPdf              // "Only PDF files are allowed."
    | MoveFailed          // "Failed to upload manuscript file."
    | NoPermission        // "You don't have permission to update this manuscript."

  /** `$fileType === 'application/pdf'` and a `.pdf` extension. */
  predicate IsPdfUpload(u: ManuscriptUpload) {
    u.mimeType == "application/pdf" && HasPdfExtension(u.name)
  }

  /** The upload checks shared by the first upload and the replacement. */
  function UploadCheck(u: ManuscriptUpload): (r: Option<ManuscriptError>)
    ensures r != Some(NoPermission)
  {
    if IsEmpty(u.name) then Some(NoFileChosen)
    else if !IsPdfUpload(u) then Some(NotPdf)
    else if !u.moved then Some(MoveFailed)
    else None
  }

  /** An upload passes exactly when it names a PDF file that was moved into place. */
  lemma UploadCheckAccepts(u: ManuscriptUpload)
    ensures UploadCheck(u).None? <==> !IsEmpty(u.name) && IsPdfUpload(u) && u.moved
    ensures UploadCheck(u) == Some(NotPdf) <==> !IsEmpty(u.name) && !IsPdfUpload(u)
    ensures UploadCheck(u).None? ==> |u.name| >= 4
  {
    if UploadCheck(u).None? {
      PdfNameNotEmpty(u.name);
    }
  }

  /** A group code that is set and not `empty()`. */
  predicate HasGroupCode(g: Option<string>) {
    g.Some? && !IsEmpty(g.value)
  }

  /**
   * `$canEditManuscript`: the caller submitted the manuscript, or both the
   * caller and the submitter have the same non-empty group code.
   */
  predicate CanEditManuscript(dir: Directory, caller: UserId, submitter: Option<UserId>) {
    submitter == Some(caller)
    || (submitter.Some? && HasGroupCode(GroupOf(dir, caller))
        && HasGroupCode(GroupOf(dir, submitter.value))
        && GroupOf(dir, caller) == GroupOf(dir, submitter.value))
  }

  /** Group mates in the SQL sense with a usable code may edit each other's manuscript. */
  lemma GroupMateMayEdit(dir: Directory, caller: UserId, submitter: UserId)
    requires InGroupOf(dir, submitter, caller) && HasGroupCode(GroupOf(dir, caller))
    ensures CanEditManuscript(dir, caller, Some(submitter))
  {
  }

  /** Anyone may edit only a manuscript with a recorded submitter, and a caller with no usable code only their own. */
  lemma EditRequiresSubmitterOrSharedCode(dir: Directory, caller: UserId, submitter: Option<UserId>)
    requires CanEditManuscript(dir, caller, submitter)
    ensures submitter.Some?
    ensures !HasGroupCode(GroupOf(dir, caller)) ==> submitter == Some(caller)
  {
  }

  /** The only rule for withdrawing: the caller is the recorded submitter. */
  predicate CanCancel(submitter: Option<UserId>, caller: UserId) {
    submitter == Some(caller)
  }

  // ---------------------------------------------------------------------
  // What the page shows

  /** Edit and withdraw controls: shown while the manuscript is not approved. */
  predicate ControlsShown(latest: Option<Review>) {
    latest.Some? && latest.value.status != ReviewApproved
  }

  /** The Next button towards the repository submission: the manuscript is approved. */
  predicate NextShown(latest: Option<Review>) {
    latest.Some? && latest.value.status == ReviewApproved
  }

  /** With a manuscript present the page shows exactly one of the two. */
  lemma ControlsOrNext(latest: Option<Review>)
    ensures latest.Some? ==> (ControlsShown(latest) <==> !NextShown(latest))
    ensures latest.None? ==> !ControlsShown(latest) && !NextShown(latest)
  {
  }

  // ---------------------------------------------------------------------
  // The table

  datatype Outcome =
    | Uploaded(id: RowId)
    | Replaced(id: RowId)
    | Cancelled(id: RowId)
    | Refused(error: ManuscriptError)
    | NotApplicable                   // the handler's guard did not hold; nothing happens
    | FinalDefenseNotApproved         // the page redirected back to the final defense
    | WriteFailed                     // "Failed to save / update manuscript ..." or "Failed to cancel ..."; nothing changed

  /**
   * The replacement's UPDATE: the new file, back to pending, a new
   * submission date, and the grammarian's notes, review date and reviewer
   * cleared; the grammarian's returned file is kept.
   */
  function Resubmitted(r: Review, file: string, now: int): (n: Review)
    ensures n.status == ReviewPending && n.file == file && n.dateSubmitted == now
    ensures n.grammarianNotes.None? && n.dateReviewed.None? && n.reviewedBy.None?
    ensures n.projectId == r.projectId && n.studentId == r.studentId && n.reviewedFile == r.reviewedFile
  {
    r.(file := file, status := ReviewPending, dateSubmitted := now,
       grammarianNotes := None, dateReviewed := None, reviewedBy := None)
  }

  predicate ForProject(project: RowId, r: Review) {
    r.projectId == project
  }

  /** `manuscript_reviews` */
  class ReviewTable {
    var rows: map<RowId, Review>
    var nextId: RowId

    ghost predicate Valid()
      reads this
    {
      nextId >= 1 && IdsBelow(rows, nextId)
    }

    constructor ()
      ensures Valid() && rows == map[] && nextId == 1
    {
      rows := map[];
      nextId := 1;
    }

    /** `ORDER BY id DESC LIMIT 1` for the project. */
    function LatestId(project: RowId): (r: Option<RowId>)
      reads this
      requires Valid()
      ensures r.Some? ==> r.value in rows && rows[r.value].projectId == project
      ensures r.Some? ==> forall id :: id in rows && rows[id].projectId == project ==> id <= r.value
      ensures r.None? <==> forall id :: id in rows ==> rows[id].projectId != project
    {
      HighestWhere(rows, (rv: Review) => ForProject(project, rv), nextId - 1)
    }

    function Latest(project: RowId): (r: Option<Review>)
      reads this
      requires Valid()
    {
      var id := LatestId(project);
      if id.Some? then Some(rows[id.value]) else None
    }

    /**
     * First upload: only when the project has no manuscript yet; stores a
     * pending review row with the caller as submitter.  `insertOk` is
     * whether the INSERT succeeds.
     */
    method Upload(project: RowId, finalStatus: Option<GateStatus>, caller: UserId,
                  u: ManuscriptUpload, now: int, insertOk: bool) returns (out: Outcome)
      requires Valid()
      modifies this
      ensures Valid()
      ensures finalStatus != Some(Approved) ==> out == FinalDefenseNotApproved
      ensures finalStatus == Some(Approved) && old(LatestId(project)).Some? ==> out == NotApplicable
      ensures finalStatus == Some(Approved) && old(LatestId(project)).None? ==>
        out == (if UploadCheck(u).Some? then Refused(UploadCheck(u).value)
                else if insertOk then Uploaded(old(nextId))
                else WriteFailed)
      ensures out.Uploaded? ==>
        rows == old(rows)[out.id := Review(project, Some(caller), u.name, ReviewPending, None, now, None, None, None)]
        && nextId == old(nextId) + 1
      ensures !out.Uploaded? ==> rows == old(rows) && nextId == old(nextId)
    {
      var err := UploadCheck(u);
      if finalStatus != Some(Approved) {
        return FinalDefenseNotApproved;
      }
      if LatestId(project).Some? {
        return NotApplicable;
      }
      if err.Some? {
        return Refused(err.value);
      }
      if !insertOk {
        return WriteFailed;
      }
      var id := nextId;
      rows := rows[id := Review(project, Some(caller), u.name, ReviewPending, None, now, None, None, None)];
      nextId := nextId + 1;
      out := Uploaded(id);
    }

    /**
     * Replace: the submitter or a group mate replaces the latest manuscript;
     * the review restarts (status pending, notes, review date and reviewer
     * cleared).  The approved status is not checked here.  `updateOk` is
     * whether the UPDATE succeeds.
     */
    method Replace(dir: Directory, project: RowId, finalStatus: Option<GateStatus>, caller: UserId,
                   u: ManuscriptUpload, now: int, updateOk: bool) returns (out: Outcome)
      requires Valid()
      modifies this
      ensures Valid() && nextId == old(nextId)
      ensures finalStatus != Some(Approved) ==> out == FinalDefenseNotApproved
      ensures finalStatus == Some(Approved) && old(LatestId(project)).None? ==> out == NotApplicable
      ensures finalStatus == Some(Approved) && old(LatestId(project)).Some? ==>
        var id := old(LatestId(project)).value;
        out == (if !CanEditManuscript(dir, caller, old(rows)[id].studentId) then Refused(NoPermission)
                else if UploadCheck(u).Some? then Refused(UploadCheck(u).value)
                else if updateOk then Replaced(id)
                else WriteFailed)
      ensures out.Replaced? ==>
        out.id in old(rows)
        && rows == old(rows)[out.id := Resubmitted(old(rows)[out.id], u.name, now)]
      ensures !out.Replaced? ==> rows == old(rows)
    {
      var err := UploadCheck(u);
      if finalStatus != Some(Approved) {
        return FinalDefenseNotApproved;
      }
      var latest := LatestId(project);
      if latest.None? {
        return NotApplicable;
      }
      var id := latest.value;
      if !CanEditManuscript(dir, caller, rows[id].studentId) {
        return Refused(NoPermission);
      }
      if err.Some? {
        return Refused(err.value);
      }
      if !updateOk {
        return WriteFailed;
      }
      rows := rows[id := Resubmitted(rows[id], u.name, now)];
      out := Replaced(id);
    }

    /**
     * Withdraw: only the recorded submitter; deletes the latest row.  Any
     * other caller gets no message and no change.  `deleteOk` is whether the
     * DELETE succeeds.
     */
    method Cancel(project: RowId, finalStatus: Option<GateStatus>, caller: UserId, deleteOk: bool) returns (out: Outcome)
      requires Valid()
      modifies this
      ensures Valid() && nextId == old(nextId)
      ensures finalStatus != Some(Approved) ==> out == FinalDefenseNotApproved
      ensures finalStatus == Some(Approved) ==>
        ((out.Cancelled? || out.WriteFailed?) <==>
          old(LatestId(project)).Some? && CanCancel(old(rows)[old(LatestId(project)).value].studentId, caller))
        && (out.Cancelled? || out.WriteFailed? ==> (out.Cancelled? <==> deleteOk))
        && (!out.Cancelled? && !out.WriteFailed? ==> out == NotApplicable)
      ensures out.Cancelled? ==> Some(out.id) == old(LatestId(project)) && rows == old(rows) - {out.id}
      ensures !out.Cancelled? ==> rows == old(rows)
    {
      if finalStatus != Some(Approved) {
        return FinalDefenseNotApproved;
      }
      var latest := LatestId(project);
      if latest.Some? && CanCancel(rows[latest.value].studentId, caller) {
        if !deleteOk {
          return WriteFailed;
        }
        rows := rows - {latest.value};
        return Cancelled(latest.value);
      }
      return NotApplicable;
    }
  }
}

=== FILE: php_strings.dfy ===
/**
 * The PHP string built-ins the student pages rely on, with their PHP
 * semantics written out: `empty()`, `trim`, `strtolower`/`strtoupper`
 * (ASCII only), `explode`/`implode`, `pathinfo(..., PATHINFO_EXTENSION)`,
 * the `\s+` and `[ \t]+` regular-expression rewrites and `preg_split`.
 */
module PhpStrings {

  /** PHP `empty()` on a string: the empty string and "0" are empty. */
  predicate IsEmpty(s: string) {
    s == "" || s == "0"
  }

  // ---------------------------------------------------------------------
  // Case mapping (ASCII, as strtolower/strtoupper do)

  function LowerChar(c: char): char {
    if 'A' <= c <= 'Z' then (c as int + 32) as char else c
  }

  function UpperChar(c: char): char {
    if 'a' <= c <= 'z' then (c as int - 32) as char else c
  }

  function Lower(s: string): (r: string)
    ensures |r| == |s|
    ensures forall i :: 0 <= i < |s| ==> r[i] == LowerChar(s[i])
  {
    if s == [] then [] else [LowerChar(s[0])] + Lower(s[1..])
  }

  function Upper(s: string): (r: string)
    ensures |r| == |s|
    ensures forall i :: 0 <= i < |s| ==> r[i] == UpperChar(s[i])
  {
    if s == [] then [] else [UpperChar(s[0])] + Upper(s[1..])
  }

  lemma {:induction false} UpperConcat(a: string, b: string)
    ensures Upper(a + b) == Upper(a) + Upper(b)
    decreases |a|
  {
    if a == [] {
      assert a + b == b;
    } else {
      assert (a + b)[0] == a[0] && (a + b)[1..] == a[1..] + b;
      UpperConcat(a[1..], b);
    }
  }

  // ---------------------------------------------------------------------
  // trim

  /** The characters PHP's `trim` removes by default: " \t\n\r\0\x0B". */
  predicate IsTrimSpace(c: char) {
    c == ' ' || c == '\t' || c == '\n' || c == '\r' || c == '\0' || c == '\U{000B}'
  }

  function TrimLeft(s: string): string {
    if s != [] && IsTrimSpace(s[0]) then TrimLeft(s[1..]) else s
  }

  function TrimRight(s: string): string {
    if s != [] && IsTrimSpace(s[|s| - 1]) then TrimRight(s[..|s| - 1]) else s
  }

  function Trim(s: string): string {
    TrimRight(TrimLeft(s))
  }

  /** `ltrim` drops a prefix of trimmed characters and stops at a kept one. */
  lemma {:induction false} TrimLeftSpec(s: string)
    ensures |TrimLeft(s)| <= |s| && TrimLeft(s) == s[|s| - |TrimLeft(s)|..]
    ensures forall i :: 0 <= i < |s| - |TrimLeft(s)| ==> IsTrimSpace(s[i])
    ensures TrimLeft(s) == [] || !IsTrimSpace(TrimLeft(s)[0])
    decreases |s|
  {
    if s != [] && IsTrimSpace(s[0]) {
      TrimLeftSpec(s[1..]);
    }
  }

  /** `rtrim` drops a suffix of trimmed characters and stops at a kept one. */
  lemma {:induction false} TrimRightSpec(s: string)
    ensures |TrimRight(s)| <= |s| && TrimRight(s) == s[..|TrimRight(s)|]
    ensures forall i :: |TrimRight(s)| <= i < |s| ==> IsTrimSpace(s[i])
    ensures TrimRight(s) == [] || !IsTrimSpace(TrimRight(s)[|TrimRight(s)| - 1])
    decreases |s|
  {
    if s != [] && IsTrimSpace(s[|s| - 1]) {
      TrimRightSpec(s[..|s| - 1]);
    }
  }

  /** A string that neither starts nor ends with a trimmed character. */
  predicate IsTrimmed(s: string) {
    s == [] || (!IsTrimSpace(s[0]) && !IsTrimSpace(s[|s| - 1]))
  }

  lemma TrimOfTrimmed(s: string)
    requires IsTrimmed(s)
    ensures Trim(s) == s
  {
  }

  lemma TrimIsTrimmed(s: string)
    ensures IsTrimmed(Trim(s))
  {
    var l := TrimLeft(s);
    var r := TrimRight(l);
    TrimLeftSpec(s);
    TrimRightSpec(l);
    if r != [] {
      assert r[0] == l[0];
    }
  }

  // ---------------------------------------------------------------------
  // explode / implode with a one-character delimiter

  function Explode(sep: char, s: string): (r: seq<string>)
    ensures |r| >= 1
    ensures forall i :: 0 <= i < |r| ==> sep !in r[i]
    decreases |s|
  {
    if s == [] then [""]
    else if s[0] == sep then [""] + Explode(sep, s[1..])
    else
      var rest := Explode(sep, s[1..]);
      [[s[0]] + rest[0]] + rest[1..]
  }

  function Implode(glue: string, parts: seq<string>): string
    decreases |parts|
  {
    if parts == [] then ""
    else if |parts| == 1 then parts[0]
    else parts[0] + glue + Implode(glue, parts[1..])
  }

  /** implode(sep, explode(sep, s)) gives back s. */
  lemma {:induction false} ImplodeExplode(sep: char, s: string)
    ensures Implode([sep], Explode(sep, s)) == s
    decreases |s|
  {
    if s == [] {
    } else if s[0] == sep {
      ImplodeExplode(sep, s[1..]);
      var rest := Explode(sep, s[1..]);
      assert Explode(sep, s) == [""] + rest;
      assert s == [sep] + s[1..];
    } else {
      ImplodeExplode(sep, s[1..]);
      var rest := Explode(sep, s[1..]);
      assert Explode(sep, s) == [[s[0]] + rest[0]] + rest[1..];
      ImplodeHeadCons(sep, s[0], rest);
      assert s == [s[0]] + s[1..];
    }
  }

  /** A character put in front of the first piece comes out in front of the join. */
  lemma ImplodeHeadCons(sep: char, c: char, parts: seq<string>)
    requires |parts| >= 1
    ensures Implode([sep], [[c] + parts[0]] + parts[1..]) == [c] + Implode([sep], parts)
  {
    var r := [[c] + parts[0]] + parts[1..];
    if |parts| > 1 {
      var t := Implode([sep], parts[1..]);
      assert r[1..] == parts[1..];
      assert Implode([sep], r) == ([c] + parts[0]) + [sep] + t;
      assert Implode([sep], parts) == parts[0] + [sep] + t;
      ConcatRegroup([c], parts[0], [sep], t);
    }
  }

  /** Concatenation regrouped: the first piece moved out of the brackets. */
  lemma ConcatRegroup(w: string, x: string, y: string, z: string)
    ensures (w + x) + y + z == w + (x + y + z)
  {
    var l, r := (w + x) + y + z, w + (x + y + z);
    forall i | 0 <= i < |l| ensures l[i] == r[i] {
      if i < |w| {
      } else if i < |w| + |x| + |y| {
      } else {
      }
    }
  }

  /** explode(sep, implode(sep, parts)) gives back parts when no part holds sep. */
  lemma {:induction false} ExplodeImplode(sep: char, parts: seq<string>)
    requires |parts| >= 1
    requires forall i :: 0 <= i < |parts| ==> sep !in parts[i]
    ensures Explode(sep, Implode([sep], parts)) == parts
    decreases |parts|
  {
    if |parts| == 1 {
      ExplodeNoSep(sep, parts[0]);
    } else {
      ExplodeImplode(sep, parts[1..]);
      ExplodeAppend(sep, parts[0], Implode([sep], parts[1..]));
      assert [parts[0]] + parts[1..] == parts;
    }
  }

  lemma {:induction false} ExplodeNoSep(sep: char, s: string)
    requires sep !in s
    ensures Explode(sep, s) == [s]
    decreases |s|
  {
    if s != [] {
      ExplodeNoSep(sep, s[1..]);
      assert [s[0]] + s[1..] == s;
    }
  }

  lemma {:induction false} ExplodeAppend(sep: char, a: string, b: string)
    requires sep !in a
    ensures Explode(sep, a + [sep] + b) == [a] + Explode(sep, b)
    decreases |a|
  {
    if a == [] {
      assert a + [sep] + b == [sep] + b;
      assert ([sep] + b)[1..] == b;
    } else {
      ExplodeAppend(sep, a[1..], b);
      assert (a + [sep] + b)[1..] == a[1..] + [sep] + b;
      assert [a[0]] + a[1..] == a;
    }
  }

  /** The first piece is the text before the first separator, or all of s without one. */
  lemma {:induction false} ExplodeFirst(sep: char, s: string)
    ensures var p := Explode(sep, s)[0];
      |p| <= |s| && p == s[..|p|] && (|p| < |s| <==> sep in s) && (|p| < |s| ==> s[|p|] == sep)
    decreases |s|
  {
    if s != [] && s[0] != sep {
      ExplodeFirst(sep, s[1..]);
      var p := Explode(sep, s[1..])[0];
      assert Explode(sep, s)[0] == [s[0]] + p;
      assert sep in s <==> sep in s[1..] by {
        assert s == [s[0]] + s[1..];
      }
    }
  }

  /** Number of occurrences of c in s. */
  function Occurrences(c: char, s: string): nat {
    if s == [] then 0 else (if s[0] == c then 1 else 0) + Occurrences(c, s[1..])
  }

  /** explode yields one more piece than there are delimiters. */
  lemma {:induction false} ExplodeCount(sep: char, s: string)
    ensures |Explode(sep, s)| == Occurrences(sep, s) + 1
    decreases |s|
  {
    if s != [] {
      ExplodeCount(sep, s[1..]);
    }
  }

  // ---------------------------------------------------------------------
  // pathinfo(..., PATHINFO_EXTENSION)

  /** The part of s after its last c, or all of s when c does not occur. */
  function AfterLast(c: char, s: string): string {
    if s == [] then []
    else if s[|s| - 1] == c then []
    else AfterLast(c, s[..|s| - 1]) + [s[|s| - 1]]
  }

  /**
   * The part after the last c is a suffix free of c, preceded by c when it
   * is not the whole string; without any c it is the whole string.
   */
  lemma {:induction false} AfterLastSpec(c: char, s: string)
    ensures c !in AfterLast(c, s)
    ensures |AfterLast(c, s)| <= |s| && AfterLast(c, s) == s[|s| - |AfterLast(c, s)|..]
    ensures |AfterLast(c, s)| < |s| ==> s[|s| - |AfterLast(c, s)| - 1] == c
    ensures c !in s ==> AfterLast(c, s) == s
    decreases |s|
  {
    if s != [] && s[|s| - 1] != c {
      var p := s[..|s| - 1];
      AfterLastSpec(c, p);
      assert s == p + [s[|s| - 1]];
    }
  }

  /** PHP's `pathinfo($name, PATHINFO_EXTENSION)`. */
  function Extension(name: string): string {
    var base := AfterLast('/', name);
    if '.' in base then AfterLast('.', base) else ""
  }

  /** The extension holds no dot and no slash and ends the name. */
  lemma ExtensionSpec(name: string)
    ensures '.' !in Extension(name) && '/' !in Extension(name)
    ensures |Extension(name)| <= |name| && Extension(name) == name[|name| - |Extension(name)|..]
  {
    var base := AfterLast('/', name);
    AfterLastSpec('/', name);
    if '.' in base {
      AfterLastSpec('.', base);
    }
  }

  /** `strtolower(pathinfo($name, PATHINFO_EXTENSION)) === 'pdf'` */
  predicate HasPdfExtension(name: string) {
    Lower(Extension(name)) == "pdf"
  }

  lemma {:induction false} AfterLastAppend(c: char, x: string, t: string)
    requires c !in t
    ensures AfterLast(c, x + t) == AfterLast(c, x) + t
    decreases |t|
  {
    if t != [] {
      var u := t[..|t| - 1];
      assert (x + t)[..|x + t| - 1] == x + u;
      AfterLastAppend(c, x, u);
      assert u + [t[|t| - 1]] == t;
    } else {
      assert x + t == x;
    }
  }

  /** A name ending in ".pdf" (in any letter case) passes the extension check. */
  lemma PdfSuffixAccepted(stem: string, ext: string)
    requires '/' !in ext && '.' !in ext && Lower(ext) == "pdf"
    ensures HasPdfExtension(stem + "." + ext)
  {
    var name := stem + "." + ext;
    AfterLastAppend('/', stem + ".", ext);
    AfterLastAppend('/', stem, ".");
    var b := AfterLast('/', stem);
    var base := AfterLast('/', name);
    assert base == b + "." + ext;
    assert base[|b|] == '.';
    AfterLastAppend('.', b + ".", ext);
    assert AfterLast('.', b + ".") == [];
    assert Extension(name) == ext;
  }

  /** A name that passes the extension check is at least ".pdf" long, so never `empty()`. */
  lemma PdfNameNotEmpty(name: string)
    requires HasPdfExtension(name)
    ensures |name| >= 4 && !IsEmpty(name)
  {
    var base := AfterLast('/', name);
    var e := AfterLast('.', base);
    AfterLastSpec('/', name);
    AfterLastSpec('.', base);
    assert '.' in base;
    assert |e| == 3;
  }

  /** Sanitising keeps a PDF name non-empty in PHP's sense. */
  lemma SanitizedPdfNameNotEmpty(name: string)
    requires HasPdfExtension(name)
    ensures !IsEmpty(SanitizeName(name))
  {
    PdfNameNotEmpty(name);
    assert |SanitizeName(name)| >= 4;
  }

  /** A name with no dot after its last slash has no extension and is refused. */
  lemma NoDotRefused(name: string)
    requires '.' !in AfterLast('/', name)
    ensures !HasPdfExtension(name)
  {
  }

  // ---------------------------------------------------------------------
  // File-name sanitising: every character outside a safe class becomes '_'

  /** `[A-Za-z0-9]` */
  predicate IsAlnum(c: char) {
    'A' <= c <= 'Z' || 'a' <= c <= 'z' || '0' <= c <= '9'
  }

  /** `[A-Za-z0-9._-]` */
  predicate IsSafeNameChar(c: char) {
    IsAlnum(c) || c == '.' || c == '_' || c == '-'
  }

  /** `preg_replace('/[^A-Za-z0-9._-]/', '_', $name)` */
  function SanitizeName(s: string): (r: string)
    ensures |r| == |s|
  {
    if s == [] then [] else [if IsSafeNameChar(s[0]) then s[0] else '_'] + SanitizeName(s[1..])
  }

  /**
   * The sanitised name keeps every safe character in place, puts '_' for
   * the others, and is therefore made of safe characters only.
   */
  lemma {:induction false} SanitizeNameSpec(s: string)
    ensures forall i :: 0 <= i < |s| ==>
      SanitizeName(s)[i] == (if IsSafeNameChar(s[i]) then s[i] else '_') && IsSafeNameChar(SanitizeName(s)[i])
    decreases |s|
  {
    if s != [] {
      SanitizeNameSpec(s[1..]);
      assert forall i :: 1 <= i < |s| ==> SanitizeName(s)[i] == SanitizeName(s[1..])[i - 1];
    }
  }

  /** Sanitising twice changes nothing more. */
  lemma SanitizeNameIdempotent(s: string)
    ensures SanitizeName(SanitizeName(s)) == SanitizeName(s)
  {
    SanitizeNameSpec(s);
    SanitizeNameSpec(SanitizeName(s));
  }

  /** `preg_replace('/[^A-Za-z0-9]/', '_', $name)` */
  function SanitizeAlnum(s: string): (r: string)
    ensures |r| == |s|
    ensures forall i :: 0 <= i < |s| ==> r[i] == (if IsAlnum(s[i]) then s[i] else '_')
  {
    if s == [] then [] else [if IsAlnum(s[0]) then s[0] else '_'] + SanitizeAlnum(s[1..])
  }

  // ---------------------------------------------------------------------
  // Regular-expression whitespace rewrites

  /** PCRE's `\s`: space, \t, \n, \x0B, \f, \r. */
  predicate IsPcreSpace(c: char) {
    c == ' ' || c == '\t' || c == '\n' || c == '\U{000B}' || c == '\U{000C}' || c == '\r'
  }

  function DropPcreSpace(s: string): (r: string)
    ensures |r| <= |s| && r == s[|s| - |r|..]
    ensures r == [] || !IsPcreSpace(r[0])
  {
    if s != [] && IsPcreSpace(s[0]) then DropPcreSpace(s[1..]) else s
  }

  /** `preg_replace('/\s+/', ' ', $s)`: every run of whitespace becomes one space. */
  function CollapseSpaces(s: string): string
    decreases |s|
  {
    if s == [] then []
    else if IsPcreSpace(s[0]) then " " + CollapseSpaces(DropPcreSpace(s[1..]))
    else [s[0]] + CollapseSpaces(s[1..])
  }

  /** No whitespace but the plain space, and never two spaces in a row. */
  predicate SingleSpaced(s: string) {
    (forall i :: 0 <= i < |s| && IsPcreSpace(s[i]) ==> s[i] == ' ')
    && (forall i :: 0 <= i < |s| - 1 ==> !(s[i] == ' ' && s[i + 1] == ' '))
  }

  lemma {:induction false} CollapseSpacesHead(s: string)
    requires s == [] || !IsPcreSpace(s[0])
    ensures var r := CollapseSpaces(s); r == [] || !IsPcreSpace(r[0])
  {
  }

  /** A plain character, or a space before a non-space, keeps a text single-spaced. */
  lemma SingleSpacedCons(c: char, r: string)
    requires SingleSpaced(r)
    requires IsPcreSpace(c) ==> c == ' '
    requires c == ' ' ==> r == [] || r[0] != ' '
    ensures SingleSpaced([c] + r)
  {
    var s := [c] + r;
    forall i | 1 <= i < |s| ensures s[i] == r[i - 1] { }
  }

  /** The collapsed text is single-spaced. */
  lemma {:induction false} CollapseSpacesSingleSpaced(s: string)
    ensures SingleSpaced(CollapseSpaces(s))
    decreases |s|
  {
    if s == [] {
    } else if IsPcreSpace(s[0]) {
      var t := DropPcreSpace(s[1..]);
      CollapseSpacesSingleSpaced(t);
      CollapseSpacesHead(t);
      SingleSpacedCons(' ', CollapseSpaces(t));
    } else {
      CollapseSpacesSingleSpaced(s[1..]);
      SingleSpacedCons(s[0], CollapseSpaces(s[1..]));
    }
  }

  /** `preg_split('/\s+/', $s)`: pieces between whitespace runs (empty pieces kept). */
  function SplitSpaces(s: string): (r: seq<string>)
    ensures |r| >= 1
    decreases |s|
  {
    if s == [] then [""]
    else if IsPcreSpace(s[0]) then [""] + SplitSpaces(DropPcreSpace(s[1..]))
    else
      var rest := SplitSpaces(s[1..]);
      [[s[0]] + rest[0]] + rest[1..]
  }

  /** On single-spaced text, splitting on `\s+` and exploding on ' ' agree. */
  lemma {:induction false} SplitSpacesOnSingleSpaced(s: string)
    requires SingleSpaced(s)
    ensures SplitSpaces(s) == Explode(' ', s)
    decreases |s|
  {
    if s == [] {
    } else if s[0] == ' ' {
      assert SingleSpaced(s[1..]);
      if |s| > 1 {
        assert !IsPcreSpace(s[1]);
      }
      assert DropPcreSpace(s[1..]) == s[1..];
      SplitSpacesOnSingleSpaced(s[1..]);
    } else {
      assert !IsPcreSpace(s[0]);
      assert SingleSpaced(s[1..]);
      SplitSpacesOnSingleSpaced(s[1..]);
    }
  }

  /** ' ' or '\t' */
  predicate IsBlank(c: char) {
    c == ' ' || c == '\t'
  }

  function DropBlanks(s: string): (r: string)
    ensures |r| <= |s| && r == s[|s| - |r|..]
    ensures r == [] || !IsBlank(r[0])
  {
    if s != [] && IsBlank(s[0]) then DropBlanks(s[1..]) else s
  }

  /** `preg_replace('/[ \t]+/', ' ', $s)` */
  function CollapseBlanks(s: string): (r: string)
    ensures '\t' !in r
    decreases |s|
  {
    if s == [] then []
    else if IsBlank(s[0]) then " " + CollapseBlanks(DropBlanks(s[1..]))
    else [s[0]] + CollapseBlanks(s[1..])
  }

  /** The text with every space and tab taken out. */
  function NonBlanks(s: string): string
    decreases |s|
  {
    if s == [] then [] else (if IsBlank(s[0]) then [] else [s[0]]) + NonBlanks(s[1..])
  }

  /** Never a blank next to a blank. */
  predicate NoDoubleBlank(s: string) {
    forall i :: 0 <= i < |s| - 1 ==> !(IsBlank(s[i]) && IsBlank(s[i + 1]))
  }

  /** `preg_split('/[ \t]+/', $s)`: the pieces between runs of blanks (empty pieces kept). */
  function SplitBlanks(s: string): (r: seq<string>)
    ensures |r| >= 1
    ensures forall i :: 0 <= i < |r| ==> ' ' !in r[i] && '\t' !in r[i]
    decreases |s|
  {
    if s == [] then [""]
    else if IsBlank(s[0]) then [""] + SplitBlanks(DropBlanks(s[1..]))
    else
      var rest := SplitBlanks(s[1..]);
      [[s[0]] + rest[0]] + rest[1..]
  }

  lemma {:induction false} NonBlanksDropBlanks(s: string)
    ensures NonBlanks(DropBlanks(s)) == NonBlanks(s)
    decreases |s|
  {
    if s != [] && IsBlank(s[0]) {
      NonBlanksDropBlanks(s[1..]);
    }
  }

  /** Collapsing keeps every character that is not a blank, in order. */
  lemma {:induction false} CollapseBlanksKeeps(s: string)
    ensures NonBlanks(CollapseBlanks(s)) == NonBlanks(s)
    decreases |s|
  {
    if s == [] {
    } else if IsBlank(s[0]) {
      var t := DropBlanks(s[1..]);
      CollapseBlanksKeeps(t);
      NonBlanksDropBlanks(s[1..]);
      assert (" " + CollapseBlanks(t))[1..] == CollapseBlanks(t);
    } else {
      CollapseBlanksKeeps(s[1..]);
      assert ([s[0]] + CollapseBlanks(s[1..]))[1..] == CollapseBlanks(s[1..]);
    }
  }

  /** A character in front keeps a text free of double blanks unless both are blanks. */
  lemma NoDoubleBlankCons(c: char, r: string)
    requires NoDoubleBlank(r)
    requires r != [] && IsBlank(c) ==> !IsBlank(r[0])
    ensures NoDoubleBlank([c] + r)
  {
    var s := [c] + r;
    forall i | 1 <= i < |s| ensures s[i] == r[i - 1] { }
  }

  lemma {:induction false} CollapseBlanksHead(s: string)
    requires s != [] && !IsBlank(s[0])
    ensures CollapseBlanks(s) != [] && CollapseBlanks(s)[0] == s[0]
  {
  }

  /** After collapsing, no two blanks stand side by side. */
  lemma {:induction false} CollapseBlanksNoDouble(s: string)
    ensures NoDoubleBlank(CollapseBlanks(s))
    decreases |s|
  {
    if s == [] {
    } else if IsBlank(s[0]) {
      var t := DropBlanks(s[1..]);
      CollapseBlanksNoDouble(t);
      if t != [] {
        CollapseBlanksHead(t);
      }
      NoDoubleBlankCons(' ', CollapseBlanks(t));
    } else {
      CollapseBlanksNoDouble(s[1..]);
      NoDoubleBlankCons(s[0], CollapseBlanks(s[1..]));
    }
  }

  /**
   * Each run of blanks becomes exactly one space: the result is the
   * blank-free pieces between the runs, joined by single spaces.
   */
  lemma {:induction false} CollapseBlanksJoinsPieces(s: string)
    ensures CollapseBlanks(s) == Implode(" ", SplitBlanks(s))
    decreases |s|
  {
    if s == [] {
    } else if IsBlank(s[0]) {
      var t := DropBlanks(s[1..]);
      CollapseBlanksJoinsPieces(t);
      var pieces := [""] + SplitBlanks(t);
      assert pieces[1..] == SplitBlanks(t);
      assert Implode(" ", pieces) == "" + " " + Implode(" ", SplitBlanks(t));
    } else {
      CollapseBlanksJoinsPieces(s[1..]);
      ImplodeHeadCons(' ', s[0], SplitBlanks(s[1..]));
    }
  }

  lemma NoDoubleBlankTail(s: string)
    requires s != [] && NoDoubleBlank(s)
    ensures NoDoubleBlank(s[1..])
  {
    var t := s[1..];
    forall i | 0 <= i < |t| - 1 ensures !(IsBlank(t[i]) && IsBlank(t[i + 1])) {
      assert t[i] == s[i + 1] && t[i + 1] == s[i + 2];
    }
  }

  /** Text that already has no tab and no double space is left as it is. */
  lemma {:induction false} CollapseBlanksFixed(s: string)
    requires '\t' !in s && NoDoubleBlank(s)
    ensures CollapseBlanks(s) == s
    decreases |s|
  {
    if s != [] {
      NoDoubleBlankTail(s);
      assert '\t' !in s[1..];
      if IsBlank(s[0]) {
        assert s[1..] == [] || !IsBlank(s[1]);
        assert DropBlanks(s[1..]) == s[1..];
      }
      CollapseBlanksFixed(s[1..]);
      assert [s[0]] + s[1..] == s;
    }
  }

  function DropSpacesOnly(s: string): (r: string)
    ensures |r| <= |s| && r == s[|s| - |r|..]
    ensures r == [] || r[0] != ' '
    ensures forall i :: 0 <= i < |s| - |r| ==> s[i] == ' '
  {
    if s != [] && s[0] == ' ' then DropSpacesOnly(s[1..]) else s
  }

  // preg_replace with the pattern ` *\n *` and replacement "\n": spaces touching a
  // line break are removed.
  function TightenNewlines(s: string): (r: string)
    ensures forall c :: c in r ==> c in s
    decreases |s|
  {
    if s == [] then []
    else if s[0] == '\n' then
      var rest := DropSpacesOnly(s[1..]);
      "\n" + TightenNewlines(rest)
    else if s[0] == ' ' then
      var rest := DropSpacesOnly(s);
      if rest != [] && rest[0] == '\n' then TightenNewlines(rest)
      else s[..|s| - |rest|] + TightenNewlines(rest)
    else [s[0]] + TightenNewlines(s[1..])
  }

  /** The text with every space taken out. */
  function NonSpaces(s: string): string
    decreases |s|
  {
    if s == [] then [] else (if s[0] == ' ' then [] else [s[0]]) + NonSpaces(s[1..])
  }

  lemma {:induction false} NonSpacesConcat(a: string, b: string)
    ensures NonSpaces(a + b) == NonSpaces(a) + NonSpaces(b)
    decreases |a|
  {
    if a != [] {
      var h := if a[0] == ' ' then [] else [a[0]];
      assert (a + b)[0] == a[0] && (a + b)[1..] == a[1..] + b;
      assert NonSpaces(a + b) == h + NonSpaces(a[1..] + b);
      NonSpacesConcat(a[1..], b);
      assert NonSpaces(a) == h + NonSpaces(a[1..]);
      assert h + (NonSpaces(a[1..]) + NonSpaces(b)) == (h + NonSpaces(a[1..])) + NonSpaces(b);
    } else {
      assert a + b == b;
    }
  }

  lemma {:induction false} NonSpacesDropSpaces(s: string)
    ensures NonSpaces(DropSpacesOnly(s)) == NonSpaces(s)
    decreases |s|
  {
    if s != [] && s[0] == ' ' {
      NonSpacesDropSpaces(s[1..]);
    }
  }

  /** Spaces only: nothing is left once they are taken out. */
  lemma {:induction false} NonSpacesOfSpaces(s: string)
    requires forall i :: 0 <= i < |s| ==> s[i] == ' '
    ensures NonSpaces(s) == []
    decreases |s|
  {
    if s != [] {
      NonSpacesOfSpaces(s[1..]);
    }
  }

  /** Without tabs, taking out blanks is taking out spaces. */
  lemma {:induction false} NonBlanksNoTab(s: string)
    requires '\t' !in s
    ensures NonBlanks(s) == NonSpaces(s)
    decreases |s|
  {
    if s != [] {
      assert '\t' !in s[1..];
      NonBlanksNoTab(s[1..]);
    }
  }

  /** Tightening removes spaces and nothing else: every other character stays, in order. */
  lemma {:induction false} TightenNewlinesKeeps(s: string)
    ensures NonSpaces(TightenNewlines(s)) == NonSpaces(s)
    decreases |s|
  {
    if s == [] {
    } else if s[0] == '\n' {
      var rest := DropSpacesOnly(s[1..]);
      TightenNewlinesKeeps(rest);
      NonSpacesDropSpaces(s[1..]);
      NonSpacesConcat("\n", TightenNewlines(rest));
    } else if s[0] == ' ' {
      var rest := DropSpacesOnly(s);
      TightenNewlinesKeeps(rest);
      NonSpacesDropSpaces(s);
      if !(rest != [] && rest[0] == '\n') {
        var run := s[..|s| - |rest|];
        NonSpacesOfSpaces(run);
        NonSpacesConcat(run, TightenNewlines(rest));
      }
    } else {
      TightenNewlinesKeeps(s[1..]);
      NonSpacesConcat([s[0]], TightenNewlines(s[1..]));
    }
  }

  /** No space stands directly before or after a line break. */
  predicate NoSpaceAtNewline(s: string) {
    forall i :: 0 <= i < |s| - 1 ==> !(s[i] == ' ' && s[i + 1] == '\n') && !(s[i] == '\n' && s[i + 1] == ' ')
  }

  lemma {:induction false} TightenNewlinesHead(s: string)
    requires s != [] && s[0] != ' '
    ensures TightenNewlines(s) != [] && TightenNewlines(s)[0] == s[0]
  {
  }

  lemma {:induction false} TightenNewlinesSpaceHead(s: string)
    requires s != [] && s[0] == ' '
    ensures var r := TightenNewlines(s);
      r == [] || r[0] != ' ' || (var t := DropSpacesOnly(s); t == [] || t[0] != '\n')
  {
    var t := DropSpacesOnly(s);
    if t != [] && t[0] == '\n' {
      TightenNewlinesHead(t);
    }
  }

  /** One character in front keeps a text free of spaces at line breaks, unless it pairs with the head. */
  lemma NoSpaceAtNewlineCons(c: char, r: string)
    requires NoSpaceAtNewline(r)
    requires r != [] ==> !(c == ' ' && r[0] == '\n') && !(c == '\n' && r[0] == ' ')
    ensures NoSpaceAtNewline([c] + r)
  {
    var s := [c] + r;
    forall i | 1 <= i < |s| ensures s[i] == r[i - 1] { }
  }

  /** A run of spaces in front of a text that does not open with a line break. */
  lemma NoSpaceAtNewlineSpaces(run: string, r: string)
    requires forall i :: 0 <= i < |run| ==> run[i] == ' '
    requires NoSpaceAtNewline(r) && (r == [] || r[0] != '\n')
    ensures NoSpaceAtNewline(run + r)
  {
    var s := run + r;
    forall i | 0 <= i < |s| - 1 ensures !(s[i] == ' ' && s[i + 1] == '\n') && !(s[i] == '\n' && s[i + 1] == ' ') {
      if i < |run| {
        assert s[i] == ' ';
        if i + 1 < |run| { assert s[i + 1] == run[i + 1]; } else { assert s[i + 1] == r[0]; }
      } else {
        assert s[i] == r[i - |run|] && s[i + 1] == r[i + 1 - |run|];
      }
    }
  }

  lemma {:induction false} TightenNewlinesSound(s: string)
    ensures NoSpaceAtNewline(TightenNewlines(s))
    decreases |s|
  {
    if s == [] {
    } else if s[0] == '\n' {
      var rest := DropSpacesOnly(s[1..]);
      TightenNewlinesSound(rest);
      if rest != [] {
        TightenNewlinesHead(rest);
      }
      NoSpaceAtNewlineCons('\n', TightenNewlines(rest));
    } else if s[0] == ' ' {
      var rest := DropSpacesOnly(s);
      TightenNewlinesSound(rest);
      if rest == [] || rest[0] != '\n' {
        if rest != [] {
          TightenNewlinesHead(rest);
        }
        NoSpaceAtNewlineSpaces(s[..|s| - |rest|], TightenNewlines(rest));
      }
    } else {
      TightenNewlinesSound(s[1..]);
      NoSpaceAtNewlineCons(s[0], TightenNewlines(s[1..]));
    }
  }
  lemma NoSpaceAtNewlineSuffix(s: string, k: nat)
    requires k <= |s| && NoSpaceAtNewline(s)
    ensures NoSpaceAtNewline(s[k..])
  {
    var t := s[k..];
    forall i | 0 <= i < |t| - 1 ensures !(t[i] == ' ' && t[i + 1] == '\n') && !(t[i] == '\n' && t[i + 1] == ' ') {
      assert t[i] == s[k + i] && t[i + 1] == s[k + i + 1];
    }
  }

  /** A run of spaces not followed by a line break is copied in front of the rest. */
  lemma TightenSpaceRun(s: string) returns (k: nat)
    requires s != [] && s[0] == ' ' && NoSpaceAtNewline(s)
    ensures 1 <= k <= |s| && NoSpaceAtNewline(s[k..])
    ensures TightenNewlines(s) == s[..k] + TightenNewlines(s[k..])
  {
    var rest := DropSpacesOnly(s);
    k := |s| - |rest|;
    assert s[k - 1] == ' ';
    assert rest != [] ==> rest[0] == s[k] && s[k] != '\n';
    NoSpaceAtNewlineSuffix(s, k);
  }

  /** Any other character, a line break included, is copied in front of the rest. */
  lemma TightenOtherHead(s: string)
    requires s != [] && s[0] != ' ' && NoSpaceAtNewline(s)
    ensures NoSpaceAtNewline(s[1..])
    ensures TightenNewlines(s) == s[..1] + TightenNewlines(s[1..])
  {
    if s[0] == '\n' {
      assert |s| > 1 ==> s[1] != ' ';
      assert DropSpacesOnly(s[1..]) == s[1..];
    }
    assert s[..1] == [s[0]];
    NoSpaceAtNewlineSuffix(s, 1);
  }

  /**
   * On text with no space beside a line break, tightening copies a head of
   * length `k` and goes on with the rest, which keeps that property.
   */
  lemma TightenStep(s: string) returns (k: nat)
    requires s != [] && NoSpaceAtNewline(s)
    ensures 1 <= k <= |s| && NoSpaceAtNewline(s[k..])
    ensures TightenNewlines(s) == s[..k] + TightenNewlines(s[k..])
  {
    if s[0] == ' ' {
      k := TightenSpaceRun(s);
    } else {
      TightenOtherHead(s);
      k := 1;
    }
  }

  /** Text with no space beside a line break is left as it is: no other space is removed. */
  lemma {:induction false} TightenNewlinesFixed(s: string)
    requires NoSpaceAtNewline(s)
    ensures TightenNewlines(s) == s
    decreases |s|
  {
    if s != [] {
      var k := TightenStep(s);
      TightenNewlinesFixed(s[k..]);
      assert s[..k] + s[k..] == s;
    }
  }




  // ---------------------------------------------------------------------
  // rtrim with a one-character list

  /** `rtrim($s, "@")`-style: drop every trailing c. */
  function RTrimChar(c: char, s: string): string
    decreases |s|
  {
    if s != [] && s[|s| - 1] == c then RTrimChar(c, s[..|s| - 1]) else s
  }

  /** The result is a prefix that does not end in c, and only c's were dropped. */
  lemma {:induction false} RTrimCharSpec(c: char, s: string)
    ensures |RTrimChar(c, s)| <= |s| && RTrimChar(c, s) == s[..|RTrimChar(c, s)|]
    ensures RTrimChar(c, s) == [] || RTrimChar(c, s)[|RTrimChar(c, s)| - 1] != c
    ensures forall i :: |RTrimChar(c, s)| <= i < |s| ==> s[i] == c
    decreases |s|
  {
    if s != [] && s[|s| - 1] == c {
      RTrimCharSpec(c, s[..|s| - 1]);
    }
  }

  /** Trimming c's off `x + t` reaches into x only when t is all c's. */
  lemma {:induction false} RTrimCharAppend(c: char, x: string, t: string)
    requires t != [] && t[|t| - 1] != c
    ensures RTrimChar(c, x + t) == x + t
  {
  }

  // ---------------------------------------------------------------------
  // (int) cast of a decimal string

  predicate IsDigit(c: char) {
    '0' <= c <= '9'
  }

  function DigitValue(c: char): nat
    requires IsDigit(c)
  {
    c as int - '0' as int
  }

  /** The longest prefix of decimal digits. */
  function DigitPrefix(s: string): string
    decreases |s|
  {
    if s != [] && IsDigit(s[0]) then [s[0]] + DigitPrefix(s[1..]) else []
  }

  predicate AllDigits(s: string) {
    forall i :: 0 <= i < |s| ==> IsDigit(s[i])
  }

  lemma {:induction false} DigitPrefixSpec(s: string)
    ensures AllDigits(DigitPrefix(s)) && |DigitPrefix(s)| <= |s|
    ensures DigitPrefix(s) == s[..|DigitPrefix(s)|]
    decreases |s|
  {
    if s != [] && IsDigit(s[0]) {
      DigitPrefixSpec(s[1..]);
    }
  }

  lemma {:induction false} DigitPrefixOfDigits(s: string)
    requires AllDigits(s)
    ensures DigitPrefix(s) == s
    decreases |s|
  {
    if s != [] {
      DigitPrefixOfDigits(s[1..]);
      assert [s[0]] + s[1..] == s;
    }
  }

  /** The number a string of digits denotes. */
  function DigitsValue(d: string): nat
    requires AllDigits(d)
    decreases |d|
  {
    if d == [] then 0 else DigitsValue(d[..|d| - 1]) * 10 + DigitValue(d[|d| - 1])
  }

  /**
   * PHP's `(int)` cast of a string: leading white space is skipped, then an
   * optional sign and the longest run of digits are read; anything else
   * (including no digits at all) ends the number, which is 0 when empty.
   */
  function IntCast(s: string): int {
    var t := DropPcreSpace(s);
    if t != [] && (t[0] == '-' || t[0] == '+') then
      var d := DigitPrefix(t[1..]);
      DigitPrefixSpec(t[1..]);
      if t[0] == '-' then -(DigitsValue(d) as int) else DigitsValue(d)
    else
      var d := DigitPrefix(t);
      DigitPrefixSpec(t);
      DigitsValue(d)
  }

  /** The decimal digits of n, as PHP prints an integer. */
  function Decimal(n: nat): (r: string)
    ensures r != [] && AllDigits(r)
  {
    if n < 10 then [('0' as int + n) as char]
    else Decimal(n / 10) + [('0' as int + n % 10) as char]
  }

  lemma {:induction false} DecimalValue(n: nat)
    ensures DigitsValue(Decimal(n)) == n
  {
    if n >= 10 {
      DecimalValue(n / 10);
      var d := Decimal(n);
      assert d[..|d| - 1] == Decimal(n / 10);
    }
  }

  /** A number written in decimal reads back as itself. */
  lemma IntCastDecimal(n: nat)
    ensures IntCast(Decimal(n)) == n
  {
    var d := Decimal(n);
    DecimalValue(n);
    DigitPrefixOfDigits(d);
    assert !IsPcreSpace(d[0]);
    assert DropPcreSpace(d) == d;
    assert d[0] != '-' && d[0] != '+';
  }

  /** With a minus sign in front it reads back as its negation. */
  lemma IntCastNegativeDecimal(n: nat)
    ensures IntCast("-" + Decimal(n)) == -(n as int)
  {
    var d := Decimal(n);
    DecimalValue(n);
    DigitPrefixOfDigits(d);
    var m := "-" + d;
    assert DropPcreSpace(m) == m;
    assert m[1..] == d;
  }
}

=== FILE: project_store.dfy ===
/**
 * Project working titles (student/submit_research.php): a group submits
 * up to three title proposals; every edit archives the edited row and
 * inserts its next version (at most version 5), copying the approval row;
 * a row may be deleted only while no capstone adviser is assigned.
 */
module ProjectStore {
  import opened PhpStrings
  import opened Records

  /** MAX_SUBMISSIONS */
  const MaxSubmissions := 3
  /** The version cap checked by the edit and update handlers. */
  const MaxVersion := 5

  // ---------------------------------------------------------------------
  // The title form and its validation

  /** The posted form, raw; a field that was not posted is "". */
  datatype TitleForm = TitleForm(
    proponents: seq<string>, title: string, beneficiary: string, focalPerson: string,
    gender: string, position: string, address: string)

  function Slot(ps: seq<string>, i: nat): string {
    if i < |ps| then ps[i] else ""
  }

  /** Every field trimmed except the gender, and exactly four proponent slots. */
  function Cleaned(f: TitleForm): (c: TitleForm)
    ensures |c.proponents| == 4 && c.gender == f.gender
  {
    TitleForm(
      [Trim(Slot(f.proponents, 0)), Trim(Slot(f.proponents, 1)),
       Trim(Slot(f.proponents, 2)), Trim(Slot(f.proponents, 3))],
      Trim(f.title), Trim(f.beneficiary), Trim(f.focalPerson),
      f.gender, Trim(f.position), Trim(f.address))
  }

  /** The stored text fields carry no leading or trailing white space. */
  lemma CleanedIsTrimmed(f: TitleForm)
    ensures var c := Cleaned(f);
      (forall i :: 0 <= i < 4 ==> IsTrimmed(c.proponents[i]))
      && IsTrimmed(c.title) && IsTrimmed(c.beneficiary) && IsTrimmed(c.focalPerson)
      && IsTrimmed(c.position) && IsTrimmed(c.address)
  {
    TrimIsTrimmed(Slot(f.proponents, 0));
    TrimIsTrimmed(Slot(f.proponents, 1));
    TrimIsTrimmed(Slot(f.proponents, 2));
    TrimIsTrimmed(Slot(f.proponents, 3));
    TrimIsTrimmed(f.title);
    TrimIsTrimmed(f.beneficiary);
    TrimIsTrimmed(f.focalPerson);
    TrimIsTrimmed(f.position);
    TrimIsTrimmed(f.address);
  }

  /** The validation messages, in the order the handlers test them. */
  datatype FieldError =
    | MissingProponent | MissingTitle | MissingBeneficiary | MissingFocalPerson
    | InvalidGender | MissingPosition | MissingAddress

  function Rank(e: FieldError): nat {
    match e
    case MissingProponent => 0
    case MissingTitle => 1
    case MissingBeneficiary => 2
    case MissingFocalPerson => 3
    case InvalidGender => 4
    case MissingPosition => 5
    case MissingAddress => 6
  }

  /** Whether the requirement behind error e is met by a cleaned form. */
  predicate Meets(f: TitleForm, e: FieldError) {
    match e
    case MissingProponent => !IsEmpty(Slot(f.proponents, 0))
    case MissingTitle => !IsEmpty(f.title)
    case MissingBeneficiary => !IsEmpty(f.beneficiary)
    case MissingFocalPerson => !IsEmpty(f.focalPerson)
    case InvalidGender => f.gender == "male" || f.gender == "female"
    case MissingPosition => !IsEmpty(f.position)
    case MissingAddress => !IsEmpty(f.address)
  }

  /** Every requirement of the form holds. */
  predicate AllMet(f: TitleForm) {
    Meets(f, MissingProponent) && Meets(f, MissingTitle) && Meets(f, MissingBeneficiary)
    && Meets(f, MissingFocalPerson) && Meets(f, InvalidGender) && Meets(f, MissingPosition)
    && Meets(f, MissingAddress)
  }

  lemma AllMetMeansEveryRequirement(f: TitleForm)
    ensures AllMet(f) <==> forall e :: Meets(f, e)
  {
    if AllMet(f) {
      forall e: FieldError ensures Meets(f, e) {
        match e
        case MissingProponent =>
        case MissingTitle =>
        case MissingBeneficiary =>
        case MissingFocalPerson =>
        case InvalidGender =>
        case MissingPosition =>
        case MissingAddress =>
      }
    }
  }

  /**
   * The validation chain shared by the new-submission and update handlers:
   * no error exactly when every requirement holds, and otherwise an unmet
   * requirement such that every requirement tested before it holds.
   */
  function Validate(f: TitleForm): (r: Option<FieldError>)
    ensures r.None? <==> AllMet(f)
    ensures r.Some? ==> !Meets(f, r.value)
    ensures r.Some? ==> forall e :: Rank(e) < Rank(r.value) ==> Meets(f, e)
  {
    if IsEmpty(Slot(f.proponents, 0)) then Some(MissingProponent)
    else if IsEmpty(f.title) then Some(MissingTitle)
    else if IsEmpty(f.beneficiary) then Some(MissingBeneficiary)
    else if IsEmpty(f.focalPerson) then Some(MissingFocalPerson)
    else if !(f.gender == "male" || f.gender == "female") then Some(InvalidGender)
    else if IsEmpty(f.position) then Some(MissingPosition)
    else if IsEmpty(f.address) then Some(MissingAddress)
    else None
  }

  /** The row a cleaned form becomes. */
  function RowOf(c: TitleForm, author: UserId, version: int, notedBy: Option<UserId>): ProjectRow {
    ProjectRow(c.proponents, c.title, c.beneficiary, c.focalPerson, c.gender,
               c.position, c.address, author, Some(version), notedBy, false)
  }

  /** The approval row a new submission gets: faculty stage pending, empty remarks. */
  const InitialApproval := Approval(StagePending, Some(""), Unset, None, Unset, None)

  // ---------------------------------------------------------------------
  // The active listing

  /** A row the caller's page lists: own or a group mate's, and not archived. */
  predicate Listed(dir: Directory, caller: UserId, r: ProjectRow) {
    OwnOrGroup(dir, r.submittedBy, caller) && !r.archived
  }

  /** The caller's listed rows among ids 1..k, newest first (`ORDER BY id DESC`). */
  function ListingUpTo(rows: map<RowId, ProjectRow>, dir: Directory, caller: UserId, k: int): (s: seq<RowId>)
    ensures forall i :: 0 <= i < |s| ==> s[i] in rows && Listed(dir, caller, rows[s[i]]) && 1 <= s[i] <= k
    ensures forall id :: 1 <= id <= k && id in rows && Listed(dir, caller, rows[id]) ==> id in s
    ensures forall i, j :: 0 <= i < j < |s| ==> s[i] > s[j]
    decreases k
  {
    if k < 1 then []
    else if k in rows && Listed(dir, caller, rows[k]) then [k] + ListingUpTo(rows, dir, caller, k - 1)
    else ListingUpTo(rows, dir, caller, k - 1)
  }

  /** The set the listing enumerates. */
  function ActiveSet(rows: map<RowId, ProjectRow>, dir: Directory, caller: UserId): set<RowId> {
    set id | id in rows && Listed(dir, caller, rows[id])
  }

  lemma ListingEnumeratesActiveSet(rows: map<RowId, ProjectRow>, next: int, dir: Directory, caller: UserId)
    requires IdsBelow(rows, next)
    ensures var s := ListingUpTo(rows, dir, caller, next - 1);
      (forall id :: id in s <==> id in ActiveSet(rows, dir, caller))
  {
  }

  /** `$isSubmitted`: the caller's group already lists MAX_SUBMISSIONS rows. */
  predicate IsSubmitted(rows: map<RowId, ProjectRow>, next: int, dir: Directory, caller: UserId) {
    |ListingUpTo(rows, dir, caller, next - 1)| >= MaxSubmissions
  }

  // ---------------------------------------------------------------------
  // What the listing page shows for one row

  /** All three approval stages read 'approved' (no approval row: not approved). */
  predicate IsFullyApproved(a: Option<Approval>) {
    a.Some? && a.value.faculty == StageApproved && a.value.adviser == StageApproved
    && a.value.dean == StageApproved
  }

  /** `!empty(noted_by)` */
  predicate AdviserAssigned(r: ProjectRow) {
    r.notedBy.Some? && r.notedBy.value != 0
  }

  /** The Edit button: below the version cap and not fully approved. */
  predicate EditOffered(r: ProjectRow, a: Option<Approval>) {
    EffectiveVersion(r) < MaxVersion && !IsFullyApproved(a)
  }

  /** The Delete button: no adviser assigned yet. */
  predicate DeleteOffered(r: ProjectRow) {
    !AdviserAssigned(r)
  }

  /** The lines of the stage-by-stage status block. */
  datatype StatusLine =
    | AwaitingAssignment
    | AwaitingAdviserApproval
    | FacultyStage(faculty: Stage)
    | AdviserStage(adviser: Stage)
    | DeanStage(dean: Stage)
    | LetterAndNext

  function StageOf(a: Option<Approval>, which: nat): Stage {
    if a.None? then Unset
    else if which == 0 then a.value.faculty
    else if which == 1 then a.value.adviser
    else a.value.dean
  }

  /**
   * The status block: a later stage is shown only once the earlier one
   * reads 'approved', and the letter download and Next button only once
   * all three do.
   */
  function StatusLines(r: ProjectRow, a: Option<Approval>): (lines: seq<StatusLine>)
    ensures !AdviserAssigned(r) <==> lines == [AwaitingAssignment]
    ensures AdviserAssigned(r) ==> |lines| >= 2 && lines[0] == FacultyStage(StageOf(a, 0))
    ensures AdviserStage(StageOf(a, 1)) in lines <==> AdviserAssigned(r) && StageOf(a, 0) == StageApproved
    ensures DeanStage(StageOf(a, 2)) in lines <==> AdviserAssigned(r) && StageOf(a, 0) == StageApproved && StageOf(a, 1) == StageApproved
    ensures LetterAndNext in lines <==> AdviserAssigned(r) && IsFullyApproved(a)
  {
    if !AdviserAssigned(r) then [AwaitingAssignment]
    else if StageOf(a, 0) != StageApproved then [FacultyStage(StageOf(a, 0)), AwaitingAdviserApproval]
    else if StageOf(a, 1) != StageApproved then [FacultyStage(StageOf(a, 0)), AdviserStage(StageOf(a, 1))]
    else if StageOf(a, 2) != StageApproved then
      [FacultyStage(StageOf(a, 0)), AdviserStage(StageOf(a, 1)), DeanStage(StageOf(a, 2))]
    else [FacultyStage(StageOf(a, 0)), AdviserStage(StageOf(a, 1)), DeanStage(StageOf(a, 2)), LetterAndNext]
  }

  /**
   * The adviser and dean stage labels: 'Approved', the awaiting text for a
   * literal 'pending', and 'Rejected' for anything else (an unset column too).
   */
  function StageLabel(s: Stage, awaiting: string): (shown: string)
    requires awaiting != "Approved" && awaiting != "Rejected"
    ensures shown == "Approved" <==> s == StageApproved
    ensures shown == awaiting <==> s == StagePending
    ensures shown == "Rejected" <==> s == StageRejected || s == Unset
  {
    if s == StageApproved then "Approved"
    else if s == StagePending then awaiting
    else
      assert s == StageRejected || s == Unset;
      "Rejected"
  }

  /**
   * The `$hasFullyApprovedProject` loop over the listed rows' approval rows.
   */
  method HasFullyApprovedProject(listed: seq<Option<Approval>>) returns (found: bool)
    ensures found <==> exists i :: 0 <= i < |listed| && IsFullyApproved(listed[i])
  {
    found := false;
    var i := 0;
    while i < |listed|
      invariant 0 <= i <= |listed|
      invariant !found
      invariant forall j :: 0 <= j < i ==> !IsFullyApproved(listed[j])
    {
      if IsFullyApproved(listed[i]) {
        found := true;
        return;
      }
      i := i + 1;
    }
  }

  /** "Submit Another Project": under the limit and nothing fully approved. */
  predicate SubmitAnotherOffered(listedCount: nat, anyFullyApproved: bool) {
    listedCount < MaxSubmissions && !anyFullyApproved
  }

  // ---------------------------------------------------------------------
  // Version history

  /** `ORDER BY version ASC`: NULL sorts before every version number. */
  predicate VersionLeq(a: Option<int>, b: Option<int>) {
    a.None? || (b.Some? && a.value <= b.value)
  }

  predicate AllStored(rows: map<RowId, ProjectRow>, s: seq<RowId>) {
    forall i :: 0 <= i < |s| ==> s[i] in rows
  }

  /** Each row's version is at most the next one's. */
  predicate SortedByVersion(rows: map<RowId, ProjectRow>, s: seq<RowId>)
    requires AllStored(rows, s)
  {
    forall i :: 0 <= i < |s| - 1 ==> VersionLeq(rows[s[i]].version, rows[s[i + 1]].version)
  }

  /** A stored id whose version is at most the head's keeps the sequence sorted. */
  lemma SortedCons(rows: map<RowId, ProjectRow>, x: RowId, t: seq<RowId>)
    requires x in rows && AllStored(rows, t) && SortedByVersion(rows, t)
    requires t != [] ==> VersionLeq(rows[x].version, rows[t[0]].version)
    ensures AllStored(rows, [x] + t) && SortedByVersion(rows, [x] + t)
  {
    var s := [x] + t;
    forall i | 1 <= i < |s| ensures s[i] == t[i - 1] { }
  }

  function InsertByVersion(rows: map<RowId, ProjectRow>, id: RowId, s: seq<RowId>): (r: seq<RowId>)
    requires id in rows && AllStored(rows, s) && SortedByVersion(rows, s)
    ensures |r| == |s| + 1 && (r[0] == id || (s != [] && r[0] == s[0]))
    ensures multiset(r) == multiset(s) + multiset{id}
    ensures AllStored(rows, r) && SortedByVersion(rows, r)
  {
    if s == [] then [id]
    else if VersionLeq(rows[id].version, rows[s[0]].version) then
      SortedCons(rows, id, s);
      [id] + s
    else
      assert s == [s[0]] + s[1..];
      var t := InsertByVersion(rows, id, s[1..]);
      SortedCons(rows, s[0], t);
      [s[0]] + t
  }

  /** The history rows in `ORDER BY version ASC` order: the same rows, sorted. */
  function SortByVersion(rows: map<RowId, ProjectRow>, s: seq<RowId>): (r: seq<RowId>)
    requires AllStored(rows, s)
    ensures multiset(r) == multiset(s)
    ensures AllStored(rows, r) && SortedByVersion(rows, r)
  {
    if s == [] then []
    else
      assert s == [s[0]] + s[1..];
      InsertByVersion(rows, s[0], SortByVersion(rows, s[1..]))
  }

  /** A history row: same title, submitted by a member of the caller's group. */
  predicate InHistory(dir: Directory, caller: UserId, title: string, r: ProjectRow) {
    r.title == title && InGroupOf(dir, r.submittedBy, caller)
  }

  function HistoryUpTo(rows: map<RowId, ProjectRow>, dir: Directory, caller: UserId, title: string, k: int): (s: seq<RowId>)
    ensures forall i :: 0 <= i < |s| ==> s[i] in rows && InHistory(dir, caller, title, rows[s[i]]) && 1 <= s[i] <= k
    ensures forall id :: 1 <= id <= k && id in rows && InHistory(dir, caller, title, rows[id]) ==> id in s
    ensures forall i, j :: 0 <= i < j < |s| ==> s[i] < s[j]
    decreases k
  {
    if k < 1 then []
    else if k in rows && InHistory(dir, caller, title, rows[k]) then HistoryUpTo(rows, dir, caller, title, k - 1) + [k]
    else HistoryUpTo(rows, dir, caller, title, k - 1)
  }

  /**
   * The version-history request: the project must be the caller's or a
   * group mate's; then every row with the same title submitted inside the
   * caller's group (archived ones included), in version order.  A caller
   * with no group gets an empty history even for their own project.
   */
  function VersionHistory(rows: map<RowId, ProjectRow>, next: int, dir: Directory, caller: UserId, id: RowId): (h: seq<RowId>)
    requires IdsBelow(rows, next)
    ensures AllStored(rows, h) && SortedByVersion(rows, h)
    ensures forall x :: x in h <==>
      (id in rows && OwnOrGroup(dir, rows[id].submittedBy, caller)
       && x in rows && InHistory(dir, caller, rows[id].title, rows[x]))
    ensures GroupOf(dir, caller).None? ==> h == []
  {
    if id in rows && OwnOrGroup(dir, rows[id].submittedBy, caller) then
      var ids := HistoryUpTo(rows, dir, caller, rows[id].title, next - 1);
      var h := SortByVersion(rows, ids);
      assert forall x :: x in h <==> x in multiset(h);
      assert forall x :: x in ids <==> x in multiset(ids);
      h
    else []
  }

  // ---------------------------------------------------------------------
  // The edit request (the Edit button's POST)

  datatype EditOutcome = OpenEditor | VersionLimitReached | EditNotFound

  /** The edit request: access by own or group row, then the version cap. */
  function EditRequest(rows: map<RowId, ProjectRow>, dir: Directory, caller: UserId, id: RowId): (r: EditOutcome)
    ensures r == OpenEditor <==>
      id in rows && OwnOrGroup(dir, rows[id].submittedBy, caller) && EffectiveVersion(rows[id]) < MaxVersion
    ensures r == EditNotFound <==> !(id in rows && OwnOrGroup(dir, rows[id].submittedBy, caller))
  {
    if !(id in rows && OwnOrGroup(dir, rows[id].submittedBy, caller)) then EditNotFound
    else if EffectiveVersion(rows[id]) >= MaxVersion then VersionLimitReached
    else OpenEditor
  }

  // ---------------------------------------------------------------------
  // A new version replaces its predecessor in the table

  /** The table after an update: the edited row archived, the new version inserted. */
  function WithNewVersion(rows: map<RowId, ProjectRow>, id: RowId, newId: RowId, r: ProjectRow): map<RowId, ProjectRow>
    requires id in rows
  {
    rows[id := rows[id].(archived := true)][newId := r]
  }

  /**
   * Editing a row that was still listed swaps it for its new version;
   * editing a row that was already archived (a stale version) adds the new
   * version without hiding anything, so the lineage then lists two rows
   * and the group's listing grows by one.
   */
  lemma NewVersionListing(rows: map<RowId, ProjectRow>, id: RowId, newId: RowId, r: ProjectRow,
                          dir: Directory, caller: UserId)
    requires id in rows && newId !in rows && Listed(dir, caller, r)
    ensures var after := ActiveSet(WithNewVersion(rows, id, newId, r), dir, caller);
      after == ActiveSet(rows, dir, caller) - {id} + {newId}
      && (rows[id].archived ==> after == ActiveSet(rows, dir, caller) + {newId})
      && (rows[id].archived ==> |after| == |ActiveSet(rows, dir, caller)| + 1)
  {
    var before := ActiveSet(rows, dir, caller);
    var m := WithNewVersion(rows, id, newId, r);
    var after := ActiveSet(m, dir, caller);
    forall x
      ensures x in after <==> x in before - {id} + {newId}
    {
      if x == newId {
        assert m[x] == r;
      } else if x == id {
        assert !Listed(dir, caller, m[x]);
      } else {
        assert x in m <==> x in rows;
        assert x in rows ==> m[x] == rows[x];
      }
    }
    assert after == before - {id} + {newId};
    if rows[id].archived {
      assert id !in before;
      assert before - {id} == before;
      assert newId !in before;
    }
  }

  /**
   * When the archiving UPDATE fails unnoticed, the new version is added
   * and the edited row stays listed: the caller's active set grows by the
   * new id, and an edited row that was listed stays listed beside it.
   */
  lemma UnarchivedNewVersionListing(rows: map<RowId, ProjectRow>, id: RowId, newId: RowId, r: ProjectRow,
                                    dir: Directory, caller: UserId)
    requires newId !in rows && Listed(dir, caller, r)
    ensures var after := ActiveSet(rows[newId := r], dir, caller);
      after == ActiveSet(rows, dir, caller) + {newId}
      && (id in ActiveSet(rows, dir, caller) ==> id in after && newId in after && id != newId)
  {
    var before := ActiveSet(rows, dir, caller);
    var m := rows[newId := r];
    forall x
      ensures x in ActiveSet(m, dir, caller) <==> x in before + {newId}
    {
      if x != newId {
        assert x in m <==> x in rows;
        assert x in rows ==> m[x] == rows[x];
      }
    }
  }

  // ---------------------------------------------------------------------
  // The table

  datatype SubmitOutcome = Created(id: RowId) | NotAccepted | Invalid(error: FieldError) | InsertFailed

  datatype UpdateOutcome =
    | NewVersion(newId: RowId)
    | UpdateNotFound
    | UpdateVersionLimit
    | UpdateInvalid(error: FieldError)
    | UpdateInsertFailed

  datatype DeleteOutcome =
    | Deleted
    | NotDeletable
    | DeleteFailed   // "Error deleting the project. ..."; the approval row is already gone

  /** `project_working_titles` with its `project_approvals` rows. */
  class ProjectTable {
    var rows: map<RowId, ProjectRow>
    var approvals: map<RowId, Approval>
    var nextId: RowId

    /** Ids come from the counter, approval rows belong to stored rows, versions stay in 1..5. */
    ghost predicate Valid()
      reads this
    {
      nextId >= 1 && IdsBelow(rows, nextId)
      && approvals.Keys <= rows.Keys
      && forall id :: id in rows ==> 1 <= EffectiveVersion(rows[id]) <= MaxVersion
    }

    constructor ()
      ensures Valid() && rows == map[] && approvals == map[] && nextId == 1
    {
      rows := map[];
      approvals := map[];
      nextId := 1;
    }

    /** The caller's listed rows, newest first. */
    function Listing(dir: Directory, caller: UserId): seq<RowId>
      reads this
    {
      ListingUpTo(rows, dir, caller, nextId - 1)
    }

    /**
     * A new proposal (a POST without an action): only while the group lists
     * fewer than three rows; it is stored as version 1 with a pending
     * faculty stage.  `insertOk` is whether the project INSERT succeeds and
     * `approvalOk` whether the approval-row INSERT after it does; the page
     * does not check the latter, so a failure leaves the project without an
     * approval row and still reports success.
     */
    method SubmitNew(dir: Directory, caller: UserId, form: TitleForm, insertOk: bool, approvalOk: bool)
      returns (r: SubmitOutcome)
      requires Valid()
      modifies this
      ensures Valid()
      ensures old(IsSubmitted(rows, nextId, dir, caller)) ==> r == NotAccepted
      ensures !old(IsSubmitted(rows, nextId, dir, caller)) && Validate(Cleaned(form)).Some? ==>
        r == Invalid(Validate(Cleaned(form)).value)
      ensures !old(IsSubmitted(rows, nextId, dir, caller)) && Validate(Cleaned(form)).None? ==>
        r == (if insertOk then Created(old(nextId)) else InsertFailed)
      ensures r.Created? ==>
        rows == old(rows)[r.id := RowOf(Cleaned(form), caller, 1, None)]
        && approvals == (if approvalOk then old(approvals)[r.id := InitialApproval] else old(approvals))
        && nextId == old(nextId) + 1
      ensures !r.Created? ==> rows == old(rows) && approvals == old(approvals) && nextId == old(nextId)
    {
      if IsSubmitted(rows, nextId, dir, caller) {
        return NotAccepted;
      }
      var c := Cleaned(form);
      var err := Validate(c);
      if err.Some? {
        return Invalid(err.value);
      }
      if !insertOk {
        return InsertFailed;
      }
      var id := nextId;
      rows := rows[id := RowOf(c, caller, 1, None)];
      if approvalOk {
        approvals := approvals[id := InitialApproval];
      }
      nextId := nextId + 1;
      r := Created(id);
    }

    /**
     * The update handler: a new version of an own or group row below the
     * version cap.  It does not look at `archived` or at the approval
     * stages.  The edited row is archived before the insert, so a failed
     * insert leaves it archived; the new version is submitted by the editor,
     * keeps the adviser, and gets a copy of the approval row if one exists.
     * `archiveOk`, `insertOk` and `copyOk` are whether the archiving UPDATE,
     * the new version's INSERT and the approval copy succeed; the page
     * checks only the INSERT.  A failed archive leaves the edited row listed
     * beside its new version; a failed copy leaves the new version without
     * an approval row.
     */
    method UpdateSubmission(dir: Directory, caller: UserId, id: RowId, form: TitleForm,
                            archiveOk: bool, insertOk: bool, copyOk: bool)
      returns (r: UpdateOutcome)
      requires Valid()
      modifies this
      ensures Valid()
      ensures EditRequest(old(rows), dir, caller, id) == EditNotFound <==> r == UpdateNotFound
      ensures EditRequest(old(rows), dir, caller, id) == VersionLimitReached <==> r == UpdateVersionLimit
      ensures EditRequest(old(rows), dir, caller, id) == OpenEditor ==>
        r == (if Validate(Cleaned(form)).Some? then UpdateInvalid(Validate(Cleaned(form)).value)
              else if insertOk then NewVersion(old(nextId)) else UpdateInsertFailed)
      ensures r == UpdateInsertFailed ==>
        id in old(rows)
        && rows == (if archiveOk then old(rows)[id := old(rows)[id].(archived := true)] else old(rows))
        && approvals == old(approvals) && nextId == old(nextId)
      ensures r.NewVersion? ==>
        id in old(rows) && nextId == old(nextId) + 1
        && (var newRow := RowOf(Cleaned(form), caller, EffectiveVersion(old(rows)[id]) + 1, old(rows)[id].notedBy);
            rows == (if archiveOk then WithNewVersion(old(rows), id, r.newId, newRow) else old(rows)[r.newId := newRow]))
        && approvals == (if id in old(approvals) && copyOk then old(approvals)[r.newId := old(approvals)[id]]
                         else old(approvals))
      ensures r == UpdateNotFound || r == UpdateVersionLimit || r.UpdateInvalid? ==>
        rows == old(rows) && approvals == old(approvals) && nextId == old(nextId)
    {
      var c := Cleaned(form);
      var err := Validate(c);
      if !(id in rows && OwnOrGroup(dir, rows[id].submittedBy, caller)) {
        assert EditRequest(rows, dir, caller, id) == EditNotFound;
        return UpdateNotFound;
      }
      var current := EffectiveVersion(rows[id]);
      if current >= MaxVersion {
        assert EditRequest(rows, dir, caller, id) == VersionLimitReached;
        return UpdateVersionLimit;
      }
      assert EditRequest(rows, dir, caller, id) == OpenEditor;
      if err.Some? {
        return UpdateInvalid(err.value);
      }
      var edited := rows[id];
      if archiveOk {
        // the archiving UPDATE runs before the INSERT, whatever becomes of it
        rows := rows[id := edited.(archived := true)];
      }
      if !insertOk {
        return UpdateInsertFailed;
      }
      var newRow := RowOf(c, caller, current + 1, edited.notedBy);
      assert EffectiveVersion(newRow) == current + 1 <= MaxVersion;
      var newId := InsertVersion(id, newRow, copyOk);
      r := NewVersion(newId);
    }

    /**
     * The new version's INSERT under the next id, then the copy of the
     * edited row's approval row when there is one and the copy succeeds.
     */
    method InsertVersion(id: RowId, row: ProjectRow, copyOk: bool) returns (newId: RowId)
      requires Valid() && 1 <= EffectiveVersion(row) <= MaxVersion
      modifies this
      ensures Valid() && newId == old(nextId) && newId !in old(rows) && nextId == old(nextId) + 1
      ensures rows == old(rows)[newId := row]
      ensures approvals == (if id in old(approvals) && copyOk then old(approvals)[newId := old(approvals)[id]]
                            else old(approvals))
    {
      newId := nextId;
      rows := rows[newId := row];
      if id in approvals && copyOk {
        approvals := approvals[newId := approvals[id]];
      }
      nextId := nextId + 1;
    }

    /**
     * Delete: an own or group row with no adviser, together with its
     * approval row.  The approval row is deleted first and unconditionally;
     * `deleteOk` is whether the DELETE of the project row then succeeds.
     */
    method DeleteSubmission(dir: Directory, caller: UserId, id: RowId, deleteOk: bool) returns (r: DeleteOutcome)
      requires Valid()
      modifies this
      ensures Valid()
      ensures r != NotDeletable <==>
        id in old(rows) && OwnOrGroup(dir, old(rows)[id].submittedBy, caller) && old(rows)[id].notedBy.None?
      ensures r != NotDeletable ==> (r == Deleted <==> deleteOk)
      ensures r == Deleted ==> rows == old(rows) - {id} && approvals == old(approvals) - {id}
      ensures r == DeleteFailed ==> rows == old(rows) && approvals == old(approvals) - {id}
      ensures r == NotDeletable ==> rows == old(rows) && approvals == old(approvals)
      ensures nextId == old(nextId)
    {
      if id in rows && OwnOrGroup(dir, rows[id].submittedBy, caller) && rows[id].notedBy.None? {
        approvals := approvals - {id};
        if !deleteOk {
          return DeleteFailed;
        }
        rows := rows - {id};
        return Deleted;
      }
      return NotDeletable;
    }
  }
}

=== FILE: records.dfy ===
/**
 * The rows the student pages read and write, and the student directory
 * that decides group membership.  Users are identified by one number
 * (`users.id`; the pages that look students up by e-mail address reach the
 * same person).
 */
module Records {
  import opened PhpStrings

  datatype Option<T> = None | Some(value: T)

  type UserId = int
  type RowId = int

  // ---------------------------------------------------------------------
  // students table

  /** A `students` row: group code and year/section, both nullable. */
  datatype Student = Student(groupCode: Option<string>, yearSection: Option<string>)

  /** The `students` table keyed by user. */
  type Directory = map<UserId, Student>

  function GroupOf(dir: Directory, u: UserId): Option<string> {
    if u in dir then dir[u].groupCode else None
  }

  /**
   * `submitted_by IN (SELECT ... WHERE group_code = (SELECT group_code ... caller))`:
   * SQL equality with a NULL group code matches nothing, so a caller
   * without a group has no group mates, not even themself.
   */
  predicate InGroupOf(dir: Directory, member: UserId, caller: UserId) {
    GroupOf(dir, caller).Some? && GroupOf(dir, member) == GroupOf(dir, caller)
  }

  /** `submitted_by = caller OR submitted_by IN (caller's group)` */
  predicate OwnOrGroup(dir: Directory, owner: UserId, caller: UserId) {
    owner == caller || InGroupOf(dir, owner, caller)
  }

  lemma GroupMatesAreSymmetric(dir: Directory, a: UserId, b: UserId)
    requires InGroupOf(dir, a, b)
    ensures InGroupOf(dir, b, a)
  {
  }

  /** Without a group code a caller reaches only their own rows. */
  lemma UngroupedSeesOnlyOwn(dir: Directory, owner: UserId, caller: UserId)
    requires GroupOf(dir, caller).None?
    ensures OwnOrGroup(dir, owner, caller) <==> owner == caller
  {
  }

  /** `year_section` read as PHP does: NULL becomes "". */
  function YearSection(st: Student): string {
    if st.yearSection.Some? then st.yearSection.value else ""
  }

  /** `strlen($ys) > 0 && substr($ys, 0, 1) === '4'` */
  predicate StartsWithFour(ys: string) {
    |ys| > 0 && ys[0] == '4'
  }

  /**
   * The fourth-year test of the dashboard and the final-defense page:
   * a student without a `students` row is let through.
   */
  predicate IsFourthYear(dir: Directory, u: UserId) {
    u !in dir || StartsWithFour(YearSection(dir[u]))
  }

  /**
   * The fourth-year test behind the title-defense page's Next button:
   * here a student without a `students` row is refused.
   */
  predicate RowSaysFourthYear(dir: Directory, u: UserId) {
    u in dir && StartsWithFour(YearSection(dir[u]))
  }

  /** The two tests differ exactly on students that have no row. */
  lemma FourthYearTestsDifferOnMissingRow(dir: Directory, u: UserId)
    ensures RowSaysFourthYear(dir, u) ==> IsFourthYear(dir, u)
    ensures IsFourthYear(dir, u) && !RowSaysFourthYear(dir, u) <==> u !in dir
  {
  }

  // ---------------------------------------------------------------------
  // project_approvals

  /** A stage column of `project_approvals`; `Unset` is a column left at its default. */
  datatype Stage = StagePending | StageApproved | StageRejected | Unset

  datatype Approval = Approval(
    faculty: Stage, facultyComments: Option<string>,
    adviser: Stage, adviserComments: Option<string>,
    dean: Stage, deanComments: Option<string>)

  // ---------------------------------------------------------------------
  // project_working_titles

  datatype ProjectRow = ProjectRow(
    proponents: seq<string>,   // proponent_1 .. proponent_4
    title: string,
    beneficiary: string,
    focalPerson: string,
    gender: string,
    position: string,
    address: string,
    submittedBy: UserId,
    version: Option<int>,      // NULL on rows older than versioning
    notedBy: Option<UserId>,   // the capstone adviser, NULL until assigned
    archived: bool)

  /** `$row['version'] ?? 1` */
  function EffectiveVersion(r: ProjectRow): int {
    if r.version.Some? then r.version.value else 1
  }

  // ---------------------------------------------------------------------
  // title_defense / final_defense

  datatype GateStatus = Pending | Approved | Rejected

  /** A defense record: the uploaded document, its review status and schedule. */
  datatype DefenseRecord = DefenseRecord(
    submittedBy: UserId,
    file: string,
    status: GateStatus,
    scheduled: Option<int>,
    remarks: Option<string>)

  // ---------------------------------------------------------------------
  // manuscript_reviews

  datatype ReviewStatus = ReviewPending | UnderReview | ReviewApproved | ReviewRejected

  datatype Review = Review(
    projectId: RowId,
    studentId: Option<UserId>,
    file: string,
    status: ReviewStatus,
    grammarianNotes: Option<string>,
    dateSubmitted: int,
    dateReviewed: Option<int>,
    reviewedBy: Option<UserId>,
    reviewedFile: Option<string>)

  // ---------------------------------------------------------------------
  // capstone (the research repository)

  datatype CapstoneRow = CapstoneRow(
    title: string,
    author: string,
    year: int,
    abstractText: string,
    keywords: string,
    documentPath: string,
    userId: UserId,
    status: string)

  // ---------------------------------------------------------------------
  // bookmarks

  datatype Bookmark = Bookmark(userId: UserId, researchId: RowId)

  // ---------------------------------------------------------------------
  // "ORDER BY id DESC LIMIT 1" over an AUTO_INCREMENT table

  /**
   * The highest id in 1..k whose row satisfies p: the row an
   * `ORDER BY id DESC LIMIT 1` query picks when every id is at most k.
   */
  function HighestWhere<R>(m: map<RowId, R>, p: R -> bool, k: int): (r: Option<RowId>)
    ensures r.Some? ==> 1 <= r.value <= k && r.value in m && p(m[r.value])
    ensures r.Some? ==> forall j :: r.value < j <= k && j in m ==> !p(m[j])
    ensures r.None? ==> forall j :: 1 <= j <= k && j in m ==> !p(m[j])
    decreases k
  {
    if k < 1 then None
    else if k in m && p(m[k]) then Some(k)
    else HighestWhere(m, p, k - 1)
  }

  /** Ids of m are bounded by `next` (the AUTO_INCREMENT counter) and positive. */
  predicate IdsBelow<R>(m: map<RowId, R>, next: int) {
    forall id :: id in m ==> 1 <= id < next
  }

  /** The latest matching row is the unique maximum of the matching ids. */
  lemma HighestWhereIsMax<R>(m: map<RowId, R>, p: R -> bool, next: int)
    requires IdsBelow(m, next)
    ensures var r := HighestWhere(m, p, next - 1);
      (r.None? <==> forall id :: id in m ==> !p(m[id]))
      && (r.Some? ==> forall id :: id in m && p(m[id]) ==> id <= r.value)
  {
  }

  // ---------------------------------------------------------------------
  // Generic counting used by the list pages

  function CountWhere<T>(s: seq<T>, p: T -> bool): (n: nat)
    ensures n <= |s|
  {
    if s == [] then 0 else (if p(s[0]) then 1 else 0) + CountWhere(s[1..], p)
  }

  /** Counting over two lists one after the other adds their counts. */
  lemma {:induction false} CountWhereConcat<T>(a: seq<T>, b: seq<T>, p: T -> bool)
    ensures CountWhere(a + b, p) == CountWhere(a, p) + CountWhere(b, p)
    decreases |a|
  {
    if a != [] {
      CountWhereConcat(a[1..], b, p);
      assert (a + b)[0] == a[0];
      assert (a + b)[1..] == a[1..] + b;
    } else {
      assert a + b == b;
    }
  }

  /** Appending one element adds one exactly when it satisfies the condition. */
  lemma CountWhereAppend<T>(s: seq<T>, x: T, p: T -> bool)
    ensures CountWhere(s + [x], p) == CountWhere(s, p) + (if p(x) then 1 else 0)
  {
    CountWhereConcat(s, [x], p);
    assert [x][1..] == [];
  }
}
